=== FILE: README.md ===
# Bulk subscription cancellation — a Dafny model

This project models the core of a command-line tool that cancels, revokes or
validates Google Play subscriptions in bulk. The tool reads purchase tokens from a
CSV file and calls the Android Publisher API once per row, retrying transient
errors with exponential backoff. It writes one JSON line per processed row to an
audit log and appends tokens to checkpoint files so that a later run can resume.
A companion report script summarises such a log and exports it as CSV.

What is modelled:

- `scripts/cancel_subscriptions.py`:
  - the error classifier;
  - the three retrying API wrappers (cancel, get, revoke-prorated);
  - header resolution and per-row field picking;
  - checkpoint loading and appending;
  - reservoir sampling;
  - the config-file merge and the required-option check;
  - the row loop of `run`.
- `cancel_subscriptions.py` at the repository root: the older single-mode script.
  It is modelled as a variant, and the model proves how it differs.
- `scripts/report_cancellation_log.py`: loading, summarising and CSV export.

Design:

- The API is a response oracle. For each row, a sequence lists the response to
  each attempt: success with a payload, an HTTP error with a status and message,
  or another exception.
- Files are strings. A file's text is what Python reads in text mode after
  universal-newline translation, so `'\r\n'` and a lone `'\r'` have already
  become `'\n'`; lines are split at `'\n'`. Checkpoint tokens are therefore
  required to hold neither character (see "## Left out").
- JSON decoding is a function parameter.
- Python's `Counter`s are multisets.
- The argparse namespace is a map from option name to value.

Modules:

| module | file | what it holds |
|---|---|---|
| `Base` | base.dfy | `Option`, `Result`, Python truthiness of an optional string |
| `Text` | text.dfy | `str.strip` (Python's whitespace set), ASCII `str.lower`, substring `in` |
| `Classifier` | classifier.dfy | `classify_error` |
| `Retry` | retry.dfy | the shared retry loop and the three wrappers |
| `Columns` | columns.dfy | `choose_field`, `validate_headers`, `pick_package`, `pick_field`, token reading |
| `Checkpoint` | checkpoint.dfy | line splitting, `load_checkpoint`, `append_checkpoint` |
| `Sampling` | sampling.dfy | `sample_rows` and the `--sample-size`/`--max-rows` row selection |
| `Validation` | validation.dfy | the fields validate mode extracts from a fetched subscription |
| `Driver` | driver.dfy | the set-up checks and one step of the row loop of `run` |
| `RunInvariant`, `RunProperties` | run_invariant.dfy, run_properties.dfy | the loop invariant and the properties of whole runs |
| `Scenario` | scenario.dfy | a three-row run worked through end to end |
| `Config` | config.dfy | `DEFAULTS`, `apply_config`, `validate_required` |
| `Legacy` | legacy.dfy | the root script |
| `Report` | report.dfy | `load_records`, `summarize`, `write_csv` |

## Model

| member | source | states |
|---|---|---|
| Text.Strip | scripts/cancel_subscriptions.py:628 | the result sits in the input with only whitespace before and after it, and it neither starts nor ends with whitespace |
| Text.StripUnique | scripts/cancel_subscriptions.py:628 | any whitespace-free-ended infix surrounded only by whitespace is the result of strip, so strip is fully characterised |
| Text.StripIdempotent | scripts/cancel_subscriptions.py:340 | stripping twice equals stripping once |
| Text.StripEmptyIff | scripts/cancel_subscriptions.py:628-629 | a cell strips to the empty token exactly when it is all whitespace |
| Text.Lower | scripts/cancel_subscriptions.py:120 | lower-casing keeps the length and maps every character through the ASCII lower-case map |
| Text.LowerIdempotent | scripts/cancel_subscriptions.py:120 | lower-casing twice equals lower-casing once |
| Text.ContainsIff | scripts/cancel_subscriptions.py:121-125 | the substring test holds exactly when the pattern occurs at some index |
| Classifier.Classify | scripts/cancel_subscriptions.py:118-127 | already_cancelled iff the lowered message contains both "already" and "cancel"; otherwise not_found iff it contains "not found"; otherwise permission iff it contains "permission" or "forbidden"; otherwise other |
| Classifier.ClassifyCaseInsensitive | scripts/cancel_subscriptions.py:120 | the class of a message does not depend on its letter case |
| Classifier.NameInjective | scripts/cancel_subscriptions.py:118-127 | distinct classes are logged under distinct names |
| Retry.Execute | scripts/cancel_subscriptions.py:145-175 | the attempt count n lies in 1..retries+1; every attempt before n got a 429/500/503; the n-th is the first non-retryable one or the last allowed; the result is built from it; there are n-1 backoff delays, the k-th being base times 2^(k-1); a negative retry count gives the "unknown" failure, no delays, and retries + 1 attempts (zero only for -1, negative below it) |
| Retry.CancelWithRetries | scripts/cancel_subscriptions.py:130-175 | success exactly when the final attempt's response is a success, reported as HTTP 204 with no error type and no payload; a failure is the retry loop's failure unchanged; the backoff delays are the loop's |
| Retry.RevokeProratedWithRetries | scripts/cancel_subscriptions.py:224-263 | success exactly when the final attempt's response is a success, reported as HTTP 204 with no payload; a failure is the retry loop's failure unchanged; the backoff delays are the loop's |
| Retry.GetWithRetries | scripts/cancel_subscriptions.py:178-221 | on success the result is HTTP 200 and carries the payload of the accepted response; a failure is the retry loop's failure unchanged, with no payload; the backoff delays are the loop's |
| Retry.ExceptionStopsAtOnce | scripts/cancel_subscriptions.py:167-174 | a non-HTTP exception after k transient errors ends the call at attempt k+1 as an "exception" failure with no HTTP status and the exception's message |
| Retry.AlwaysTransientExhausts | scripts/cancel_subscriptions.py:153-158 | when every attempt gets a transient status, all retries+1 attempts are made, the call fails with that transient status, and retries delays were waited |
| Retry.DelaysNondecreasing | scripts/cancel_subscriptions.py:155 | with a non-negative base, the backoff delays never shrink |
| Columns.ChooseField | scripts/cancel_subscriptions.py:291-296 | None iff no candidate is a non-empty header name; otherwise the first candidate that is |
| Columns.MissingColumns | scripts/cancel_subscriptions.py:323 | a column is reported missing iff it is required and not in the header |
| Columns.ValidateHeaders | scripts/cancel_subscriptions.py:299-329 | fails for the token column iff no token candidate is in the header; fails for required columns iff a token column exists but some required column is absent, naming exactly the absent ones; on success the token and subscription fields are the first usable candidates |
| Columns.PickPackage | scripts/cancel_subscriptions.py:395-399 | an empty or missing package cell gives the fallback; a non-empty one gives its stripped text |
| Columns.BlankPackageCellDoesNotFallBack | scripts/cancel_subscriptions.py:397-398 | a cell of only spaces is non-empty, so it yields the empty package rather than the fallback |
| Columns.PickField | scripts/cancel_subscriptions.py:402-408 | None iff the field name is unset or not in the row; otherwise the stripped cell |
| Columns.TokenOf | scripts/cancel_subscriptions.py:628 | the token is the stripped cell, and it is empty iff the cell is missing or all whitespace |
| Columns.SubscriptionOf | scripts/cancel_subscriptions.py:653-655 | a subscription id is present iff a subscription column was resolved; it is the stripped cell, and the empty string when the row lacks that column |
| Checkpoint.FirstNewline | scripts/cancel_subscriptions.py:339 | the index of the first newline, or the length when there is none |
| Checkpoint.Lines | scripts/cancel_subscriptions.py:339 | the file splits into non-empty lines (Python yields no empty line) |
| Checkpoint.LinesAppend | scripts/cancel_subscriptions.py:339 | the lines of a newline-terminated text followed by more text are the lines of each part |
| Checkpoint.LinesTerminate | scripts/cancel_subscriptions.py:339 | adding the missing final newline to a text only adds it to the last line read |
| Checkpoint.TokensOf | scripts/cancel_subscriptions.py:339-342 | a token is loaded iff it is non-empty and some line strips to it |
| Checkpoint.LoadCheckpoint | scripts/cancel_subscriptions.py:332-345 | an unset path or a missing file gives the empty set; otherwise exactly the non-empty stripped lines |
| Checkpoint.SuccessCheckpointPath | scripts/cancel_subscriptions.py:541 | the success checkpoint is one of the two options; it is set (non-empty) iff `--checkpoint-success` or `--checkpoint` is, and `--checkpoint-success` wins when given |
| Checkpoint.LoadStored | scripts/cancel_subscriptions.py:332-345 | a configured checkpoint loads the tokens of its stored text, a file that does not exist reading like an empty one |
| Checkpoint.AppendCheckpoint | scripts/cancel_subscriptions.py:348-351 | appending keeps the old content as a prefix, follows it with exactly the token, and ends in a newline |
| Checkpoint.AppendCheckpointOnCompleteLine | scripts/cancel_subscriptions.py:348-351 | on a file whose last line is complete, appending a one-line token makes the loaded set grow by exactly that token |
| Checkpoint.AppendCheckpointMergesUnterminatedLine | scripts/cancel_subscriptions.py:348-351 | appending "tok2" to a file holding "tok1" without a newline loads neither token back |
| Checkpoint.AppendCheckpointLine | scripts/cancel_subscriptions.py:348-351 | the corrected append keeps the old content as a prefix, ends in a newline with the token just before it, and inserts a newline between the two exactly when the old content lacked a final one |
| Checkpoint.TerminateLastLine | scripts/cancel_subscriptions.py:339-342 | terminating an unterminated last line does not change the loaded tokens |
| Checkpoint.AppendCheckpointLineAddsToken | scripts/cancel_subscriptions.py:348-351 | with the corrected append, the loaded set grows by exactly the token whatever the file's last line |
| Checkpoint.AppendAllAddsTokens | scripts/cancel_subscriptions.py:809 | appending a run's one-line tokens with the corrected append adds exactly those tokens to what a resume loads, whatever the checkpoint held |
| Checkpoint.AppendAllAsWrittenAddsTokens | scripts/cancel_subscriptions.py:348-351 | appending a run's one-line tokens with `append_checkpoint` as written, to a file that ends in a complete line, adds exactly those tokens to what a resume loads |
| Sampling.LastWrite | scripts/cancel_subscriptions.py:418-424 | the last row among the first n to be written into a slot, or -1 when none was |
| Sampling.Reservoir | scripts/cancel_subscriptions.py:413-425 | the reservoir has min(n, k) slots, equals the first n rows while n <= k, and each slot holds the last row written into it |
| Sampling.SampleRows | scripts/cancel_subscriptions.py:411-425 | a non-positive size gives no rows; a file no longer than the size is returned whole; each slot holds the last row the random draws wrote into it; every sampled row comes from the input |
| Sampling.SliceTo | scripts/cancel_subscriptions.py:554 | Python's `rows[:m]` for positive and negative m: a prefix of the computed length |
| Sampling.SelectRows | scripts/cancel_subscriptions.py:551-557 | no sample size reads all rows; a negative one reads none; a positive one gives a prefix of the reservoir, as long as `rows[:max_rows]` is for an unset, positive or negative `--max-rows`; every row comes from the input |
| Validation.Extract | scripts/cancel_subscriptions.py:705-718 | eligibility is membership of the state in the four eligible states; the first line item supplies expiry and auto-renew; its non-empty latest order id overrides the top-level one; no payload reads as an empty object |
| Validation.NoPayloadNeverEligible | scripts/cancel_subscriptions.py:705-718 | a failed or dry-run fetch is never eligible |
| Validation.EligibilityIgnoresLineItems | scripts/cancel_subscriptions.py:718 | eligibility depends on the subscription state alone |
| Driver.Setup | scripts/cancel_subscriptions.py:486-532 | a header error iff header validation fails (a missing required column only in revoke-prorated mode, for subscription_state); a missing-package error iff there is neither `--package-name` nor a package column; on success the package, product and order-id columns are the first usable candidates |
| Driver.Triage | scripts/cancel_subscriptions.py:628-649 | a row is skipped for a missing token, then for a token in the skip set, then for a missing package, then for a package differing from `--package-name`; otherwise it is dispatched with its package |
| Driver.Call | scripts/cancel_subscriptions.py:658-693 | the result is a dry run iff the run is dry, with zero attempts; otherwise attempts are in 1..retries+1 and success means the last response succeeded; success reports 200 in validate mode and 204 otherwise; only validate mode carries a payload |
| Driver.BucketOf | scripts/cancel_subscriptions.py:695-785 | the counter a record increments: success, then dry run, then already-cancelled (only outside validate mode, and tested before the status), then transient for 429/500/503, else permanent |
| Driver.Count | scripts/cancel_subscriptions.py:695-785 | counting a processed row adds one to processed and to the one outcome counter its bucket names, leaves every other counter and skipped alone, and keeps processed equal to the sum of outcome counters |
| Driver.SuccessTokens | scripts/cancel_subscriptions.py:803-810 | the success checkpoint receives the token of every successful record and nothing else |
| Driver.FailedTokens | scripts/cancel_subscriptions.py:811-812 | the failure checkpoint receives the token of every unsuccessful record and nothing else |
| Driver.TotalsOf | scripts/cancel_subscriptions.py:476-484 | the counters implied by an audit log: processed is its length, skipped is the skip count, success the number of successful records, no already-cancelled count in validate mode |
| Driver.TotalsOfCounts | scripts/cancel_subscriptions.py:695-785 | each outcome counter implied by a log is the number of its records whose bucket is that counter |
| Driver.TotalsOfBalanced | scripts/cancel_subscriptions.py:657 | every processed row lands in exactly one outcome counter |
| Driver.EligibleOf | scripts/cancel_subscriptions.py:719-731 | the eligible export holds the export row of every eligible record, and every row in it is that of some eligible record |
| Driver.IneligibleOf | scripts/cancel_subscriptions.py:732-748 | the ineligible export holds the entry (row plus status and error fields) of every validated record that is not eligible, and every entry in it is that of such a record |
| Driver.RequestsOf | scripts/cancel_subscriptions.py:662-693 | one Request per logged row, for its token and with its attempt count; attempts of zero or less mean no call was made |
| Driver.Skip | scripts/cancel_subscriptions.py:629-649 | a skipped row increments skipped and the rows looked at; every other part of the state (outcome counters, log, calls, checkpoints, exports, skip set) stays as it was |
| Driver.RecordOf | scripts/cancel_subscriptions.py:750-800 | the record carries the row's token, package and index; the call's status, attempts, HTTP status, error type and message; the subscription id, product and order id read from the row; the fields extracted from the payload exactly in validate mode; the raw response exactly in validate mode with `--log-response` |
| Driver.Record | scripts/cancel_subscriptions.py:776-812 | a processed row appends its record to the log and increments the counter its outcome selects |
| Driver.Step | scripts/cancel_subscriptions.py:624-816 | each row either increments skipped or appends one record, never both |
| Driver.RunFrom | scripts/cancel_subscriptions.py:624-626 | the loop looks at no more rows than remain |
| RunInvariant.Replay | scripts/cancel_subscriptions.py:624-816 | the state implied by an audit log and a skip count keeps that log and count |
| RunProperties.InitCoherent | scripts/cancel_subscriptions.py:476-549 | the state before the first row satisfies the loop invariant |
| RunProperties.SkipKeeps | scripts/cancel_subscriptions.py:629-649 | skipping a row keeps the loop invariant |
| RunProperties.RecordReplay | scripts/cancel_subscriptions.py:776-812 | recording a row in a replayed state gives the replay of the longer log |
| RunProperties.RecordKeeps | scripts/cancel_subscriptions.py:776-812 | recording an admitted row whose token is not in the skip set keeps the loop invariant |
| RunProperties.StepCases | scripts/cancel_subscriptions.py:624-816 | a step is a dispatch and record exactly when triage dispatches the row, and a skip otherwise |
| RunProperties.DispatchAdmitted | scripts/cancel_subscriptions.py:628-693 | a dispatched row's record passes every skip rule against the loaded tokens |
| RunProperties.StepKeeps | scripts/cancel_subscriptions.py:624-816 | every step keeps the loop invariant |
| RunProperties.RunCoherent | scripts/cancel_subscriptions.py:624-816 | the whole run ends in a state the invariant describes: every counter, checkpoint append, export and remote call is a projection of the audit log |
| RunProperties.RunAccounts | scripts/cancel_subscriptions.py:625-657 | processed plus skipped is the number of rows looked at; processed is the number of log lines and equals the sum of outcome counters |
| RunProperties.RunRespectsMaxRows | scripts/cancel_subscriptions.py:625-626 | a positive `--max-rows` bounds processed; without it every row is looked at |
| RunProperties.DryRunHasNoSideEffects | scripts/cancel_subscriptions.py:659-672 | a dry run makes no remote call, appends no checkpoint, leaves the skip set as loaded, and logs every row as a zero-attempt dry run |
| RunProperties.CheckpointedNeverDispatched | scripts/cancel_subscriptions.py:541-636 | with the skip set loaded from `--checkpoint-success`, else `--checkpoint`: no loaded token is called or logged, no logged token is a stripped line of that file, and with a success checkpoint no token succeeds twice |
| RunProperties.CheckpointRouting | scripts/cancel_subscriptions.py:803-812 | successes go to the success checkpoint and all other outcomes to the failure checkpoint, each only when that file is configured |
| RunProperties.ValidateExports | scripts/cancel_subscriptions.py:718-748 | the exports are those the run's log implies; in validate mode every record is validated and its row lands in the eligible or the ineligible export as its eligibility says, every exported row comes from a record of that kind, and the two exports together have one row per processed row; in the other modes both stay empty |
| RunProperties.ExportsPartition | scripts/cancel_subscriptions.py:718-748 | each export has exactly as many rows as the log has records of its kind, so in validate mode the two split the log; outside validate mode both are empty |
| RunProperties.ResumeReadsBackSkipSet | scripts/cancel_subscriptions.py:541-549 | with the skip set loaded from `--checkpoint-success`, else `--checkpoint`, and that file ending in a complete line: the file after the run, with each success appended as `append_checkpoint` writes it, loads back as exactly the run's final skip set; with no checkpoint the skip set stays empty |
| RunProperties.ResumeReadsBackSkipSetCorrected | scripts/cancel_subscriptions.py:541-549 | with the corrected append the same read-back holds whatever the file's last line |
| Scenario.ScenarioTotals | scripts/cancel_subscriptions.py:624-816 | three dispatched rows with answers accept, 503 then accept, and 404 give processed 3, success 2, permanent 1, and two attempts for the second row |
| Scenario.NotFoundMessage | scripts/cancel_subscriptions.py:123-124 | the message "not found" is classified as not_found |
| Config.ApplyEntry | scripts/cancel_subscriptions.py:432-441 | one config pair changes only its own option, and only when the value is not null and the option is still at its default |
| Config.ApplyConfig | scripts/cancel_subscriptions.py:428-442 | the set of options never changes, and no config leaves the namespace as it is |
| Config.ApplyConfigMerged | scripts/cancel_subscriptions.py:428-442 | the merge loop equals the option-by-option reference merge |
| Config.CliWins | scripts/cancel_subscriptions.py:436-440 | an option the command line moved off its default keeps the command-line value whatever the config says |
| Config.ConfigFillsDefaults | scripts/cancel_subscriptions.py:436-441 | an option still at its default takes the config's non-null value |
| Config.ApplyConfigIdempotent | scripts/cancel_subscriptions.py:428-442 | merging the same config twice is the same as merging it once |
| Config.MissingNames | scripts/cancel_subscriptions.py:456-460 | an option is listed missing iff it is asked for and is None or empty |
| Config.ValidateRequired | scripts/cancel_subscriptions.py:454-462 | passes iff every required option is non-blank; otherwise fails naming exactly the blank ones |
| Legacy.CancelWithRetries | cancel_subscriptions.py:84-130 | the root cancel succeeds iff the last response succeeds, reporting HTTP 200 and no payload; a failure is the retry loop's failure unchanged; the backoff delays are the loop's |
| Legacy.SuccessCodeOnlyDifference | cancel_subscriptions.py:105 | the root and scripts cancels agree on everything except the success status code, 200 against 204 |
| Legacy.Setup | cancel_subscriptions.py:166-196 | the root header check fails iff none of the four token candidates is a header name; on success the token and subscription columns are the first usable candidates |
| Legacy.BucketOf | cancel_subscriptions.py:302-311 | the root counter rules, equal to the scripts' cancel-mode rules |
| Legacy.Call | cancel_subscriptions.py:290-300 | the root outcome is a dry run iff `--dry-run` is set, and then it has zero attempts, no HTTP status and no error type; otherwise it is the retry loop's result |
| Legacy.RecordBucket | cancel_subscriptions.py:302-311 | a record is counted as success iff its status is success, as dry run iff its status is dry run, and as already cancelled iff it failed with error type `already_cancelled` |
| Legacy.Count | cancel_subscriptions.py:289-311 | processed and exactly the counter of the row's bucket grow by one, every other counter is unchanged, and balanced totals stay balanced |
| Legacy.Step | cancel_subscriptions.py:278-324 | an empty token changes nothing (the root keeps no skipped counter); otherwise one record is appended with that token, the row index, the row's subscription id and the status, attempts, HTTP status, error type and message of the call's outcome, the totals are counted by that record's bucket, and one request is added unless dry run |
| Legacy.LogTotalsCounts | cancel_subscriptions.py:289-311 | the totals a root log implies have processed equal to its length and each counter equal to the number of its records in that bucket |
| Legacy.RunTallies | cancel_subscriptions.py:277-324 | after a root run the totals are those its log implies: `success` is the number of successful records, and likewise for every other counter |
| Legacy.RunFrom | cancel_subscriptions.py:278-280 | the root row loop from a given row on, stopping once `--max-rows` rows were processed; no contract of its own (see "## Left out") |
| Legacy.Run | cancel_subscriptions.py:277-328 | the root `run` over all rows from the empty state; no contract of its own (see "## Left out") |
| Legacy.RunConsistent | cancel_subscriptions.py:277-328 | after a root run, processed equals the log length and the outcome sum, a dry run makes no call and logs zero-attempt dry runs, otherwise one call per record for `--package-name`, and every logged token is stripped and non-empty |
| Legacy.RunLogsEveryToken | cancel_subscriptions.py:278-285 | without `--max-rows` the log holds the non-empty stripped tokens of the rows, in order |
| Legacy.RunRespectsMaxRows | cancel_subscriptions.py:279-280 | a positive `--max-rows` bounds processed; a negative one stops the root loop before its first row |
| Legacy.ApplyConfig | cancel_subscriptions.py:199-208 | the root merge keeps the set of options |
| Legacy.ConfigWins | cancel_subscriptions.py:203-207 | every non-null config value overwrites its option |
| Legacy.OverwriteAbsent | cancel_subscriptions.py:203-207 | an option the config does not name, or names only with null, keeps its command-line value |
| Legacy.ConfigOverridesCli | cancel_subscriptions.py:199-208 | `--retries 5` with a config of retries 1 ends as 1 in the root script and 5 in the scripts version |
| Legacy.PackageNameRequiredOnlyAtRoot | cancel_subscriptions.py:220-228 | without a package name the scripts version passes its required check and the root refuses, naming package_name |
| Report.LoadLines | scripts/report_cancellation_log.py:28-38 | at most one value per line |
| Report.LoadRecords | scripts/report_cancellation_log.py:28-38 | `load_records` yields at most one value per line of the log, and a value is yielded iff some line of the log strips to a non-blank text that decodes to it |
| Report.LoadLinesMembers | scripts/report_cancellation_log.py:30-35 | a value is loaded iff some non-blank stripped line decodes to it |
| Report.LoadRecordsAppend | scripts/report_cancellation_log.py:28-38 | the records of two logs written one after the other are the first log's records followed by the second's |
| Report.Summarize | scripts/report_cancellation_log.py:41-53 | fails iff some record is not an object, at the first such; otherwise gives the rows plus the status, error-type and HTTP-status counts the reference tally defines |
| Report.AddTallies | scripts/report_cancellation_log.py:46-52 | one loop iteration extends the reference tally by one record |
| Report.FailureRowsMembers | scripts/report_cancellation_log.py:49 | a record is counted as a failure iff it is in the log and its status is "failure" |
| Report.SummaryAccounts | scripts/report_cancellation_log.py:41-53 | the status counts add up to the number of records, and the error-type and HTTP counts each add up to the failure count |
| Report.DecimalStringInjective | scripts/report_cancellation_log.py:51 | distinct integer HTTP statuses are counted under distinct keys |
| Report.Project | scripts/report_cancellation_log.py:63 | a CSV row has one cell per export column: the field's text, or empty when the record lacks it or it is null |
| Report.SkippedByFailureExport | scripts/report_cancellation_log.py:61-62 | the failures-only export skips a row iff its status is not "failure" |
| Report.WriteCsv | scripts/report_cancellation_log.py:56-63 | the header row is the export columns, followed by one projected row per kept record, in order |

## Left out

- The Google API client, credentials and `build_service` are left out. Their role is played by the response oracle.
- `parse_http_error` is left out. An HTTP error arrives already decoded into a status and message.
- File I/O, CSV and JSON encoding, and `load_rows`/`count_rows` are left out. Files are strings; rows are maps; JSON decoding is a parameter.
- `load_config` is left out; a config is its list of pairs.
- The clock, timestamps, `build_log_path`, `append_timestamp`, `apply_stamp_dir` and `ensure_parent_dir` are left out. They only choose file names.
- `time.sleep`, the `--delay` pause, `tqdm`, argparse, `main`, `print_summary` and the prints to stderr are left out. None of them changes a result.
- Retry.Execute: the delays are the backoff before jitter. `random.uniform(0, jitter)` is not modelled, and the delays are real numbers rather than floats.
- Sampling.SampleRows: `random.randint` is a parameter (`draws`). It must lie in the range Python guarantees.
- The oracle holds at least retries+1 responses for every row. This is a property of the environment: the API answers every attempt.
- Text.Lower: lower-cases ASCII letters only. The classifier's keywords are ASCII, but a non-ASCII capital that Python lower-cases into one of their letters is not modelled.
- RunProperties.ResumeReadsBackSkipSet: requires that no token cell contains `'\n'` or `'\r'`. Such a token is written as one checkpoint entry but read back by Python's universal-newline reading as two lines.
- RunProperties.ResumeReadsBackSkipSetCorrected: requires that no token cell contains `'\n'` or `'\r'`, for the same reason.
- Checkpoint.AppendCheckpointOnCompleteLine: requires the token to hold no `'\n'` or `'\r'`. A token with `'\r'` is written as one line but read back as two.
- Checkpoint.AppendCheckpointLineAddsToken: requires the token to hold no `'\n'` or `'\r'`, for the same reason.
- Checkpoint.AppendAllAddsTokens: requires every token to hold no `'\n'` or `'\r'`, for the same reason.
- Checkpoint.AppendAllAsWrittenAddsTokens: requires every token to hold no `'\n'` or `'\r'`, for the same reason.
- RunProperties.ResumeReadsBackSkipSet: requires the success checkpoint to end in a complete line before the run (new, empty, or written only by the tool). For any other file `append_checkpoint` merges the first success into the unterminated last line; see Findings. RunProperties.ResumeReadsBackSkipSetCorrected drops this requirement for the corrected append.
- RunProperties.ResumeReadsBackSkipSet: the case where `--checkpoint-failed` names the same file as the success checkpoint is not modelled. The two files are treated as distinct.
- Report.Summarize: counter keys are compared as JSON values. Python's `Counter` also merges `True` with `1`, and raises a `TypeError` on an unhashable status or error type (a list or an object, which `JOther` lumps together with floats); neither is modelled, so `Summarize` returns `Ok` where Python would stop at such a record.
- Report.PyStr: floats, lists and nested objects are carried with their Python text rather than rendered.
- Config.ApplyConfigMerged requires a config whose keys are distinct, as they are in a JSON object. Config.CliWins holds without that.
- The classifier has no class for server errors keyed by status code. The code decides by message text alone, and the model follows the code.
- The payload fields beyond those validate mode reads (`subscriptionState`, `lineItems`, `latestOrderId`) are not modelled.

- Report.LoadLines: its own contract only bounds the count. What it yields is stated by Report.LoadLinesMembers and Report.LoadLinesAppend.
- Checkpoint.Lines: its own contract only says that lines are non-empty. The split is pinned down by Checkpoint.LinesAppend, Checkpoint.SingleLine and the token lemmas built on them.
- Driver.RunFrom: its own contract only bounds the rows looked at. Whole-run behaviour is stated by the RunProperties lemmas.
- Legacy.RunFrom: has no contract of its own. Its behaviour is stated by Legacy.RunTallies, Legacy.RunConsistent, Legacy.RunLogsEveryToken and Legacy.RunRespectsMaxRows, through the inductive lemmas they use.
- Legacy.Run: has no contract of its own. Its behaviour is stated by Legacy.RunTallies, Legacy.RunConsistent, Legacy.RunLogsEveryToken and Legacy.RunRespectsMaxRows.
- Legacy.ApplyConfig: its own contract only keeps the set of options. The overwrite behaviour is stated by Legacy.ConfigWins and Legacy.OverwriteAbsent.

## Findings

| source | as written | input that shows it | evidently intended | confidence | as-written member | corrected member |
|---|---|---|---|---|---|---|
| cancel_subscriptions.py:199-208 | the root `apply_config` copies every non-null config value over the parsed arguments, although its docstring says CLI flags win | `--retries 5` with a config file `{"retries": 1}` runs with 1 retry | a config value fills only options the command line left at their defaults, as the scripts version does | not executed | Legacy.ConfigOverridesCli | Config.CliWins |
| scripts/cancel_subscriptions.py:348-351 | `append_checkpoint` writes `token + "\n"` at the end of the file without checking that the file's last line is complete | a checkpoint holding `tok1` with no final newline; appending `tok2` gives the line `tok1tok2`, and a resume skips neither token | the appended token becomes a line of its own, so a resume reads back both tokens | not executed | Checkpoint.AppendCheckpointMergesUnterminatedLine | Checkpoint.AppendCheckpointLineAddsToken |

=== FILE: base.dfy ===
/** Option and Result, the two failure-carrying shapes the model uses in place of
    Python's `None` and raised `ValueError`s. */
module Base {

  /** A value that may be missing, as Python's `Optional[...]`. */
  datatype Option<+T> = None | Some(value: T) {

    /** Returns the value in `Some`, or `default` when `None`. */
    function GetOr(default: T): T {
      match this
      case Some(v) => v
      case None => default
    }
  }

  /** The outcome of a step that may be refused with an error value. */
  datatype Result<+T, +E> = Ok(value: T) | Err(error: E)

  /** Python truthiness of an optional string: neither `None` nor `""`. */
  predicate Truthy(s: Option<string>) {
    s.Some? && s.value != ""
  }

  /** Concatenation regroups freely; the inductive proofs over logs and
      line lists use it to move the split point of a concatenation. */
  lemma ConcatAssoc<T>(a: seq<T>, b: seq<T>, c: seq<T>)
    ensures a + (b + c) == (a + b) + c
  {
  }
}

=== FILE: checkpoint.dfy ===
/** The checkpoint store: newline-delimited token files read at start-up
    (`load_checkpoint`) and appended to during the run (`append_checkpoint`).
    File contents are modelled as the text Python's line iteration sees, after
    universal-newline translation; the file system is a map from path to text. */
module Checkpoint {
  import opened Base
  import opened Text

  /** A file ends in a complete line (or is empty). */
  predicate EndsLine(content: string) {
    content == "" || content[|content| - 1] == '\n'
  }

  /** Text with no character that Python's universal-newline reading takes as
      the end of a line: `'\n'`, or `'\r'` on its own or before `'\n'`. */
  predicate OneLine(s: string) {
    '\n' !in s && '\r' !in s
  }

  /** A token that can be written as one line and read back unchanged. */
  predicate Writable(token: string) {
    token != "" && Clean(token) && OneLine(token)
  }

  /** The index of the first `'\n'` in `s`, or `|s|` when there is none. */
  function FirstNewline(s: string): (k: nat)
    ensures k <= |s|
    ensures forall i :: 0 <= i < k ==> s[i] != '\n'
    ensures k < |s| ==> s[k] == '\n'
  {
    if s == "" then 0
    else if s[0] == '\n' then 0
    else 1 + FirstNewline(s[1..])
  }

  /** Where the first line of `s` ends: just past its `'\n'`, or at the end of
      `s` when it has none. */
  function LineEnd(s: string): (e: nat)
    ensures e <= |s| && (s != "" ==> e > 0)
  {
    var k := FirstNewline(s);
    if k < |s| then k + 1 else |s|
  }

  /** `for line in fh`: the lines of a text, each keeping its `'\n'`; the last
      line lacks one when the text does not end in a newline. */
  function Lines(content: string): (ls: seq<string>)
    ensures forall i :: 0 <= i < |ls| ==> ls[i] != ""
    decreases |content|
  {
    if content == "" then []
    else [content[..LineEnd(content)]] + Lines(content[LineEnd(content)..])
  }

  /** The non-empty stripped lines. */
  function TokensOf(lines: seq<string>): (r: set<string>)
    ensures forall t :: t in r <==> t != "" && exists k :: 0 <= k < |lines| && Strip(lines[k]) == t
  {
    set k | 0 <= k < |lines| && Strip(lines[k]) != "" :: Strip(lines[k])
  }

  /** `load_checkpoint`: the set of non-empty stripped lines of the file at
      `path`; empty when no path is configured or the file does not exist. */
  function LoadCheckpoint(path: Option<string>, files: map<string, string>): (r: set<string>)
    ensures !Truthy(path) || path.value !in files ==> r == {}
    ensures Truthy(path) && path.value in files ==>
              forall t :: t in r <==> t != "" && exists k :: 0 <= k < |Lines(files[path.value])| && Strip(Lines(files[path.value])[k]) == t
  {
    if !Truthy(path) then {}
    else if path.value !in files then {}
    else TokensOf(Lines(files[path.value]))
  }

  /** The text stored at `path`; a file that does not exist yet reads as empty,
      as opening it for appending creates it. */
  function Stored(path: string, files: map<string, string>): string {
    if path in files then files[path] else ""
  }

  /** A configured checkpoint loads the tokens of its stored text, missing or not. */
  lemma LoadStored(path: string, files: map<string, string>)
    requires path != ""
    ensures LoadCheckpoint(Some(path), files) == TokensOf(Lines(Stored(path, files)))
  {
    if path !in files {
      assert Lines("") == [];
    }
  }

  /** `args.checkpoint_success or args.checkpoint`: the success checkpoint path. */
  function SuccessCheckpointPath(checkpointSuccess: Option<string>, checkpoint: Option<string>): (r: Option<string>)
    ensures r == checkpointSuccess || r == checkpoint
    ensures Truthy(r) <==> Truthy(checkpointSuccess) || Truthy(checkpoint)
    ensures Truthy(checkpointSuccess) ==> r == checkpointSuccess
  {
    if Truthy(checkpointSuccess) then checkpointSuccess else checkpoint
  }

  lemma TokensOfAppend(a: seq<string>, b: seq<string>)
    ensures TokensOf(a + b) == TokensOf(a) + TokensOf(b)
  {
    var ab := a + b;
    forall t | t in TokensOf(ab) ensures t in TokensOf(a) + TokensOf(b) {
      var k :| 0 <= k < |ab| && Strip(ab[k]) == t;
      if k < |a| { assert ab[k] == a[k]; } else { assert ab[k] == b[k - |a|]; }
    }
    forall t | t in TokensOf(a) + TokensOf(b) ensures t in TokensOf(ab) {
      if t in TokensOf(a) {
        var k :| 0 <= k < |a| && Strip(a[k]) == t;
        assert ab[k] == a[k];
      } else {
        var k :| 0 <= k < |b| && Strip(b[k]) == t;
        assert ab[k + |a|] == b[k];
      }
    }
  }

  /** The first newline of `a + b` is that of `a` when `a` has one. */
  lemma FirstNewlineAppend(a: string, b: string)
    ensures FirstNewline(a) < |a| ==> FirstNewline(a + b) == FirstNewline(a)
    ensures FirstNewline(a) == |a| ==> FirstNewline(a + b) == |a| + FirstNewline(b)
  {
    var ab := a + b;
    assert forall i :: 0 <= i < |a| ==> ab[i] == a[i];
    assert forall i :: 0 <= i < |b| ==> ab[|a| + i] == b[i];
  }

  /** A text with no newline before its last character is one line. */
  lemma SingleLine(s: string)
    requires s != "" && FirstNewline(s) >= |s| - 1
    ensures Lines(s) == [s]
  {
    LinesUnfold(s);
    assert LineEnd(s) == |s|;
    assert s[..|s|] == s;
    assert s[|s|..] == "";
  }

  /** The tokens of a single line. */
  lemma TokensOfSingle(line: string)
    ensures TokensOf([line]) == if Strip(line) == "" then {} else {Strip(line)}
  {
    var r := TokensOf([line]);
    forall t | t in r ensures t == Strip(line) {
      var k :| 0 <= k < 1 && Strip([line][k]) == t;
    }
    if Strip(line) != "" {
      assert [line][0] == line;
    }
  }

  lemma SliceAppend(a: string, b: string, j: nat)
    requires j <= |a|
    ensures (a + b)[..j] == a[..j]
    ensures (a + b)[j..] == a[j..] + b
  {
  }

  /** Reading a text that ends in a complete line, followed by more text, reads
      the lines of each part in turn. */
  lemma {:induction false} LinesAppend(a: string, b: string)
    requires EndsLine(a)
    ensures Lines(a + b) == Lines(a) + Lines(b)
    decreases |a|
  {
    if a != "" {
      var e := LineEnd(a);
      FirstNewlineAppend(a, b);
      assert a[|a| - 1] == '\n';
      assert e == LineEnd(a + b);
      var rest := a[e..];
      SliceAppend(a, b, e);
      LinesUnfold(a);
      LinesUnfold(a + b);
      assert EndsLine(rest);
      LinesAppend(rest, b);
    } else {
      assert a + b == b;
    }
  }

  /** One step of `Lines`: the first line, then the lines of the rest. */
  lemma LinesUnfold(s: string)
    requires s != ""
    ensures Lines(s) == [s[..LineEnd(s)]] + Lines(s[LineEnd(s)..])
  {
  }

  /** The line the tool appends for `token` reads back as exactly `token`. */
  lemma TokenLine(token: string)
    requires Writable(token)
    ensures Lines(token + "\n") == [token + "\n"]
    ensures Strip(token + "\n") == token
  {
    var s := token + "\n";
    assert s[|token|] == '\n';
    assert forall i :: 0 <= i < |token| ==> s[i] == token[i] && token[i] != '\n';
    SingleLine(s);
    StripUnique(token, token, 0);
    StripAppendSpace(token, '\n');
  }

  /** `append_checkpoint` as written: the token and a newline go after whatever
      the file already holds. */
  function AppendCheckpoint(content: string, token: string): (r: string)
    ensures |r| == |content| + |token| + 1
    ensures r[..|content|] == content && r[|r| - 1] == '\n'
    ensures r[|content|..|r| - 1] == token
  {
    content + token + "\n"
  }

  /** When the file ends in a complete line, the appended token is added to the
      set read back and nothing else changes. */
  lemma AppendCheckpointOnCompleteLine(content: string, token: string)
    requires EndsLine(content) && Writable(token)
    ensures TokensOf(Lines(AppendCheckpoint(content, token))) == TokensOf(Lines(content)) + {token}
  {
    var line := token + "\n";
    var r := AppendCheckpoint(content, token);
    assert r == content + line;
    var ls := Lines(content) + [line];
    assert Lines(r) == ls by {
      LinesAppend(content, line);
      TokenLine(token);
    }
    assert TokensOf([line]) == {token} by {
      TokenLine(token);
      TokensOfSingle(line);
    }
    TokensOfAppend(Lines(content), [line]);
  }

  /** A checkpoint file whose last line lacks its newline (one written by hand,
      say) swallows the next token appended by the tool: after appending
      `"tok2"` to `"tok1"`, neither token is read back. */
  lemma AppendCheckpointMergesUnterminatedLine()
    ensures var read := TokensOf(Lines(AppendCheckpoint("tok1", "tok2")));
            "tok1" !in read && "tok2" !in read
  {
    var t := "tok1tok2";
    assert Writable(t);
    TokenLine(t);
    assert AppendCheckpoint("tok1", "tok2") == t + "\n";
    TokensOfSingle(t + "\n");
  }

  /** The append the checkpoint needs: terminate an unterminated last line first. */
  function AppendCheckpointLine(content: string, token: string): (r: string)
    ensures |r| > |content| && EndsLine(r)
    ensures r[..|content|] == content
    ensures |r| >= |content| + |token| + 1
    ensures r[|r| - |token| - 1..|r| - 1] == token
    ensures |r| - |token| - 1 > |content| <==> !EndsLine(content)
  {
    var head := if EndsLine(content) then content else content + "\n";
    assert |head| >= |content|;
    head + token + "\n"
  }

  /** Terminating an unterminated last line only adds the newline to the last
      line read. */
  lemma {:induction false} LinesTerminate(content: string)
    requires !EndsLine(content)
    ensures var ls := Lines(content);
            |ls| > 0 && Lines(content + "\n") == ls[..|ls| - 1] + [ls[|ls| - 1] + "\n"]
    decreases |content|
  {
    if FirstNewline(content) < |content| {
      var e := FirstNewline(content) + 1;
      var rest := content[e..];
      LinesFirstOfTwo(content);
      LinesTerminate(rest);
      ConsInitLast(content[..e], Lines(rest), Lines(content), Lines(content + "\n"), Lines(rest + "\n"));
    } else {
      LinesNoNewline(content);
    }
  }

  /** A text with no newline, and the same text terminated, are one line each. */
  lemma LinesNoNewline(content: string)
    requires content != "" && FirstNewline(content) == |content|
    ensures Lines(content) == [content] && Lines(content + "\n") == [content + "\n"]
  {
    FirstNewlineAppend(content, "\n");
    SingleLine(content + "\n");
    SingleLine(content);
  }

  /** An unterminated text with a newline: its first line comes off the same way
      with or without a final newline, and what remains is still unterminated. */
  lemma LinesFirstOfTwo(content: string)
    requires !EndsLine(content) && FirstNewline(content) < |content|
    ensures var e := FirstNewline(content) + 1;
            && e < |content| && !EndsLine(content[e..])
            && Lines(content) == [content[..e]] + Lines(content[e..])
            && Lines(content + "\n") == [content[..e]] + Lines(content[e..] + "\n")
  {
    var e := FirstNewline(content) + 1;
    LineEndTerminated(content);
    LinesAt(content, e);
    LinesAtAppend(content, "\n", e);
  }

  /** Where the first line of an unterminated text with a newline ends, with or
      without a final newline. */
  lemma LineEndTerminated(content: string)
    requires !EndsLine(content) && FirstNewline(content) < |content|
    ensures var e := FirstNewline(content) + 1;
            && e < |content| && LineEnd(content) == e && LineEnd(content + "\n") == e
            && !EndsLine(content[e..])
  {
    var k := FirstNewline(content);
    assert k < |content| - 1 by {
      assert content[k] == '\n';
    }
    assert LineEnd(content) == k + 1;
    assert FirstNewline(content + "\n") == k by {
      FirstNewlineAppend(content, "\n");
    }
    assert LineEnd(content + "\n") == k + 1;
    SuffixUnterminated(content, k + 1);
  }

  /** A non-empty suffix of an unterminated text is unterminated. */
  lemma SuffixUnterminated(s: string, j: nat)
    requires j < |s| && !EndsLine(s)
    ensures !EndsLine(s[j..])
  {
    var t := s[j..];
    assert t[|t| - 1] == s[|s| - 1];
  }

  /** `Lines` unfolded once when the first line ends inside the first part. */
  lemma LinesAtAppend(a: string, b: string, e: nat)
    requires a != "" && e <= |a| && LineEnd(a + b) == e
    ensures Lines(a + b) == [a[..e]] + Lines(a[e..] + b)
  {
    LinesAt(a + b, e);
    SliceAppend(a, b, e);
  }

  /** `Lines` unfolded once at a known line end. */
  lemma LinesAt(s: string, e: nat)
    requires s != "" && LineEnd(s) == e
    ensures e <= |s| && Lines(s) == [s[..e]] + Lines(s[e..])
  {
    LinesUnfold(s);
  }

  /** Putting a line in front commutes with terminating the last line. */
  lemma ConsInitLast(head: string, ls: seq<string>, hl: seq<string>, hl2: seq<string>, ls2: seq<string>)
    requires |ls| > 0 && hl == [head] + ls && hl2 == [head] + ls2
    requires ls2 == ls[..|ls| - 1] + [ls[|ls| - 1] + "\n"]
    ensures |hl| > 0 && hl2 == hl[..|hl| - 1] + [hl[|hl| - 1] + "\n"]
  {
    assert hl[..|hl| - 1] == [head] + ls[..|ls| - 1];
  }

  /** Terminating the last line does not change what is read back. */
  lemma TerminateLastLine(content: string)
    requires !EndsLine(content)
    ensures TokensOf(Lines(content + "\n")) == TokensOf(Lines(content))
  {
    var ls := Lines(content);
    LinesTerminate(content);
    var init := ls[..|ls| - 1];
    var last := ls[|ls| - 1];
    assert ls == init + [last];
    TokensOfAppend(init, [last + "\n"]);
    TokensOfAppend(init, [last]);
    assert Strip(last + "\n") == Strip(last) by {
      StripAppendSpace(last, '\n');
    }
    TokensOfSingle(last + "\n");
    TokensOfSingle(last);
  }

  /** With the corrected append, the token read back is always added, whatever
      the file held before. */
  lemma AppendCheckpointLineAddsToken(content: string, token: string)
    requires Writable(token)
    ensures TokensOf(Lines(AppendCheckpointLine(content, token))) == TokensOf(Lines(content)) + {token}
  {
    if EndsLine(content) {
      AppendCheckpointOnCompleteLine(content, token);
    } else {
      TerminateLastLine(content);
      AppendCheckpointOnCompleteLine(content + "\n", token);
    }
  }

  /** A whole run's appends, one line per token, in order. */
  function AppendAll(content: string, tokens: seq<string>): string
    decreases |tokens|
  {
    if |tokens| == 0 then content
    else AppendAll(AppendCheckpointLine(content, tokens[0]), tokens[1..])
  }

  /** The set of elements of a sequence. */
  function Elements(tokens: seq<string>): (r: set<string>)
    ensures forall t :: t in r <==> t in tokens
  {
    set t | t in tokens
  }

  lemma ElementsCons(tokens: seq<string>)
    requires tokens != []
    ensures Elements(tokens) == {tokens[0]} + Elements(tokens[1..])
  {
    assert tokens == [tokens[0]] + tokens[1..];
  }

  lemma UnionAssoc(a: set<string>, b: set<string>, c: set<string>)
    ensures a + b + c == a + (b + c)
  {
  }

  lemma TailWritable(tokens: seq<string>)
    requires tokens != [] && forall i :: 0 <= i < |tokens| ==> Writable(tokens[i])
    ensures forall i :: 0 <= i < |tokens| - 1 ==> Writable(tokens[1..][i])
  {
  }

  /** Resuming reads back everything that was there plus every appended token. */
  lemma {:induction false} AppendAllAddsTokens(content: string, tokens: seq<string>)
    requires forall i :: 0 <= i < |tokens| ==> Writable(tokens[i])
    ensures TokensOf(Lines(AppendAll(content, tokens))) == TokensOf(Lines(content)) + Elements(tokens)
    decreases |tokens|
  {
    if tokens != [] {
      var next := AppendCheckpointLine(content, tokens[0]);
      var tail := tokens[1..];
      assert AppendAll(content, tokens) == AppendAll(next, tail);
      assert TokensOf(Lines(next)) == TokensOf(Lines(content)) + {tokens[0]} by {
        AppendCheckpointLineAddsToken(content, tokens[0]);
      }
      assert TokensOf(Lines(AppendAll(next, tail))) == TokensOf(Lines(next)) + Elements(tail) by {
        TailWritable(tokens);
        AppendAllAddsTokens(next, tail);
      }
      ElementsCons(tokens);
      UnionAssoc(TokensOf(Lines(content)), {tokens[0]}, Elements(tail));
    }
  }


  /** A whole run's appends as the tool makes them, one `append_checkpoint` per token. */
  function AppendAllAsWritten(content: string, tokens: seq<string>): string
    decreases |tokens|
  {
    if |tokens| == 0 then content
    else AppendAllAsWritten(AppendCheckpoint(content, tokens[0]), tokens[1..])
  }

  /** One append as written keeps the file ending in a complete line. */
  lemma AppendCheckpointEndsLine(content: string, token: string)
    ensures EndsLine(AppendCheckpoint(content, token))
  {
    var r := AppendCheckpoint(content, token);
    assert r[|r| - 1] == '\n';
  }

  /** On a file that ends in a complete line (or is empty or missing), the
      appends as written read back everything that was there plus every token. */
  lemma {:induction false} AppendAllAsWrittenAddsTokens(content: string, tokens: seq<string>)
    requires EndsLine(content)
    requires forall i :: 0 <= i < |tokens| ==> Writable(tokens[i])
    ensures TokensOf(Lines(AppendAllAsWritten(content, tokens))) == TokensOf(Lines(content)) + Elements(tokens)
    decreases |tokens|
  {
    if tokens != [] {
      var next := AppendCheckpoint(content, tokens[0]);
      var tail := tokens[1..];
      assert AppendAllAsWritten(content, tokens) == AppendAllAsWritten(next, tail);
      assert TokensOf(Lines(next)) == TokensOf(Lines(content)) + {tokens[0]} by {
        AppendCheckpointOnCompleteLine(content, tokens[0]);
      }
      assert TokensOf(Lines(AppendAllAsWritten(next, tail))) == TokensOf(Lines(next)) + Elements(tail) by {
        AppendCheckpointEndsLine(content, tokens[0]);
        TailWritable(tokens);
        AppendAllAsWrittenAddsTokens(next, tail);
      }
      ElementsCons(tokens);
      UnionAssoc(TokensOf(Lines(content)), {tokens[0]}, Elements(tail));
    }
  }

}

=== FILE: classifier.dfy ===
/** The error classifier: maps a failure message to the small taxonomy used in
    the audit log's `errorType` field and in the run totals. */
module Classifier {
  import opened Text

  /** Every `errorType` the tool writes. The first four come from `Classify`; the
      retry executor sets `Exception` for a local fault and `Unknown` when its
      attempt loop runs zero times. */
  datatype ErrorType = AlreadyCancelled | NotFound | Permission | Other | Exception | Unknown

  /** The log spelling of each error type. */
  function Name(e: ErrorType): string {
    match e
    case AlreadyCancelled => "already_cancelled"
    case NotFound => "not_found"
    case Permission => "permission"
    case Other => "other"
    case Exception => "exception"
    case Unknown => "unknown"
  }

  /** `classify_error`: case-insensitive keyword rules tried in a fixed order. */
  function Classify(message: string): (r: ErrorType)
    ensures r in {AlreadyCancelled, NotFound, Permission, Other}
    ensures r == AlreadyCancelled <==> Mentions(Lower(message), "already") && Mentions(Lower(message), "cancel")
    ensures r == NotFound <==> r != AlreadyCancelled && Mentions(Lower(message), "not found")
    ensures r == Permission <==>
              && r != AlreadyCancelled && r != NotFound
              && (Mentions(Lower(message), "permission") || Mentions(Lower(message), "forbidden"))
  {
    var lowered := Lower(message);
    ContainsMentions(lowered, "already");
    ContainsMentions(lowered, "cancel");
    ContainsMentions(lowered, "not found");
    ContainsMentions(lowered, "permission");
    ContainsMentions(lowered, "forbidden");
    if Contains(lowered, "already") && Contains(lowered, "cancel") then AlreadyCancelled
    else if Contains(lowered, "not found") then NotFound
    else if Contains(lowered, "permission") || Contains(lowered, "forbidden") then Permission
    else Other
  }

  /** Classification ignores ASCII case: a message and its lower-cased form agree. */
  lemma ClassifyCaseInsensitive(message: string)
    ensures Classify(Lower(message)) == Classify(message)
  {
    LowerIdempotent(message);
  }

  /** The names are distinct, so the log's `errorType` determines the kind. */
  lemma NameInjective(a: ErrorType, b: ErrorType)
    requires Name(a) == Name(b)
    ensures a == b
  {
  }
}

=== FILE: columns.dfy ===
/** Column resolution against the CSV header and picking of per-row fields.
    A row is the `csv.DictReader` mapping from column name to cell; a column
    whose cell is missing (`None` in Python) is absent from the map. */
module Columns {
  import opened Base
  import opened Text

  type Row = map<string, string>

  /** A candidate column name `choose_field` accepts: non-empty and in the header. */
  predicate Usable(fieldnames: seq<string>, name: string) {
    name != "" && name in fieldnames
  }

  /** `candidates[i]` is the first usable candidate. */
  predicate FirstUsable(fieldnames: seq<string>, candidates: seq<string>, i: int) {
    && 0 <= i < |candidates|
    && Usable(fieldnames, candidates[i])
    && forall j :: 0 <= j < i ==> !Usable(fieldnames, candidates[j])
  }

  /** `choose_field`: the first candidate that is non-empty and present in the
      header, in preference order, or `None`. */
  function ChooseField(fieldnames: seq<string>, candidates: seq<string>): (r: Option<string>)
    ensures r.None? <==> forall i :: 0 <= i < |candidates| ==> !Usable(fieldnames, candidates[i])
    ensures r.Some? ==> exists i :: FirstUsable(fieldnames, candidates, i) && candidates[i] == r.value
  {
    if |candidates| == 0 then None
    else if candidates[0] != "" && candidates[0] in fieldnames then
      assert FirstUsable(fieldnames, candidates, 0);
      Some(candidates[0])
    else
      var r := ChooseField(fieldnames, candidates[1..]);
      if r.Some? then
        var i :| FirstUsable(fieldnames, candidates[1..], i) && candidates[1..][i] == r.value;
        assert FirstUsable(fieldnames, candidates, i + 1);
        r
      else
        r
  }

  /** The columns of `required` that the header lacks, in their given order. */
  function MissingColumns(fieldnames: seq<string>, required: seq<string>): (r: seq<string>)
    ensures |r| <= |required|
    ensures forall c :: c in r <==> c in required && c !in fieldnames
  {
    if |required| == 0 then []
    else if required[0] in fieldnames then MissingColumns(fieldnames, required[1..])
    else [required[0]] + MissingColumns(fieldnames, required[1..])
  }

  /** The resolved token and subscription-id columns. */
  datatype Headers = Headers(fieldnames: seq<string>, tokenField: string, subscriptionField: Option<string>)

  /** The two configuration errors `validate_headers` raises. */
  datatype HeaderError =
    | MissingTokenColumn(tried: seq<string>)
    | MissingRequiredColumns(missing: seq<string>, found: seq<string>)

  /** `validate_headers`: resolve the token column (required) and the
      subscription-id column (optional), then insist on every column of
      `extraRequired`. An empty `extraRequired` stands for Python's `None`. */
  function ValidateHeaders(fieldnames: seq<string>, tokenCandidates: seq<string>,
                           subscriptionCandidates: seq<string>, extraRequired: seq<string>)
    : (r: Result<Headers, HeaderError>)
    ensures r.Err? && r.error.MissingTokenColumn? <==>
              forall i :: 0 <= i < |tokenCandidates| ==> !Usable(fieldnames, tokenCandidates[i])
    ensures r.Err? && r.error.MissingRequiredColumns? <==>
              && ChooseField(fieldnames, tokenCandidates).Some?
              && exists c :: c in extraRequired && c !in fieldnames
    ensures r.Err? && r.error.MissingRequiredColumns? ==>
              forall c :: c in r.error.missing <==> c in extraRequired && c !in fieldnames
    ensures r.Ok? ==>
              && Usable(fieldnames, r.value.tokenField)
              && Some(r.value.tokenField) == ChooseField(fieldnames, tokenCandidates)
              && r.value.subscriptionField == ChooseField(fieldnames, subscriptionCandidates)
              && forall c :: c in extraRequired ==> c in fieldnames
  {
    var tokenField := ChooseField(fieldnames, tokenCandidates);
    if tokenField.None? then Err(MissingTokenColumn(tokenCandidates))
    else
      var missing := MissingColumns(fieldnames, extraRequired);
      if extraRequired != [] && missing != [] then
        assert missing[0] in missing;
        Err(MissingRequiredColumns(missing, fieldnames))
      else
        var i :| FirstUsable(fieldnames, tokenCandidates, i) && tokenCandidates[i] == tokenField.value;
        Ok(Headers(fieldnames, tokenField.value, ChooseField(fieldnames, subscriptionCandidates)))
  }

  /** The cell of `field` in `row` when Python's `row.get(field)` is truthy. */
  function TruthyCell(row: Row, field: Option<string>): Option<string> {
    if Truthy(field) && field.value in row && row[field.value] != "" then Some(row[field.value]) else None
  }

  /** `pick_package`: the stripped package cell when the cell is non-empty,
      otherwise the run-level fallback. A cell of white space alone is non-empty,
      so it strips to `""` instead of falling back. */
  function PickPackage(row: Row, packageField: Option<string>, fallback: Option<string>): (r: Option<string>)
    ensures TruthyCell(row, packageField).None? ==> r == fallback
    ensures TruthyCell(row, packageField).Some? ==>
              && r.Some? && Clean(r.value)
              && exists i :: StrippedAt(TruthyCell(row, packageField).value, r.value, i)
  {
    if Truthy(packageField) && packageField.value in row && row[packageField.value] != "" then
      Some(Strip(row[packageField.value]))
    else fallback
  }

  /** A package cell of white space alone yields the empty package, which the
      run loop then skips, even when a fallback package name is configured. */
  lemma BlankPackageCellDoesNotFallBack(row: Row, packageField: string, fallback: Option<string>)
    requires packageField != "" && packageField in row
    requires row[packageField] != "" && AllSpace(row[packageField])
    ensures PickPackage(row, Some(packageField), fallback) == Some("")
  {
    StripEmptyIff(row[packageField]);
  }

  /** `pick_field`: the stripped cell of `field`, or `None` when no column was
      resolved or the row has no value for it. */
  function PickField(row: Row, field: Option<string>): (r: Option<string>)
    ensures r.None? <==> !Truthy(field) || field.value !in row
    ensures r.Some? ==> Clean(r.value) && exists i :: StrippedAt(row[field.value], r.value, i)
  {
    if !Truthy(field) then None
    else if field.value !in row then None
    else Some(Strip(row[field.value]))
  }

  /** `(row.get(token_field) or "").strip()`: the row's token, `""` when the cell
      is missing or blank. */
  function TokenOf(row: Row, tokenField: string): (t: string)
    ensures Clean(t)
    ensures t == "" <==> tokenField !in row || AllSpace(row[tokenField])
    ensures tokenField in row ==> exists i :: StrippedAt(row[tokenField], t, i)
  {
    var cell := if tokenField in row then row[tokenField] else "";
    StripEmptyIff(cell);
    Strip(cell)
  }

  /** `row.get(field) or ""`: the cell, or `""` when the row has none. */
  function CellOrEmpty(row: Row, field: string): string {
    if field in row then row[field] else ""
  }

  /** The subscription id of a row: the stripped cell (`""` when missing) if a
      subscription column was resolved, else `None`. */
  function SubscriptionOf(row: Row, subscriptionField: Option<string>): (r: Option<string>)
    ensures r.Some? <==> subscriptionField.Some?
    ensures r.Some? ==> Clean(r.value)
    ensures r.Some? ==> exists i :: StrippedAt(CellOrEmpty(row, subscriptionField.value), r.value, i)
    ensures r.Some? && subscriptionField.value !in row ==> r.value == ""
  {
    if subscriptionField.Some? then
      Some(Strip(CellOrEmpty(row, subscriptionField.value)))
    else None
  }
}

=== FILE: config.dfy ===
/** Run options: the built-in defaults, the merge of a JSON config file into the
    parsed command line (`apply_config`), and the check for mandatory inputs
    (`validate_required`). The argparse namespace is a map from attribute name to
    value; a config file is its list of key/value pairs in file order. */
module Config {
  import opened Base

  /** A Python value as it can appear in the namespace or in a JSON config.
      `Other` stands for lists and objects, compared by their text. */
  datatype Value = Null | Str(s: string) | Int(i: int) | Num(r: real) | Bool(b: bool) | Other(repr: string)

  /** The number a value stands for in Python comparisons (`True == 1`, `3 == 3.0`). */
  function NumericOf(v: Value): Option<real> {
    match v
    case Int(i) => Some(i as real)
    case Num(r) => Some(r)
    case Bool(b) => Some(if b then 1.0 else 0.0)
    case _ => None
  }

  /** Python's `==` on these values. */
  predicate PyEq(a: Value, b: Value) {
    if NumericOf(a).Some? || NumericOf(b).Some? then NumericOf(a) == NumericOf(b)
    else a == b
  }

  type Namespace = map<string, Value>
  type Entries = seq<(string, Value)>

  /** `DEFAULTS`: the value every option has when neither the command line nor a
      config file sets it. */
  const Defaults: Namespace := map[
    "config" := Null,
    "input" := Null,
    "token_column" := Str("purchaseToken"),
    "subscription_id_column" := Str("subscriptionId"),
    "package_column" := Str("package"),
    "product_column" := Str("product"),
    "order_id_column" := Str("order_id"),
    "service_account" := Null,
    "package_name" := Null,
    "log" := Null,
    "delay" := Num(0.15),
    "retries" := Int(3),
    "backoff" := Num(0.25),
    "jitter" := Num(0.25),
    "max_rows" := Null,
    "dry_run" := Bool(false),
    "progress" := Bool(true),
    "timestamp_logs" := Bool(true),
    "mode" := Str("cancel"),
    "eligible_output" := Null,
    "ineligible_output" := Null,
    "log_response" := Bool(false),
    "checkpoint" := Null,
    "checkpoint_success" := Null,
    "checkpoint_failed" := Null,
    "sample_size" := Null]

  /** `DEFAULTS.get(key, None)`. */
  function DefaultOf(key: string): Value {
    if key in Defaults then Defaults[key] else Null
  }

  /** A JSON object has each key once. */
  predicate DistinctKeys(cfg: Entries) {
    forall i, j :: 0 <= i < j < |cfg| ==> cfg[i].0 != cfg[j].0
  }

  /** The value the config gives `key`, if it names it. */
  function Lookup(cfg: Entries, key: string): Option<Value> {
    if |cfg| == 0 then None
    else if cfg[0].0 == key then Some(cfg[0].1)
    else Lookup(cfg[1..], key)
  }

  /** What one option ends up as: the config value, when there is a non-null one
      and the command line left the option at its default. */
  function Overlay(current: Value, default: Value, entry: Option<Value>): Value {
    if entry.Some? && entry.value != Null && PyEq(current, default) then entry.value else current
  }

  /** The merge, option by option: the reference the loop is checked against. */
  function Merged(args: Namespace, cfg: Entries): Namespace {
    map k | k in args :: Overlay(args[k], DefaultOf(k), Lookup(cfg, k))
  }

  /** One iteration of the merge loop: skip `None`, skip unknown attributes, skip
      options the command line set, otherwise take the config value. */
  function ApplyEntry(args: Namespace, entry: (string, Value)): (r: Namespace)
    ensures r.Keys == args.Keys
    ensures forall k :: k in args && k != entry.0 ==> r[k] == args[k]
    ensures entry.0 in args ==> r[entry.0] == Overlay(args[entry.0], DefaultOf(entry.0), Some(entry.1))
  {
    var (key, value) := entry;
    if value == Null then args
    else if key !in args then args
    else if !PyEq(args[key], DefaultOf(key)) then args
    else args[key := value]
  }

  /** The merge loop over the config's pairs in order. */
  function ApplyEntries(args: Namespace, cfg: Entries): (r: Namespace)
    ensures r.Keys == args.Keys
    decreases |cfg|
  {
    if |cfg| == 0 then args else ApplyEntries(ApplyEntry(args, cfg[0]), cfg[1..])
  }

  /** `apply_config` (scripts version): no config or an empty one leaves the
      namespace as it is; otherwise it is merged in, and the set of options never
      changes. */
  function ApplyConfig(args: Namespace, cfg: Option<Entries>): (r: Namespace)
    ensures r.Keys == args.Keys
    ensures cfg.None? ==> r == args
  {
    if cfg.None? || |cfg.value| == 0 then args else ApplyEntries(args, cfg.value)
  }

  /** A key the config does not name is not looked up. */
  lemma {:induction false} LookupAbsent(cfg: Entries, key: string)
    requires forall i :: 0 <= i < |cfg| ==> cfg[i].0 != key
    ensures Lookup(cfg, key) == None
    decreases |cfg|
  {
    if |cfg| != 0 {
      LookupAbsent(cfg[1..], key);
    }
  }

  /** The loop computes the option-by-option merge. */
  lemma {:induction false} ApplyEntriesMerged(args: Namespace, cfg: Entries)
    requires DistinctKeys(cfg)
    ensures ApplyEntries(args, cfg) == Merged(args, cfg)
    decreases |cfg|
  {
    if |cfg| != 0 {
      var a1 := ApplyEntry(args, cfg[0]);
      var tail := cfg[1..];
      assert DistinctKeys(tail) by {
        forall i, j | 0 <= i < j < |tail| ensures tail[i].0 != tail[j].0 {
          assert tail[i] == cfg[i + 1] && tail[j] == cfg[j + 1];
        }
      }
      ApplyEntriesMerged(a1, tail);
      forall i | 0 <= i < |tail| ensures tail[i].0 != cfg[0].0 {
        assert tail[i] == cfg[i + 1];
      }
      LookupAbsent(tail, cfg[0].0);
      var m1 := Merged(a1, tail);
      var m := Merged(args, cfg);
      forall k | k in args ensures m1[k] == m[k] {
        if k == cfg[0].0 {
          assert Lookup(cfg, k) == Some(cfg[0].1);
        } else {
          assert Lookup(cfg, k) == Lookup(tail, k);
        }
      }
    }
  }

  /** `apply_config` agrees with the reference merge. */
  lemma ApplyConfigMerged(args: Namespace, cfg: Option<Entries>)
    requires cfg.Some? ==> DistinctKeys(cfg.value)
    ensures ApplyConfig(args, cfg) == if cfg.None? then args else Merged(args, cfg.value)
  {
    if cfg.Some? {
      ApplyEntriesMerged(args, cfg.value);
    }
  }

  /** The merge loop never touches an option that is off its default. */
  lemma {:induction false} CliWinsLoop(args: Namespace, cfg: Entries, key: string)
    requires key in args && !PyEq(args[key], DefaultOf(key))
    ensures key in ApplyEntries(args, cfg) && ApplyEntries(args, cfg)[key] == args[key]
    decreases |cfg|
  {
    if |cfg| != 0 {
      CliWinsLoop(ApplyEntry(args, cfg[0]), cfg[1..], key);
    }
  }

  /** CLI flags win: an option the command line moved off its default keeps the
      command-line value, whatever the config says (even with repeated keys). */
  lemma CliWins(args: Namespace, cfg: Option<Entries>, key: string)
    requires key in args && !PyEq(args[key], DefaultOf(key))
    ensures ApplyConfig(args, cfg)[key] == args[key]
  {
    if cfg.Some? {
      CliWinsLoop(args, cfg.value, key);
    }
  }

  /** An option still at its default takes the config's non-null value. */
  lemma ConfigFillsDefaults(args: Namespace, cfg: Entries, i: nat)
    requires DistinctKeys(cfg) && i < |cfg|
    requires cfg[i].0 in args && cfg[i].1 != Null && PyEq(args[cfg[i].0], DefaultOf(cfg[i].0))
    ensures ApplyConfig(args, Some(cfg))[cfg[i].0] == cfg[i].1
  {
    var key := cfg[i].0;
    ApplyEntriesMerged(args, cfg);
    LookupAt(cfg, i);
  }

  /** In a config with distinct keys, the lookup of the `i`-th key finds the `i`-th value. */
  lemma {:induction false} LookupAt(cfg: Entries, i: nat)
    requires DistinctKeys(cfg) && i < |cfg|
    ensures Lookup(cfg, cfg[i].0) == Some(cfg[i].1)
    decreases i
  {
    if i != 0 {
      var tail := cfg[1..];
      assert DistinctKeys(tail) by {
        forall a, b | 0 <= a < b < |tail| ensures tail[a].0 != tail[b].0 {
          assert tail[a] == cfg[a + 1] && tail[b] == cfg[b + 1];
        }
      }
      assert tail[i - 1] == cfg[i];
      LookupAt(tail, i - 1);
    }
  }

  /** Merging the same config twice changes nothing the first merge did not. */
  lemma ApplyConfigIdempotent(args: Namespace, cfg: Entries)
    requires DistinctKeys(cfg)
    ensures ApplyConfig(ApplyConfig(args, Some(cfg)), Some(cfg)) == ApplyConfig(args, Some(cfg))
  {
    var once := ApplyConfig(args, Some(cfg));
    ApplyConfigMerged(args, Some(cfg));
    ApplyConfigMerged(once, Some(cfg));
  }

  /** Python's `value in (None, "")`. */
  predicate Blank(v: Value) {
    v == Null || v == Str("")
  }

  /** The names of the options that are `None` or empty, in the order asked. */
  function MissingNames(args: Namespace, names: seq<string>): (r: seq<string>)
    requires forall i :: 0 <= i < |names| ==> names[i] in args
    ensures forall n :: n in r <==> n in names && Blank(args[n])
    ensures |r| <= |names|
  {
    if |names| == 0 then []
    else (if Blank(args[names[0]]) then [names[0]] else []) + MissingNames(args, names[1..])
  }

  /** `validate_required`: fails, naming every missing option, when any of `names`
      is `None` or empty. */
  function ValidateRequired(args: Namespace, names: seq<string>): (r: Result<(), seq<string>>)
    requires forall i :: 0 <= i < |names| ==> names[i] in args
    ensures r.Ok? <==> forall i :: 0 <= i < |names| ==> !Blank(args[names[i]])
    ensures r.Err? ==> r.error != [] && forall n :: n in r.error <==> n in names && Blank(args[n])
  {
    var missing := MissingNames(args, names);
    if |missing| == 0 then
      assert forall i :: 0 <= i < |names| ==> names[i] !in missing;
      Result.Ok(())
    else
      assert missing[0] in names && Blank(args[missing[0]]);
      Err(missing)
  }

  /** The options the scripts version requires. */
  const ScriptRequired: seq<string> := ["input", "service_account"]
}

=== FILE: driver.dfy ===
/** The batch driver of `scripts/cancel_subscriptions.py`: the set-up checks of
    `run` and its row loop, as a fold over the selected rows. The remote API is
    an oracle: `oracle[i]` is the list of responses the API gives to the
    successive attempts made for row `i` (0-based). The audit log, the two
    checkpoint files and the two validate-mode exports are the sequences the
    loop appends to; the timestamp of each audit record is left out. */
module Driver {
  import opened Base
  import opened Text
  import opened Classifier
  import opened Retry
  import opened Columns
  import opened Validation
  import Checkpoint

  /** `--mode`. */
  datatype Mode = Cancel | Validate | RevokeProrated

  /** The options the row loop reads. `maxRows == 0` stands for an unset
      `--max-rows` (both are falsy); the two checkpoint flags say whether a
      success and a failure checkpoint file is configured. */
  datatype RunConfig = RunConfig(
    mode: Mode,
    dryRun: bool,
    maxRows: int,
    packageName: Option<string>,
    retries: int,
    backoff: real,
    successCheckpoint: bool,
    failedCheckpoint: bool,
    logResponse: bool)

  /** The column-name options (`--token-column` and friends). */
  datatype ColumnOptions = ColumnOptions(
    token: string,
    subscriptionId: string,
    package: string,
    product: string,
    orderId: string)

  /** The columns resolved before the loop starts. */
  datatype Layout = Layout(
    tokenField: string,
    subscriptionField: Option<string>,
    packageField: Option<string>,
    productField: Option<string>,
    orderIdField: Option<string>)

  /** Why `run` stops with exit code 2 before reading any row. */
  datatype SetupError = BadHeader(error: HeaderError) | NoPackage

  function TokenCandidates(opts: ColumnOptions): seq<string> {
    [opts.token, "purchaseToken", "purchase_token", "token"]
  }

  function SubscriptionCandidates(opts: ColumnOptions): seq<string> {
    [opts.subscriptionId, "subscriptionId", "subscription_id", "product"]
  }

  /** Only revoke-prorated insists on extra columns. */
  function ExtraRequired(mode: Mode): seq<string> {
    if mode == RevokeProrated then ["subscription_state"] else []
  }

  /** The checks `run` makes on the header before the loop: resolve the token
      and subscription columns (and, for revoke-prorated, insist on
      `subscription_state`), resolve the package, product and order-id columns,
      and refuse to start when neither a run-level package nor a package column
      is available. */
  function Setup(fieldnames: seq<string>, opts: ColumnOptions, mode: Mode, packageName: Option<string>)
    : (r: Result<Layout, SetupError>)
    ensures r.Err? && r.error.BadHeader? <==>
              ValidateHeaders(fieldnames, TokenCandidates(opts), SubscriptionCandidates(opts), ExtraRequired(mode)).Err?
    ensures r.Err? && r.error.BadHeader? && r.error.error.MissingRequiredColumns? ==>
              mode == RevokeProrated && "subscription_state" !in fieldnames
    ensures r.Err? && r.error == NoPackage <==>
              && ValidateHeaders(fieldnames, TokenCandidates(opts), SubscriptionCandidates(opts), ExtraRequired(mode)).Ok?
              && !Truthy(packageName)
              && !(opts.package != "" && opts.package in fieldnames) && "package" !in fieldnames
    ensures r.Ok? ==>
              && Usable(fieldnames, r.value.tokenField)
              && (mode == RevokeProrated ==> "subscription_state" in fieldnames)
              && (Truthy(packageName) || r.value.packageField.Some?)
              && r.value.packageField == ChooseField(fieldnames, [opts.package, "package"])
              && r.value.productField == ChooseField(fieldnames, [opts.product, "product"])
              && r.value.orderIdField == ChooseField(fieldnames, [opts.orderId, "order_id", "orderId"])
  {
    match ValidateHeaders(fieldnames, TokenCandidates(opts), SubscriptionCandidates(opts), ExtraRequired(mode))
    case Err(e) => Result.Err(BadHeader(e))
    case Ok(h) =>
      var candidates := [opts.package, "package"];
      var packageField := ChooseField(fieldnames, candidates);
      assert packageField.None? <==> !Usable(fieldnames, candidates[0]) && !Usable(fieldnames, candidates[1]);
      if !Truthy(packageName) && !Truthy(packageField) then
        Err(NoPackage)
      else
        Result.Ok(Layout(h.tokenField, h.subscriptionField, packageField,
                  ChooseField(fieldnames, [opts.product, "product"]),
                  ChooseField(fieldnames, [opts.orderId, "order_id", "orderId"])))
  }

  /** The run totals, in the order they are printed. */
  datatype Totals = Totals(
    processed: nat,
    success: nat,
    alreadyCancelled: nat,
    failedTransient: nat,
    failedPermanent: nat,
    dryRun: nat,
    skipped: nat)

  /** Every processed row falls into exactly one of the five outcome counters. */
  predicate Balanced(t: Totals) {
    t.processed == t.success + t.dryRun + t.alreadyCancelled + t.failedTransient + t.failedPermanent
  }

  /** One line of the JSONL audit log. `validation` holds the validate-mode
      fields (absent in the other modes); `response` is the raw payload kept
      with `--log-response`. */
  datatype AuditRecord = AuditRecord(
    token: string,
    subscriptionId: Option<string>,
    package: string,
    product: Option<string>,
    orderId: Option<string>,
    status: Status,
    attempts: int,
    httpStatus: Option<int>,
    errorType: Option<ErrorType>,
    message: Option<string>,
    validation: Option<ValidationFields>,
    response: Option<Payload>,
    rowIndex: int)

  /** A row of the eligible export. */
  datatype ExportRow = ExportRow(
    token: string,
    package: string,
    product: Option<string>,
    orderId: Option<string>,
    fields: ValidationFields)

  /** A row of the ineligible export: the export columns plus the fetch outcome. */
  datatype IneligibleRow = IneligibleRow(
    row: ExportRow,
    status: Status,
    httpStatus: Option<int>,
    errorType: Option<ErrorType>,
    message: Option<string>)

  /** One remote operation: the package and token it was made for, and how many
      attempts it took. */
  datatype Request = Request(package: string, token: string, attempts: int)

  /** Everything the loop has produced so far. `done` is the in-memory set of
      tokens to skip; `seen` counts the rows the loop has looked at. */
  datatype RunState = RunState(
    totals: Totals,
    done: set<string>,
    successLog: seq<string>,
    failedLog: seq<string>,
    audit: seq<AuditRecord>,
    eligible: seq<ExportRow>,
    ineligible: seq<IneligibleRow>,
    requests: seq<Request>,
    seen: nat)

  /** The state before the first row: zero totals and the tokens loaded from the
      success checkpoint. */
  function Init(done: set<string>): RunState {
    RunState(Totals(0, 0, 0, 0, 0, 0, 0), done, [], [], [], [], [], [], 0)
  }

  /** What happens to a row before any remote call. */
  datatype Fate = MissingToken | AlreadyDone | MissingPackage | PackageMismatch | Dispatch(package: string)

  /** The skip rules, tried in order: no token, a token already in the skip set,
      no package (a blank package cell counts as none), and a package that
      differs from the run-level `--package-name`. */
  function Triage(token: string, done: set<string>, package: Option<string>, runPackage: Option<string>): (f: Fate)
    ensures f == MissingToken <==> token == ""
    ensures f == AlreadyDone <==> token != "" && token in done
    ensures f == MissingPackage <==> token != "" && token !in done && !Truthy(package)
    ensures f == PackageMismatch <==>
              && token != "" && token !in done && Truthy(package)
              && Truthy(runPackage) && package.value != runPackage.value
    ensures f.Dispatch? <==>
              && token != "" && token !in done && Truthy(package)
              && (Truthy(runPackage) ==> package.value == runPackage.value)
    ensures f.Dispatch? ==> Some(f.package) == package
  {
    if token == "" then MissingToken
    else if token in done then AlreadyDone
    else if !Truthy(package) then MissingPackage
    else if Truthy(runPackage) && package.value != runPackage.value then PackageMismatch
    else Dispatch(package.value)
  }

  /** The remote operation of `mode` for one row, or the synthesized dry-run
      result. Validate fetches (success code 200, payload kept); cancel and
      revoke-prorated act (success code 204). */
  function Call(cfg: RunConfig, responses: seq<Response<Payload>>): (r: CallResult<Payload>)
    requires |responses| >= cfg.retries + 1
    ensures cfg.dryRun <==> r.status == DryRun
    ensures cfg.dryRun ==> r.attempts == 0 && r.payload.None?
    ensures !cfg.dryRun && cfg.retries >= 0 ==>
              && 1 <= r.attempts <= cfg.retries + 1
              && (r.status == Success <==> responses[r.attempts - 1].Ok?)
    ensures r.status == Success ==> r.httpStatus == Some(if cfg.mode == Validate then 200 else 204)
    ensures cfg.mode != Validate ==> r.payload.None?
  {
    if cfg.dryRun then DryRunResult()
    else
      match cfg.mode
      case Validate => GetWithRetries(responses, cfg.retries, cfg.backoff).result
      case RevokeProrated => RevokeProratedWithRetries(responses, cfg.retries, cfg.backoff).result
      case Cancel => CancelWithRetries(responses, cfg.retries, cfg.backoff).result
  }

  /** The outcome counters. */
  datatype Bucket = BSuccess | BDryRun | BAlready | BTransient | BPermanent

  /** Which counter a processed row increments. Validate mode has no
      already-cancelled rule, so such a failure counts by its status. */
  function BucketOf(mode: Mode, rec: AuditRecord): (b: Bucket)
    ensures b == BSuccess <==> rec.status == Success
    ensures b == BDryRun <==> rec.status == DryRun
    ensures b == BAlready <==>
              rec.status.Failure? && mode != Validate && rec.errorType == Some(AlreadyCancelled)
    ensures b == BTransient <==>
              && rec.status.Failure?
              && (mode == Validate || rec.errorType != Some(AlreadyCancelled))
              && rec.httpStatus.Some? && rec.httpStatus.value in RetryStatus
  {
    if rec.status == Success then BSuccess
    else if rec.status == DryRun then BDryRun
    else if mode != Validate && rec.errorType == Some(AlreadyCancelled) then BAlready
    else if rec.httpStatus.Some? && rec.httpStatus.value in RetryStatus then BTransient
    else BPermanent
  }

  /** Count one processed row. */
  function Count(t: Totals, b: Bucket): (r: Totals)
    ensures r.processed == t.processed + 1 && r.skipped == t.skipped
    ensures r.success == t.success + (if b == BSuccess then 1 else 0)
    ensures r.dryRun == t.dryRun + (if b == BDryRun then 1 else 0)
    ensures r.alreadyCancelled == t.alreadyCancelled + (if b == BAlready then 1 else 0)
    ensures r.failedTransient == t.failedTransient + (if b == BTransient then 1 else 0)
    ensures r.failedPermanent == t.failedPermanent + (if b == BPermanent then 1 else 0)
    ensures Balanced(t) ==> Balanced(r)
  {
    var t := t.(processed := t.processed + 1);
    match b
    case BSuccess => t.(success := t.success + 1)
    case BDryRun => t.(dryRun := t.dryRun + 1)
    case BAlready => t.(alreadyCancelled := t.alreadyCancelled + 1)
    case BTransient => t.(failedTransient := t.failedTransient + 1)
    case BPermanent => t.(failedPermanent := t.failedPermanent + 1)
  }

  /** The tokens of the records that ended in success, in log order. */
  function SuccessTokens(audit: seq<AuditRecord>): (r: seq<string>)
    ensures |r| <= |audit|
    ensures forall k :: 0 <= k < |audit| && audit[k].status == Success ==> audit[k].token in r
    ensures forall t :: t in r ==> exists k :: 0 <= k < |audit| && audit[k].status == Success && audit[k].token == t
  {
    if |audit| == 0 then []
    else
      var prev := audit[..|audit| - 1];
      var last := audit[|audit| - 1];
      assert forall k :: 0 <= k < |prev| ==> prev[k] == audit[k];
      SuccessTokens(prev) + (if last.status == Success then [last.token] else [])
  }

  /** The tokens of the records that did not end in success, in log order. */
  function FailedTokens(audit: seq<AuditRecord>): (r: seq<string>)
    ensures |r| <= |audit|
    ensures forall k :: 0 <= k < |audit| && audit[k].status != Success ==> audit[k].token in r
    ensures forall t :: t in r ==> exists k :: 0 <= k < |audit| && audit[k].status != Success && audit[k].token == t
  {
    if |audit| == 0 then []
    else
      var prev := audit[..|audit| - 1];
      var last := audit[|audit| - 1];
      assert forall k :: 0 <= k < |prev| ==> prev[k] == audit[k];
      FailedTokens(prev) + (if last.status != Success then [last.token] else [])
  }

  /** The totals a log implies: every record is a processed row counted in its
      bucket; `skipped` rows leave no record. This is the reference the run's
      counters are checked against. */
  function TotalsOf(mode: Mode, audit: seq<AuditRecord>, skipped: nat): (t: Totals)
    ensures t.processed == |audit| && t.skipped == skipped
    ensures t.success == |SuccessTokens(audit)|
    ensures mode == Validate ==> t.alreadyCancelled == 0
  {
    if |audit| == 0 then Totals(0, 0, 0, 0, 0, 0, skipped)
    else Count(TotalsOf(mode, audit[..|audit| - 1], skipped), BucketOf(mode, audit[|audit| - 1]))
  }

  /** The bucket of every record of a log, in log order. */
  function Buckets(mode: Mode, audit: seq<AuditRecord>): (r: seq<Bucket>)
    ensures |r| == |audit|
    ensures forall k :: 0 <= k < |audit| ==> r[k] == BucketOf(mode, audit[k])
  {
    seq(|audit|, k requires 0 <= k < |audit| => BucketOf(mode, audit[k]))
  }

  lemma BucketsSnoc(mode: Mode, audit: seq<AuditRecord>)
    requires audit != []
    ensures Buckets(mode, audit) == Buckets(mode, audit[..|audit| - 1]) + [BucketOf(mode, audit[|audit| - 1])]
  {
    var prev := audit[..|audit| - 1];
    assert forall k :: 0 <= k < |prev| ==> prev[k] == audit[k];
  }

  /** The totals whose counters are the bucket counts of `m`. */
  function TotalsFrom(processed: nat, m: multiset<Bucket>, skipped: nat): Totals {
    Totals(processed, m[BSuccess], m[BAlready], m[BTransient], m[BPermanent], m[BDryRun], skipped)
  }

  lemma CountTotalsFrom(processed: nat, m: multiset<Bucket>, skipped: nat, b: Bucket)
    ensures Count(TotalsFrom(processed, m, skipped), b) == TotalsFrom(processed + 1, m + multiset{b}, skipped)
  {
  }

  /** Each counter of the totals a log implies is the number of records in its
      bucket. */
  lemma {:induction false} TotalsOfCounts(mode: Mode, audit: seq<AuditRecord>, skipped: nat)
    ensures TotalsOf(mode, audit, skipped) == TotalsFrom(|audit|, multiset(Buckets(mode, audit)), skipped)
    decreases |audit|
  {
    if |audit| != 0 {
      var prev := audit[..|audit| - 1];
      var b := BucketOf(mode, audit[|audit| - 1]);
      TotalsOfCounts(mode, prev, skipped);
      BucketsSnoc(mode, audit);
      assert multiset(Buckets(mode, audit)) == multiset(Buckets(mode, prev)) + multiset{b};
      CountTotalsFrom(|prev|, multiset(Buckets(mode, prev)), skipped, b);
    }
  }

  /** The totals a log implies are balanced. */
  lemma {:induction false} TotalsOfBalanced(mode: Mode, audit: seq<AuditRecord>, skipped: nat)
    ensures Balanced(TotalsOf(mode, audit, skipped))
    decreases |audit|
  {
    if |audit| != 0 {
      TotalsOfBalanced(mode, audit[..|audit| - 1], skipped);
    }
  }

  /** The export row of a validate-mode record. */
  function ExportOf(rec: AuditRecord, v: ValidationFields): ExportRow {
    ExportRow(rec.token, rec.package, rec.product, rec.orderId, v)
  }

  /** The ineligible-export row of a validate-mode record: the export fields
      plus the call outcome. */
  function IneligibleEntry(rec: AuditRecord, v: ValidationFields): IneligibleRow {
    IneligibleRow(ExportOf(rec, v), rec.status, rec.httpStatus, rec.errorType, rec.message)
  }

  /** The eligible export a validate-mode log implies: the export row of every
      eligible record, and nothing else. */
  function EligibleOf(audit: seq<AuditRecord>): (r: seq<ExportRow>)
    ensures |r| <= |audit|
    ensures forall i :: 0 <= i < |r| ==> r[i].fields.eligible
    ensures forall k :: 0 <= k < |audit| && audit[k].validation.Some? && audit[k].validation.value.eligible ==>
              ExportOf(audit[k], audit[k].validation.value) in r
    ensures forall e :: e in r ==>
              exists k :: 0 <= k < |audit| && audit[k].validation.Some? && audit[k].validation.value.eligible
                          && e == ExportOf(audit[k], audit[k].validation.value)
  {
    if |audit| == 0 then []
    else
      var prev := audit[..|audit| - 1];
      var last := audit[|audit| - 1];
      assert forall k :: 0 <= k < |prev| ==> prev[k] == audit[k];
      EligibleOf(prev)
        + (if last.validation.Some? && last.validation.value.eligible then [ExportOf(last, last.validation.value)] else [])
  }

  /** The ineligible export a validate-mode log implies: the entry of every
      validated record that is not eligible, and nothing else. */
  function IneligibleOf(audit: seq<AuditRecord>): (r: seq<IneligibleRow>)
    ensures |r| <= |audit|
    ensures forall i :: 0 <= i < |r| ==> !r[i].row.fields.eligible
    ensures forall k :: 0 <= k < |audit| && audit[k].validation.Some? && !audit[k].validation.value.eligible ==>
              IneligibleEntry(audit[k], audit[k].validation.value) in r
    ensures forall e :: e in r ==>
              exists k :: 0 <= k < |audit| && audit[k].validation.Some? && !audit[k].validation.value.eligible
                          && e == IneligibleEntry(audit[k], audit[k].validation.value)
  {
    if |audit| == 0 then []
    else
      var prev := audit[..|audit| - 1];
      var last := audit[|audit| - 1];
      assert forall k :: 0 <= k < |prev| ==> prev[k] == audit[k];
      IneligibleOf(prev)
        + (if last.validation.Some? && !last.validation.value.eligible then [IneligibleEntry(last, last.validation.value)] else [])
  }

  /** The remote operations a log implies outside a dry run: one per record. */
  function RequestsOf(audit: seq<AuditRecord>): (r: seq<Request>)
    ensures |r| == |audit|
    ensures forall i :: 0 <= i < |r| ==> r[i].token == audit[i].token && r[i].attempts == audit[i].attempts
  {
    if |audit| == 0 then []
    else
      var last := audit[|audit| - 1];
      RequestsOf(audit[..|audit| - 1]) + [Request(last.package, last.token, last.attempts)]
  }

  /** A skipped row: only the counters change. */
  function Skip(st: RunState): (r: RunState)
    ensures r.totals.skipped == st.totals.skipped + 1 && r.seen == st.seen + 1
    ensures r.totals.processed == st.totals.processed
    ensures r.audit == st.audit && r.requests == st.requests && r.done == st.done
    ensures r.totals.(skipped := st.totals.skipped) == st.totals
    ensures r.(totals := st.totals, seen := st.seen) == st
  {
    st.(totals := st.totals.(skipped := st.totals.skipped + 1), seen := st.seen + 1)
  }

  /** The audit record of a processed row. */
  function RecordOf(cfg: RunConfig, token: string, package: string, row: Row, lay: Layout, idx: int,
                    res: CallResult<Payload>): (rec: AuditRecord)
    ensures rec.token == token && rec.package == package && rec.rowIndex == idx
    ensures rec.status == res.status && rec.attempts == res.attempts
    ensures rec.validation.Some? <==> cfg.mode == Validate
    ensures rec.response.Some? ==> cfg.mode == Validate && cfg.logResponse && rec.response == res.payload
    ensures cfg.mode == Validate && cfg.logResponse ==> rec.response == res.payload
    ensures rec.httpStatus == res.httpStatus && rec.errorType == res.errorType && rec.message == res.message
    ensures rec.subscriptionId == SubscriptionOf(row, lay.subscriptionField)
    ensures rec.product == PickField(row, lay.productField) && rec.orderId == PickField(row, lay.orderIdField)
    ensures cfg.mode == Validate ==> rec.validation == Some(Extract(res.payload))
  {
    AuditRecord(
      token, SubscriptionOf(row, lay.subscriptionField), package,
      PickField(row, lay.productField), PickField(row, lay.orderIdField),
      res.status, res.attempts, res.httpStatus, res.errorType, res.message,
      if cfg.mode == Validate then Some(Extract(res.payload)) else None,
      if cfg.mode == Validate && cfg.logResponse then res.payload else None,
      idx)
  }

  /** Record a processed row: log it, count it, export it (validate mode), and
      outside a dry run record the request and append its token to the success
      or the failure checkpoint, whichever is configured; a success also joins
      the skip set. */
  function Record(cfg: RunConfig, rec: AuditRecord, st: RunState): (r: RunState)
    ensures r.audit == st.audit + [rec] && r.seen == st.seen + 1
    ensures r.totals == Count(st.totals, BucketOf(cfg.mode, rec))
  {
    var success := rec.status == Success;
    var v := if rec.validation.Some? then rec.validation.value else Extract(None);
    st.(
      totals := Count(st.totals, BucketOf(cfg.mode, rec)),
      audit := st.audit + [rec],
      eligible := if rec.validation.Some? && v.eligible then st.eligible + [ExportOf(rec, v)] else st.eligible,
      ineligible :=
        if rec.validation.Some? && !v.eligible then
          st.ineligible + [IneligibleRow(ExportOf(rec, v), rec.status, rec.httpStatus, rec.errorType, rec.message)]
        else st.ineligible,
      requests := if cfg.dryRun then st.requests else st.requests + [Request(rec.package, rec.token, rec.attempts)],
      successLog := if !cfg.dryRun && success && cfg.successCheckpoint then st.successLog + [rec.token] else st.successLog,
      failedLog := if !cfg.dryRun && !success && cfg.failedCheckpoint then st.failedLog + [rec.token] else st.failedLog,
      done := if !cfg.dryRun && success && cfg.successCheckpoint then st.done + {rec.token} else st.done,
      seen := st.seen + 1)
  }

  /** One iteration of the row loop for the 1-based row `idx`. */
  function Step(cfg: RunConfig, lay: Layout, row: Row, idx: int, responses: seq<Response<Payload>>, st: RunState)
    : (r: RunState)
    requires |responses| >= cfg.retries + 1
    ensures r.seen == st.seen + 1
    ensures r.totals.processed >= st.totals.processed && r.totals.skipped >= st.totals.skipped
    ensures r.totals.processed + r.totals.skipped == st.totals.processed + st.totals.skipped + 1
    ensures r.totals.skipped == st.totals.skipped <==> |r.audit| == |st.audit| + 1
  {
    var token := TokenOf(row, lay.tokenField);
    var package := PickPackage(row, lay.packageField, cfg.packageName);
    match Triage(token, st.done, package, cfg.packageName)
    case Dispatch(p) =>
      var res := Call(cfg, responses);
      Record(cfg, RecordOf(cfg, token, p, row, lay, idx, res), st)
    case _ => Skip(st)
  }

  /** Every row has its responses, however many attempts it takes. */
  predicate OracleFits(cfg: RunConfig, rows: seq<Row>, oracle: seq<seq<Response<Payload>>>) {
    |oracle| == |rows| && forall i :: 0 <= i < |oracle| ==> |oracle[i]| >= cfg.retries + 1
  }

  /** The row loop from the 0-based row `i` on. The loop stops early once
      `processed` reaches a set `--max-rows`. */
  function RunFrom(cfg: RunConfig, lay: Layout, rows: seq<Row>, oracle: seq<seq<Response<Payload>>>, i: nat, st: RunState)
    : (r: RunState)
    requires i <= |rows| && OracleFits(cfg, rows, oracle)
    ensures st.seen <= r.seen <= st.seen + |rows| - i
    decreases |rows| - i
  {
    if i == |rows| then st
    else if cfg.maxRows != 0 && st.totals.processed >= cfg.maxRows then st
    else RunFrom(cfg, lay, rows, oracle, i + 1, Step(cfg, lay, rows[i], i + 1, oracle[i], st))
  }

  /** The whole row loop, starting from the tokens of the success checkpoint. */
  function Run(cfg: RunConfig, lay: Layout, rows: seq<Row>, oracle: seq<seq<Response<Payload>>>, done: set<string>)
    : (r: RunState)
    requires OracleFits(cfg, rows, oracle)
    ensures r.seen <= |rows|
  {
    RunFrom(cfg, lay, rows, oracle, 0, Init(done))
  }
}

=== FILE: legacy.dfy ===
/** The earlier, root-level version of the tool (`cancel_subscriptions.py` at the
    repository root): cancel mode only, one package for the whole run, no
    checkpoints and no skipped counter. Its config merge lets the config file
    override the command line. */
module Legacy {
  import opened Base
  import opened Text
  import opened Classifier
  import opened Retry
  import opened Columns
  import Config
  import Driver

  /** `cancel_with_retries` (root version): the scripts loop, success reported as HTTP 200. */
  function CancelWithRetries<P>(responses: seq<Response<P>>, retries: int, base: real): (e: Execution<P>)
    requires |responses| >= retries + 1
    ensures retries >= 0 ==> 1 <= e.result.attempts <= retries + 1
    ensures e.result.payload == None
    ensures e.result.status == Success ==> e.result.httpStatus == Some(200) && e.result.errorType == None
    ensures e.result.status == Success <==> retries >= 0 && responses[e.result.attempts - 1].Ok?
    ensures e.result.status != Success ==> e.result == Execute(responses, retries, base, 200).result
    ensures e.delays == Execute(responses, retries, base, 200).delays
  {
    var e := Execute(responses, retries, base, 200);
    Execution(e.result.(payload := None), e.delays)
  }

  /** The number of attempts the loop makes is fixed by the responses alone. */
  lemma AttemptsUnique<P>(responses: seq<Response<P>>, retries: int, n: int, m: int)
    requires 0 <= retries && 1 <= n <= retries + 1 && 1 <= m <= retries + 1
    requires |responses| >= retries + 1
    requires forall k :: 0 <= k < n - 1 ==> Retryable(responses[k])
    requires n - 1 == retries || !Retryable(responses[n - 1])
    requires forall k :: 0 <= k < m - 1 ==> Retryable(responses[k])
    requires m - 1 == retries || !Retryable(responses[m - 1])
    ensures n == m
  {
  }

  /** The two versions' cancel calls agree except for the status code a success reports. */
  lemma SuccessCodeOnlyDifference<P>(responses: seq<Response<P>>, retries: int, base: real)
    requires |responses| >= retries + 1
    ensures var before := Retry.CancelWithRetries(responses, retries, base);
            var now := CancelWithRetries(responses, retries, base);
            && now.result == (if before.result.status == Success then before.result.(httpStatus := Some(200)) else before.result)
            && now.delays == before.delays
  {
    var a := Execute(responses, retries, base, 204);
    var b := Execute(responses, retries, base, 200);
    if retries >= 0 {
      AttemptsUnique(responses, retries, a.result.attempts, b.result.attempts);
    }
  }

  /** The columns of the root version: the token column (required) and the
      subscription id column, from the same candidate lists as the scripts version. */
  function Setup(fieldnames: seq<string>, tokenColumn: string, subscriptionColumn: string)
    : (r: Result<Headers, HeaderError>)
    ensures r.Err? <==> forall i :: 0 <= i < 4 ==> !Usable(fieldnames, [tokenColumn, "purchaseToken", "purchase_token", "token"][i])
    ensures r.Ok? ==> Usable(fieldnames, r.value.tokenField)
    ensures r.Ok? ==>
              && Some(r.value.tokenField) == ChooseField(fieldnames, [tokenColumn, "purchaseToken", "purchase_token", "token"])
              && r.value.subscriptionField
                   == ChooseField(fieldnames, [subscriptionColumn, "subscriptionId", "subscription_id", "product"])
  {
    ValidateHeaders(fieldnames, [tokenColumn, "purchaseToken", "purchase_token", "token"],
                    [subscriptionColumn, "subscriptionId", "subscription_id", "product"], [])
  }

  /** The options `run` reads. `maxRows == 0` stands for no `--max-rows`; a
      negative value is accepted by the parser and stops the loop at once. */
  datatype RunConfig = RunConfig(dryRun: bool, maxRows: int, packageName: string, retries: int, backoff: real)

  /** One line of the root version's audit log. */
  datatype Record = Record(
    token: string,
    subscriptionId: Option<string>,
    status: Status,
    attempts: int,
    httpStatus: Option<int>,
    errorType: Option<ErrorType>,
    message: Option<string>,
    rowIndex: int)

  /** The root version's totals: the scripts counters without `skipped`. */
  datatype Totals = Totals(processed: nat, success: nat, alreadyCancelled: nat, failedTransient: nat,
                           failedPermanent: nat, dryRun: nat)

  predicate Balanced(t: Totals) {
    t.processed == t.success + t.dryRun + t.alreadyCancelled + t.failedTransient + t.failedPermanent
  }

  /** What a run has produced so far: totals, the audit log and the cancel calls made. */
  datatype State = State(totals: Totals, audit: seq<Record>, requests: seq<Driver.Request>)

  function Init(): State {
    State(Totals(0, 0, 0, 0, 0, 0), [], [])
  }

  /** The counter a result increments; the rules are the scripts' cancel-mode rules. */
  function BucketOf<P>(res: CallResult<P>): (b: Driver.Bucket)
    ensures b == Driver.BSuccess <==> res.status == Success
    ensures b == Driver.BDryRun <==> res.status == DryRun
    ensures b == Driver.BAlready <==> res.status.Failure? && res.errorType == Some(AlreadyCancelled)
    ensures b == Driver.BTransient <==>
              && res.status.Failure? && res.errorType != Some(AlreadyCancelled)
              && res.httpStatus.Some? && res.httpStatus.value in RetryStatus
  {
    if res.status == Success then Driver.BSuccess
    else if res.status == DryRun then Driver.BDryRun
    else if res.errorType == Some(AlreadyCancelled) then Driver.BAlready
    else if res.httpStatus.Some? && res.httpStatus.value in RetryStatus then Driver.BTransient
    else Driver.BPermanent
  }

  function Count(t: Totals, b: Driver.Bucket): (r: Totals)
    ensures r.processed == t.processed + 1
    ensures r.success == t.success + (if b == Driver.BSuccess then 1 else 0)
    ensures r.dryRun == t.dryRun + (if b == Driver.BDryRun then 1 else 0)
    ensures r.alreadyCancelled == t.alreadyCancelled + (if b == Driver.BAlready then 1 else 0)
    ensures r.failedTransient == t.failedTransient + (if b == Driver.BTransient then 1 else 0)
    ensures r.failedPermanent == t.failedPermanent + (if b == Driver.BPermanent then 1 else 0)
    ensures Balanced(t) ==> Balanced(r)
  {
    var t := t.(processed := t.processed + 1);
    match b
    case BSuccess => t.(success := t.success + 1)
    case BDryRun => t.(dryRun := t.dryRun + 1)
    case BAlready => t.(alreadyCancelled := t.alreadyCancelled + 1)
    case BTransient => t.(failedTransient := t.failedTransient + 1)
    case BPermanent => t.(failedPermanent := t.failedPermanent + 1)
  }

  /** The outcome of one processed row: a synthesized dry run, or the cancel call. */
  function Call(cfg: RunConfig, responses: seq<Response<()>>): (res: CallResult<()>)
    requires |responses| >= cfg.retries + 1
    ensures res.status == DryRun <==> cfg.dryRun
    ensures cfg.dryRun ==> res.attempts == 0 && res.httpStatus == None && res.errorType == None
    ensures !cfg.dryRun ==> res == CancelWithRetries(responses, cfg.retries, cfg.backoff).result
  {
    if cfg.dryRun then DryRunResult() else CancelWithRetries(responses, cfg.retries, cfg.backoff).result
  }

  /** The counter a logged record was counted in, read back from its fields. */
  function RecordBucket(rec: Record): (b: Driver.Bucket)
    ensures b == Driver.BSuccess <==> rec.status == Success
    ensures b == Driver.BDryRun <==> rec.status == DryRun
    ensures b == Driver.BAlready <==> rec.status.Failure? && rec.errorType == Some(AlreadyCancelled)
  {
    BucketOf<()>(CallResult(rec.status, rec.attempts, rec.httpStatus, rec.message, rec.errorType, None))
  }

  /** One row: a row without a token is passed over uncounted; otherwise it is
      processed (called unless dry run), counted and logged. */
  function Step(cfg: RunConfig, h: Headers, row: Row, idx: int, responses: seq<Response<()>>, st: State): (r: State)
    requires |responses| >= cfg.retries + 1
    ensures TokenOf(row, h.tokenField) == "" ==> r == st
    ensures TokenOf(row, h.tokenField) != "" ==>
              && |r.audit| == |st.audit| + 1 && r.audit[..|st.audit|] == st.audit
              && r.audit[|st.audit|].token == TokenOf(row, h.tokenField)
              && r.audit[|st.audit|].rowIndex == idx
    ensures TokenOf(row, h.tokenField) != "" ==>
              var res := Call(cfg, responses);
              var rec := r.audit[|st.audit|];
              && rec.subscriptionId == SubscriptionOf(row, h.subscriptionField)
              && rec.status == res.status && rec.attempts == res.attempts
              && rec.httpStatus == res.httpStatus && rec.errorType == res.errorType && rec.message == res.message
              && r.totals == Count(st.totals, RecordBucket(rec))
              && r.requests == st.requests + (if cfg.dryRun then [] else [Driver.Request(cfg.packageName, rec.token, rec.attempts)])
  {
    var token := TokenOf(row, h.tokenField);
    if token == "" then st
    else
      var res := Call(cfg, responses);
      var rec := Record(token, SubscriptionOf(row, h.subscriptionField), res.status, res.attempts,
                        res.httpStatus, res.errorType, res.message, idx);
      State(Count(st.totals, BucketOf(res)), st.audit + [rec],
            if cfg.dryRun then st.requests else st.requests + [Driver.Request(cfg.packageName, token, res.attempts)])
  }

  predicate OracleFits(cfg: RunConfig, rows: seq<Row>, oracle: seq<seq<Response<()>>>) {
    |oracle| == |rows| && forall i :: 0 <= i < |oracle| ==> |oracle[i]| >= cfg.retries + 1
  }

  /** The row loop from row `i` on, stopping once `--max-rows` rows were processed. */
  function RunFrom(cfg: RunConfig, h: Headers, rows: seq<Row>, oracle: seq<seq<Response<()>>>, i: nat, st: State)
    : (r: State)
    requires i <= |rows| && OracleFits(cfg, rows, oracle)
    decreases |rows| - i
  {
    if i == |rows| then st
    else if cfg.maxRows != 0 && st.totals.processed >= cfg.maxRows then st
    else RunFrom(cfg, h, rows, oracle, i + 1, Step(cfg, h, rows[i], i + 1, oracle[i], st))
  }

  /** `run` (root version) over the rows of the input, after the headers were resolved. */
  function Run(cfg: RunConfig, h: Headers, rows: seq<Row>, oracle: seq<seq<Response<()>>>): State
    requires OracleFits(cfg, rows, oracle)
  {
    RunFrom(cfg, h, rows, oracle, 0, Init())
  }

  /** One record per processed row, and counters that add up; a dry run counts
      every processed row as a dry run and no other run counts any. */
  predicate CountsAgree(cfg: RunConfig, st: State) {
    && st.totals.processed == |st.audit|
    && Balanced(st.totals)
    && st.totals.dryRun == (if cfg.dryRun then st.totals.processed else 0)
  }

  /** A dry run makes no call and logs every row as a zero-attempt dry run. */
  predicate DryRunSilent(cfg: RunConfig, st: State) {
    cfg.dryRun ==>
      && st.requests == []
      && forall k :: 0 <= k < |st.audit| ==> st.audit[k].status == DryRun && st.audit[k].attempts == 0
  }

  /** Any other run makes one call per logged row, for the run's package. */
  predicate CallsMatch(cfg: RunConfig, st: State) {
    !cfg.dryRun ==>
      && |st.requests| == |st.audit|
      && forall k :: 0 <= k < |st.audit| ==>
           st.requests[k] == Driver.Request(cfg.packageName, st.audit[k].token, st.audit[k].attempts)
  }

  /** Every logged token is non-empty and stripped. */
  predicate TokensClean(st: State) {
    forall k :: 0 <= k < |st.audit| ==> st.audit[k].token != "" && Clean(st.audit[k].token)
  }

  /** What holds of every state the loop reaches. */
  predicate Consistent(cfg: RunConfig, st: State) {
    CountsAgree(cfg, st) && DryRunSilent(cfg, st) && CallsMatch(cfg, st) && TokensClean(st)
  }

  lemma StepCounts(cfg: RunConfig, h: Headers, row: Row, idx: int, responses: seq<Response<()>>, st: State)
    requires |responses| >= cfg.retries + 1 && CountsAgree(cfg, st)
    ensures CountsAgree(cfg, Step(cfg, h, row, idx, responses, st))
  {
    if TokenOf(row, h.tokenField) != "" && !cfg.dryRun {
      assert CancelWithRetries(responses, cfg.retries, cfg.backoff).result.status != DryRun;
    }
  }

  lemma StepSilent(cfg: RunConfig, h: Headers, row: Row, idx: int, responses: seq<Response<()>>, st: State)
    requires |responses| >= cfg.retries + 1 && DryRunSilent(cfg, st)
    ensures DryRunSilent(cfg, Step(cfg, h, row, idx, responses, st))
  {
  }

  lemma StepCalls(cfg: RunConfig, h: Headers, row: Row, idx: int, responses: seq<Response<()>>, st: State)
    requires |responses| >= cfg.retries + 1 && CallsMatch(cfg, st)
    ensures CallsMatch(cfg, Step(cfg, h, row, idx, responses, st))
  {
  }

  lemma StepClean(cfg: RunConfig, h: Headers, row: Row, idx: int, responses: seq<Response<()>>, st: State)
    requires |responses| >= cfg.retries + 1 && TokensClean(st)
    ensures TokensClean(Step(cfg, h, row, idx, responses, st))
  {
  }

  lemma StepKeeps(cfg: RunConfig, h: Headers, row: Row, idx: int, responses: seq<Response<()>>, st: State)
    requires |responses| >= cfg.retries + 1
    requires Consistent(cfg, st)
    ensures Consistent(cfg, Step(cfg, h, row, idx, responses, st))
  {
    StepCounts(cfg, h, row, idx, responses, st);
    StepSilent(cfg, h, row, idx, responses, st);
    StepCalls(cfg, h, row, idx, responses, st);
    StepClean(cfg, h, row, idx, responses, st);
  }

  /** A consistent state stays consistent through the rest of the loop. */
  lemma {:induction false} RunFromConsistent(cfg: RunConfig, h: Headers, rows: seq<Row>, oracle: seq<seq<Response<()>>>,
                                             i: nat, st: State)
    requires i <= |rows| && OracleFits(cfg, rows, oracle) && Consistent(cfg, st)
    ensures Consistent(cfg, RunFrom(cfg, h, rows, oracle, i, st))
    decreases |rows| - i
  {
    if i < |rows| && !(cfg.maxRows != 0 && st.totals.processed >= cfg.maxRows) {
      StepKeeps(cfg, h, rows[i], i + 1, oracle[i], st);
      RunFromConsistent(cfg, h, rows, oracle, i + 1, Step(cfg, h, rows[i], i + 1, oracle[i], st));
    }
  }

  /** Every run ends consistent: each processed row is logged once with a clean
      token, the totals add up, a dry run calls nothing and every other run calls
      once per logged row with the run's package. */
  lemma RunConsistent(cfg: RunConfig, h: Headers, rows: seq<Row>, oracle: seq<seq<Response<()>>>)
    requires OracleFits(cfg, rows, oracle)
    ensures Consistent(cfg, Run(cfg, h, rows, oracle))
  {
    RunFromConsistent(cfg, h, rows, oracle, 0, Init());
  }

  /** The buckets of the records of a log, in order. */
  function LogBuckets(audit: seq<Record>): (r: seq<Driver.Bucket>)
    ensures |r| == |audit| && forall k :: 0 <= k < |audit| ==> r[k] == RecordBucket(audit[k])
  {
    seq(|audit|, k requires 0 <= k < |audit| => RecordBucket(audit[k]))
  }

  /** The totals a root log implies, counting its records in order. */
  function LogTotals(audit: seq<Record>): Totals {
    if |audit| == 0 then Init().totals
    else Count(LogTotals(audit[..|audit| - 1]), RecordBucket(audit[|audit| - 1]))
  }

  lemma LogTotalsSnoc(audit: seq<Record>, rec: Record)
    ensures LogTotals(audit + [rec]) == Count(LogTotals(audit), RecordBucket(rec))
  {
    assert (audit + [rec])[..|audit|] == audit;
  }

  lemma LogBucketsSnoc(audit: seq<Record>)
    requires audit != []
    ensures LogBuckets(audit) == LogBuckets(audit[..|audit| - 1]) + [RecordBucket(audit[|audit| - 1])]
  {
    var prev := audit[..|audit| - 1];
    assert forall k :: 0 <= k < |prev| ==> prev[k] == audit[k];
  }

  /** The totals a root log implies: processed is its length, and each outcome
      counter is the number of its records in that bucket. */
  lemma {:induction false} LogTotalsCounts(audit: seq<Record>)
    ensures var t := LogTotals(audit); var m := multiset(LogBuckets(audit));
            && t.processed == |audit|
            && t.success == m[Driver.BSuccess] && t.dryRun == m[Driver.BDryRun]
            && t.alreadyCancelled == m[Driver.BAlready]
            && t.failedTransient == m[Driver.BTransient] && t.failedPermanent == m[Driver.BPermanent]
    decreases |audit|
  {
    if |audit| != 0 {
      var prev := audit[..|audit| - 1];
      LogTotalsCounts(prev);
      LogBucketsSnoc(audit);
      assert multiset(LogBuckets(audit)) == multiset(LogBuckets(prev)) + multiset{RecordBucket(audit[|audit| - 1])};
    }
  }

  /** The totals agree with the tally of the log. */
  predicate Tallied(st: State) {
    st.totals == LogTotals(st.audit)
  }

  /** A step keeps the totals equal to the tally of the log. */
  lemma StepTallies(cfg: RunConfig, h: Headers, row: Row, idx: int, responses: seq<Response<()>>, st: State)
    requires |responses| >= cfg.retries + 1 && Tallied(st)
    ensures Tallied(Step(cfg, h, row, idx, responses, st))
  {
    var r := Step(cfg, h, row, idx, responses, st);
    if TokenOf(row, h.tokenField) != "" {
      var rec := r.audit[|st.audit|];
      assert r.audit == st.audit + [rec];
      LogTotalsSnoc(st.audit, rec);
    }
  }

  /** One row of the loop, from a tallied state to a tallied one. */
  lemma AdvanceTallied(cfg: RunConfig, h: Headers, rows: seq<Row>, oracle: seq<seq<Response<()>>>, i: nat, st: State)
    returns (next: State)
    requires i < |rows| && OracleFits(cfg, rows, oracle) && Tallied(st)
    requires !(cfg.maxRows != 0 && st.totals.processed >= cfg.maxRows)
    ensures Tallied(next) && RunFrom(cfg, h, rows, oracle, i, st) == RunFrom(cfg, h, rows, oracle, i + 1, next)
  {
    next := Step(cfg, h, rows[i], i + 1, oracle[i], st);
    StepTallies(cfg, h, rows[i], i + 1, oracle[i], st);
  }

  lemma {:induction false} RunFromTallies(cfg: RunConfig, h: Headers, rows: seq<Row>, oracle: seq<seq<Response<()>>>,
                                          i: nat, st: State)
    requires i <= |rows| && OracleFits(cfg, rows, oracle) && Tallied(st)
    ensures Tallied(RunFrom(cfg, h, rows, oracle, i, st))
    decreases |rows| - i
  {
    if i < |rows| && !(cfg.maxRows != 0 && st.totals.processed >= cfg.maxRows) {
      var next := AdvanceTallied(cfg, h, rows, oracle, i, st);
      RunFromTallies(cfg, h, rows, oracle, i + 1, next);
    }
  }

  /** After a root run every counter is the number of logged records in its
      bucket; in particular `success` counts exactly the successful records. */
  lemma RunTallies(cfg: RunConfig, h: Headers, rows: seq<Row>, oracle: seq<seq<Response<()>>>)
    requires OracleFits(cfg, rows, oracle)
    ensures var r := Run(cfg, h, rows, oracle);
            r.totals == LogTotals(r.audit)
  {
    assert Tallied(Init());
    RunFromTallies(cfg, h, rows, oracle, 0, Init());
  }

  /** The tokens of the rows that have one, in order: the reference for what a run logs. */
  function Tokens(h: Headers, rows: seq<Row>): (r: seq<string>)
    ensures |r| <= |rows|
  {
    if |rows| == 0 then [] else RowTokens(h, rows[0]) + Tokens(h, rows[1..])
  }

  /** The token column of an audit log. */
  function AuditTokens(audit: seq<Record>): (r: seq<string>)
    ensures |r| == |audit| && forall k :: 0 <= k < |audit| ==> r[k] == audit[k].token
  {
    seq(|audit|, k requires 0 <= k < |audit| => audit[k].token)
  }

  /** The tokens a row contributes to the log. */
  function RowTokens(h: Headers, row: Row): seq<string> {
    if TokenOf(row, h.tokenField) == "" then [] else [TokenOf(row, h.tokenField)]
  }

  lemma TokensFrom(h: Headers, rows: seq<Row>, i: nat)
    requires i < |rows|
    ensures Tokens(h, rows[i..]) == RowTokens(h, rows[i]) + Tokens(h, rows[i + 1..])
  {
    assert rows[i..][1..] == rows[i + 1..];
  }

  lemma StepLogsToken(cfg: RunConfig, h: Headers, row: Row, idx: int, responses: seq<Response<()>>, st: State)
    requires |responses| >= cfg.retries + 1
    ensures AuditTokens(Step(cfg, h, row, idx, responses, st).audit) == AuditTokens(st.audit) + RowTokens(h, row)
  {
  }

  lemma {:induction false} RunFromLogsTokens(cfg: RunConfig, h: Headers, rows: seq<Row>, oracle: seq<seq<Response<()>>>,
                                             i: nat, st: State)
    requires i <= |rows| && OracleFits(cfg, rows, oracle) && cfg.maxRows == 0
    ensures AuditTokens(RunFrom(cfg, h, rows, oracle, i, st).audit) == AuditTokens(st.audit) + Tokens(h, rows[i..])
    decreases |rows| - i
  {
    if i == |rows| {
      assert rows[i..] == [];
    } else {
      var next := Step(cfg, h, rows[i], i + 1, oracle[i], st);
      RunFromLogsTokens(cfg, h, rows, oracle, i + 1, next);
      StepLogsToken(cfg, h, rows[i], i + 1, oracle[i], st);
      TokensFrom(h, rows, i);
      ConcatAssoc(AuditTokens(st.audit), RowTokens(h, rows[i]), Tokens(h, rows[i + 1..]));
    }
  }

  /** Without `--max-rows`, the log holds exactly the non-empty row tokens, in
      input order: no row with a token is dropped and none is logged twice. */
  lemma RunLogsEveryToken(cfg: RunConfig, h: Headers, rows: seq<Row>, oracle: seq<seq<Response<()>>>)
    requires OracleFits(cfg, rows, oracle) && cfg.maxRows == 0
    ensures AuditTokens(Run(cfg, h, rows, oracle).audit) == Tokens(h, rows)
  {
    RunFromLogsTokens(cfg, h, rows, oracle, 0, Init());
    assert rows[0..] == rows;
  }

  /** With `--max-rows n`, at most `n` rows are processed. */
  lemma {:induction false} RunFromRespectsMaxRows(cfg: RunConfig, h: Headers, rows: seq<Row>,
                                                  oracle: seq<seq<Response<()>>>, i: nat, st: State)
    requires i <= |rows| && OracleFits(cfg, rows, oracle)
    requires cfg.maxRows > 0 && st.totals.processed <= cfg.maxRows
    ensures RunFrom(cfg, h, rows, oracle, i, st).totals.processed <= cfg.maxRows
    decreases |rows| - i
  {
    if i < |rows| && st.totals.processed < cfg.maxRows {
      RunFromRespectsMaxRows(cfg, h, rows, oracle, i + 1, Step(cfg, h, rows[i], i + 1, oracle[i], st));
    }
  }

  /** A positive `--max-rows n` bounds the processed rows by `n`; a negative one
      stops the loop before the first row. */
  lemma RunRespectsMaxRows(cfg: RunConfig, h: Headers, rows: seq<Row>, oracle: seq<seq<Response<()>>>)
    requires OracleFits(cfg, rows, oracle)
    ensures cfg.maxRows > 0 ==> Run(cfg, h, rows, oracle).totals.processed <= cfg.maxRows
    ensures cfg.maxRows < 0 ==> Run(cfg, h, rows, oracle) == Init()
  {
    if cfg.maxRows > 0 {
      RunFromRespectsMaxRows(cfg, h, rows, oracle, 0, Init());
    }
  }

  /** `apply_config` (root version): every non-null config value of a known
      option is written over the namespace, command-line value or not. */
  function ApplyConfig(args: Config.Namespace, cfg: Option<Config.Entries>): (r: Config.Namespace)
    ensures r.Keys == args.Keys
  {
    if cfg.None? || |cfg.value| == 0 then args else Overwrite(args, cfg.value)
  }

  function Overwrite(args: Config.Namespace, cfg: Config.Entries): (r: Config.Namespace)
    ensures r.Keys == args.Keys
    decreases |cfg|
  {
    if |cfg| == 0 then args
    else
      var (key, value) := cfg[0];
      Overwrite(if value != Config.Null && key in args then args[key := value] else args, cfg[1..])
  }

  /** In the root version the config file wins: with distinct keys, an option the
      config names with a non-null value ends up with that value. */
  lemma {:induction false} ConfigWins(args: Config.Namespace, cfg: Config.Entries, i: nat)
    requires Config.DistinctKeys(cfg) && i < |cfg|
    requires cfg[i].0 in args && cfg[i].1 != Config.Null
    ensures Overwrite(args, cfg)[cfg[i].0] == cfg[i].1
    decreases |cfg|
  {
    var (key, value) := cfg[0];
    var next := if value != Config.Null && key in args then args[key := value] else args;
    var tail := cfg[1..];
    if i == 0 {
      forall j | 0 <= j < |tail| ensures tail[j].0 != key {
        assert tail[j] == cfg[j + 1];
      }
      OverwriteAbsent(next, tail, key);
    } else {
      assert Config.DistinctKeys(tail) by {
        forall a, b | 0 <= a < b < |tail| ensures tail[a].0 != tail[b].0 {
          assert tail[a] == cfg[a + 1] && tail[b] == cfg[b + 1];
        }
      }
      assert tail[i - 1] == cfg[i];
      ConfigWins(next, tail, i - 1);
    }
  }

  /** Entries for other keys, and null entries for this one, leave an option alone. */
  lemma {:induction false} OverwriteAbsent(args: Config.Namespace, cfg: Config.Entries, key: string)
    requires key in args && forall j :: 0 <= j < |cfg| && cfg[j].0 == key ==> cfg[j].1 == Config.Null
    ensures Overwrite(args, cfg)[key] == args[key]
    decreases |cfg|
  {
    if |cfg| != 0 {
      var (k, v) := cfg[0];
      var next := if v != Config.Null && k in args then args[k := v] else args;
      assert forall j :: 0 <= j < |cfg[1..]| ==> cfg[1..][j] == cfg[j + 1];
      OverwriteAbsent(next, cfg[1..], key);
    }
  }

  /** The root version lets the config override a flag given on the command line:
      `--retries 5` with `{"retries": 1}` in the config runs with one retry, where
      the scripts version keeps five. */
  lemma ConfigOverridesCli()
    ensures var args := map["retries" := Config.Int(5)];
            var cfg := [("retries", Config.Int(1))];
            && ApplyConfig(args, Some(cfg))["retries"] == Config.Int(1)
            && Config.ApplyConfig(args, Some(cfg))["retries"] == Config.Int(5)
  {
    var args := map["retries" := Config.Int(5)];
    var cfg := [("retries", Config.Int(1))];
    assert !Config.PyEq(args["retries"], Config.DefaultOf("retries"));
    Config.CliWins(args, Some(cfg), "retries");
    ConfigWins(args, cfg, 0);
  }

  /** The options the root version requires: the scripts' two plus the package name. */
  const Required: seq<string> := ["input", "service_account", "package_name"]

  /** A run without `--package-name` passes the scripts check and fails the root
      one, which names the package name as the one missing option. */
  lemma PackageNameRequiredOnlyAtRoot()
    ensures var args := map["input" := Config.Str("tokens.csv"), "service_account" := Config.Str("key.json"),
                            "package_name" := Config.Null];
            && Config.ValidateRequired(args, Config.ScriptRequired).Ok?
            && Config.ValidateRequired(args, Required) == Err(["package_name"])
  {
    var args := map["input" := Config.Str("tokens.csv"), "service_account" := Config.Str("key.json"),
                    "package_name" := Config.Null];
    ScriptsAccept(args);
    RootRefuses(args);
  }

  lemma ScriptsAccept(args: Config.Namespace)
    requires args == map["input" := Config.Str("tokens.csv"), "service_account" := Config.Str("key.json"),
                         "package_name" := Config.Null]
    ensures Config.ValidateRequired(args, Config.ScriptRequired).Ok?
  {
    assert !Config.Blank(args["input"]) && !Config.Blank(args["service_account"]);
  }

  lemma RootRefuses(args: Config.Namespace)
    requires args == map["input" := Config.Str("tokens.csv"), "service_account" := Config.Str("key.json"),
                         "package_name" := Config.Null]
    ensures Config.ValidateRequired(args, Required) == Err(["package_name"])
  {
    assert !Config.Blank(args["input"]) && !Config.Blank(args["service_account"]);
    assert Config.Blank(args["package_name"]);
    assert Required[1..][1..][1..] == [];
    assert Config.MissingNames(args, Required[1..][1..]) == ["package_name"];
    assert Config.MissingNames(args, Required[1..]) == ["package_name"];
  }
}

=== FILE: report.dfy ===
/** The log report (`report_cancellation_log.py`): read a JSONL audit log,
    count outcomes by status, by error type and by HTTP status, and export the
    records as CSV rows. JSON decoding is a parameter: `parse` gives the decoded
    value of a stripped line, or `None` when the line is malformed. Python's
    `Counter`s are multisets. */
module Report {
  import opened Base
  import opened Text
  import Checkpoint

  /** A JSON value held in a record field. `JOther` stands for a float, list or
      nested object, carried with the text Python's `str` renders for it. */
  datatype Json = JNull | JBool(b: bool) | JInt(i: int) | JStr(s: string) | JOther(text: string)

  type Record = map<string, Json>

  /** A decoded line: an object, or some other JSON value. */
  datatype Loaded = Object(fields: Record) | NonObject(value: Json)

  /** The columns of the CSV export, in order. */
  const Fields: seq<string> :=
    ["timestamp", "purchaseToken", "subscriptionId", "status", "attempts", "httpStatus", "errorType", "message", "rowIndex"]

  /** The values yielded for a list of lines: blank lines and malformed JSON are
      skipped. */
  function LoadLines(lines: seq<string>, parse: string -> Option<Loaded>): (r: seq<Loaded>)
    ensures |r| <= |lines|
  {
    if |lines| == 0 then []
    else
      var line := Strip(lines[0]);
      (if line == "" || parse(line).None? then [] else [parse(line).value]) + LoadLines(lines[1..], parse)
  }

  /** `load_records`: the decoded values of the log's lines, in file order. */
  function LoadRecords(content: string, parse: string -> Option<Loaded>): (r: seq<Loaded>)
    ensures |r| <= |Checkpoint.Lines(content)|
    ensures forall v :: v in r <==>
              exists k :: 0 <= k < |Checkpoint.Lines(content)| && Strip(Checkpoint.Lines(content)[k]) != ""
                          && parse(Strip(Checkpoint.Lines(content)[k])) == Some(v)
  {
    var lines := Checkpoint.Lines(content);
    LoadLinesExactly(lines, parse);
    LoadLines(lines, parse)
  }

  /** One step of `LoadLines`: the first line's value, if any, then the rest. */
  lemma LoadLinesUnfold(lines: seq<string>, parse: string -> Option<Loaded>)
    requires lines != []
    ensures LoadLines(lines, parse) == LoadLines([lines[0]], parse) + LoadLines(lines[1..], parse)
  {
    assert [lines[0]][1..] == [];
  }

  lemma {:induction false} LoadLinesAppend(a: seq<string>, b: seq<string>, parse: string -> Option<Loaded>)
    ensures LoadLines(a + b, parse) == LoadLines(a, parse) + LoadLines(b, parse)
    decreases |a|
  {
    if |a| == 0 {
      assert a + b == b;
    } else {
      var ab := a + b;
      var head := LoadLines([a[0]], parse);
      assert ab[0] == a[0];
      assert ab[1..] == a[1..] + b;
      LoadLinesUnfold(ab, parse);
      LoadLinesUnfold(a, parse);
      LoadLinesAppend(a[1..], b, parse);
      ConcatAssoc(head, LoadLines(a[1..], parse), LoadLines(b, parse));
    }
  }

  /** A value is yielded exactly when some non-blank line decodes to it. */
  lemma {:induction false} LoadLinesMembers(lines: seq<string>, parse: string -> Option<Loaded>, v: Loaded)
    ensures v in LoadLines(lines, parse) <==>
              exists k :: 0 <= k < |lines| && Strip(lines[k]) != "" && parse(Strip(lines[k])) == Some(v)
    decreases |lines|
  {
    if |lines| != 0 {
      var tail := lines[1..];
      LoadLinesMembers(tail, parse, v);
      if exists k :: 0 <= k < |tail| && Strip(tail[k]) != "" && parse(Strip(tail[k])) == Some(v) {
        var k :| 0 <= k < |tail| && Strip(tail[k]) != "" && parse(Strip(tail[k])) == Some(v);
        assert lines[k + 1] == tail[k];
      }
      if exists k :: 0 <= k < |lines| && Strip(lines[k]) != "" && parse(Strip(lines[k])) == Some(v) {
        var k :| 0 <= k < |lines| && Strip(lines[k]) != "" && parse(Strip(lines[k])) == Some(v);
        if k > 0 {
          assert tail[k - 1] == lines[k];
        }
      }
    }
  }

  /** Reading a log that one run wrote after another reads the first run's
      records, then the second's: the report over appended logs is the report
      over their concatenation. */
  lemma LoadLinesExactly(lines: seq<string>, parse: string -> Option<Loaded>)
    ensures forall v :: v in LoadLines(lines, parse) <==>
              exists k :: 0 <= k < |lines| && Strip(lines[k]) != "" && parse(Strip(lines[k])) == Some(v)
  {
    forall v {
      LoadLinesMembers(lines, parse, v);
    }
  }

  lemma LoadRecordsAppend(first: string, second: string, parse: string -> Option<Loaded>)
    requires Checkpoint.EndsLine(first)
    ensures LoadRecords(first + second, parse) == LoadRecords(first, parse) + LoadRecords(second, parse)
  {
    Checkpoint.LinesAppend(first, second);
    LoadLinesAppend(Checkpoint.Lines(first), Checkpoint.Lines(second), parse);
  }

  /** `rec.get(key, default)`. */
  function Get(rec: Record, key: string, default: Json): Json {
    if key in rec then rec[key] else default
  }

  /** The key a record is counted under in the status breakdown. */
  function StatusOf(rec: Record): Json {
    Get(rec, "status", JStr("unknown"))
  }

  predicate IsFailure(rec: Record) {
    StatusOf(rec) == JStr("failure")
  }

  /** The decimal digits of `n`. */
  function Digits(n: nat): (r: string)
    ensures |r| >= 1 && (n >= 10 ==> |r| >= 2)
    ensures forall k :: 0 <= k < |r| ==> '0' <= r[k] <= '9'
    decreases n
  {
    if n < 10 then [('0' as int + n) as char]
    else Digits(n / 10) + [('0' as int + n % 10) as char]
  }

  /** Python's `str` of an int. */
  function DecimalString(i: int): string {
    if i < 0 then "-" + Digits(-i) else Digits(i)
  }

  /** Python's `str` of a field value. */
  function PyStr(v: Json): string {
    match v
    case JNull => "None"
    case JBool(b) => if b then "True" else "False"
    case JInt(i) => DecimalString(i)
    case JStr(s) => s
    case JOther(t) => t
  }

  /** The key a failure is counted under in the error-type breakdown. */
  function ErrorKey(rec: Record): Json {
    Get(rec, "errorType", JStr("unknown"))
  }

  /** The key a failure is counted under in the HTTP-status breakdown. */
  function HttpKey(rec: Record): string {
    PyStr(Get(rec, "httpStatus", JStr("unknown")))
  }

  /** The status breakdown a list of records calls for. */
  function Statuses(rows: seq<Record>): multiset<Json>
    decreases |rows|
  {
    if |rows| == 0 then multiset{} else Statuses(rows[..|rows| - 1]) + multiset{StatusOf(rows[|rows| - 1])}
  }

  /** The records whose status is `"failure"`, in order. */
  function FailureRows(rows: seq<Record>): (r: seq<Record>)
    decreases |rows|
  {
    if |rows| == 0 then []
    else FailureRows(rows[..|rows| - 1]) + (if IsFailure(rows[|rows| - 1]) then [rows[|rows| - 1]] else [])
  }

  function ErrorKeys(rows: seq<Record>): (r: multiset<Json>)
    ensures |r| == |rows|
    decreases |rows|
  {
    if |rows| == 0 then multiset{} else ErrorKeys(rows[..|rows| - 1]) + multiset{ErrorKey(rows[|rows| - 1])}
  }

  function HttpKeys(rows: seq<Record>): (r: multiset<string>)
    ensures |r| == |rows|
    decreases |rows|
  {
    if |rows| == 0 then multiset{} else HttpKeys(rows[..|rows| - 1]) + multiset{HttpKey(rows[|rows| - 1])}
  }

  /** The records among the decoded values. */
  predicate AllObjects(records: seq<Loaded>) {
    forall k :: 0 <= k < |records| ==> records[k].Object?
  }

  function Objects(records: seq<Loaded>): (r: seq<Record>)
    requires AllObjects(records)
    ensures |r| == |records| && forall k :: 0 <= k < |records| ==> r[k] == records[k].fields
  {
    seq(|records|, k requires 0 <= k < |records| => records[k].fields)
  }

  /** What `summarize` returns: the records and the three counters. */
  datatype Summary = Summary(rows: seq<Record>, statuses: multiset<Json>, errors: multiset<Json>, https: multiset<string>)

  /** The summary a list of records calls for: every record counted by status,
      every failure by error type and by HTTP status. */
  function Tally(rows: seq<Record>): Summary {
    Summary(rows, Statuses(rows), ErrorKeys(FailureRows(rows)), HttpKeys(FailureRows(rows)))
  }

  /** The loop body of `summarize` for one record. */
  function Add(acc: Summary, rec: Record): Summary {
    var statuses := acc.statuses + multiset{StatusOf(rec)};
    if StatusOf(rec) == JStr("failure") then
      Summary(acc.rows + [rec], statuses, acc.errors + multiset{ErrorKey(rec)}, acc.https + multiset{HttpKey(rec)})
    else
      Summary(acc.rows + [rec], statuses, acc.errors, acc.https)
  }

  lemma AddTallies(rows: seq<Record>, rec: Record)
    ensures Add(Tally(rows), rec) == Tally(rows + [rec])
  {
    StatusesSnoc(rows, rec);
    FailureRowsSnoc(rows, rec);
    if IsFailure(rec) {
      ErrorKeysSnoc(FailureRows(rows), rec);
      HttpKeysSnoc(FailureRows(rows), rec);
    }
  }

  /** `summarize`: one pass over the records. A value that is not an object has
      no `.get`, so the pass stops there with the value's index. */
  method Summarize(records: seq<Loaded>) returns (r: Result<Summary, nat>)
    ensures r.Ok? <==> AllObjects(records)
    ensures r.Err? ==>
              && r.error < |records| && records[r.error].NonObject?
              && forall k :: 0 <= k < r.error ==> records[k].Object?
    ensures r.Ok? ==> r.value == Tally(Objects(records))
  {
    var acc := Summary([], multiset{}, multiset{}, multiset{});
    var i := 0;
    while i < |records|
      invariant 0 <= i <= |records| && |acc.rows| == i
      invariant forall k :: 0 <= k < i ==> records[k].Object? && acc.rows[k] == records[k].fields
      invariant acc == Tally(acc.rows)
    {
      if records[i].NonObject? {
        return Err(i);
      }
      var rec := records[i].fields;
      AddTallies(acc.rows, rec);
      SnocPrefix(acc.rows, rec);
      acc := Add(acc, rec);
      i := i + 1;
    }
    assert acc.rows == Objects(records);
    return Result.Ok(acc);
  }

  lemma SnocPrefix(rows: seq<Record>, rec: Record)
    ensures (rows + [rec])[..|rows|] == rows && (rows + [rec])[|rows|] == rec
  {
  }

  lemma StatusesSnoc(rows: seq<Record>, rec: Record)
    ensures Statuses(rows + [rec]) == Statuses(rows) + multiset{StatusOf(rec)}
  {
    SnocPrefix(rows, rec);
  }

  lemma FailureRowsSnoc(rows: seq<Record>, rec: Record)
    ensures IsFailure(rec) ==> FailureRows(rows + [rec]) == FailureRows(rows) + [rec]
    ensures !IsFailure(rec) ==> FailureRows(rows + [rec]) == FailureRows(rows)
  {
    SnocPrefix(rows, rec);
    assert FailureRows(rows) + [] == FailureRows(rows);
  }

  lemma ErrorKeysSnoc(rows: seq<Record>, rec: Record)
    ensures ErrorKeys(rows + [rec]) == ErrorKeys(rows) + multiset{ErrorKey(rec)}
  {
    SnocPrefix(rows, rec);
  }

  lemma HttpKeysSnoc(rows: seq<Record>, rec: Record)
    ensures HttpKeys(rows + [rec]) == HttpKeys(rows) + multiset{HttpKey(rec)}
  {
    SnocPrefix(rows, rec);
  }

  /** The failure rows are exactly the records whose status is `"failure"`. */
  lemma {:induction false} FailureRowsMembers(rows: seq<Record>, rec: Record)
    ensures rec in FailureRows(rows) <==> rec in rows && IsFailure(rec)
    decreases |rows|
  {
    if |rows| != 0 {
      var init := rows[..|rows| - 1];
      var last := rows[|rows| - 1];
      FailureRowsMembers(init, rec);
      assert rows == init + [last];
      FailureRowsSnoc(init, last);
    }
  }

  /** The failures counted by status are the failures counted by error type and by HTTP status. */
  lemma {:induction false} FailureCount(rows: seq<Record>)
    ensures Statuses(rows)[JStr("failure")] == |FailureRows(rows)|
    decreases |rows|
  {
    if |rows| != 0 {
      FailureCount(rows[..|rows| - 1]);
    }
  }

  /** Every record is counted once by status, and each failure once by error type and
      once by HTTP status. */
  lemma SummaryAccounts(records: seq<Loaded>, s: Summary)
    requires AllObjects(records)
    requires s == Tally(Objects(records))
    ensures |s.statuses| == |records|
    ensures |s.errors| == |s.https| == s.statuses[JStr("failure")]
  {
    StatusesSize(s.rows);
    FailureCount(s.rows);
  }

  lemma {:induction false} StatusesSize(rows: seq<Record>)
    ensures |Statuses(rows)| == |rows|
    decreases |rows|
  {
    if |rows| != 0 {
      StatusesSize(rows[..|rows| - 1]);
    }
  }

  /** Distinct HTTP status codes are never merged in the HTTP breakdown. */
  lemma {:induction false} DigitsInjective(a: nat, b: nat)
    requires Digits(a) == Digits(b)
    ensures a == b
    decreases a
  {
    var da, db := Digits(a), Digits(b);
    if a >= 10 && b >= 10 {
      assert da[..|da| - 1] == Digits(a / 10);
      assert db[..|db| - 1] == Digits(b / 10);
      DigitsInjective(a / 10, b / 10);
    }
  }

  /** The rendering starts with a minus sign exactly for negative numbers. */
  lemma NegativeSign(i: int)
    ensures |DecimalString(i)| >= 1
    ensures DecimalString(i)[0] == '-' <==> i < 0
  {
    if i >= 0 {
      assert '0' <= Digits(i)[0] <= '9';
    }
  }

  lemma DecimalStringInjective(a: int, b: int)
    requires DecimalString(a) == DecimalString(b)
    ensures a == b
  {
    NegativeSign(a);
    NegativeSign(b);
    if a < 0 {
      assert DecimalString(a)[1..] == Digits(-a);
      assert DecimalString(b)[1..] == Digits(-b);
      DigitsInjective(-a, -b);
    } else {
      DigitsInjective(a, b);
    }
  }

  /** A CSV cell: `csv` writes `None` as an empty cell and other values as `str` does. */
  function Cell(v: Json): string {
    if v == JNull then "" else PyStr(v)
  }

  /** The CSV row of a record: one cell per export column, empty where the record
      lacks the field. */
  function Project(rec: Record): (r: seq<string>)
    ensures |r| == |Fields|
    ensures forall k :: 0 <= k < |Fields| ==> r[k] == if Fields[k] in rec then Cell(rec[Fields[k]]) else ""
  {
    seq(|Fields|, k requires 0 <= k < |Fields| => Cell(Get(rec, Fields[k], JStr(""))))
  }

  /** `row.get("status") != "failure"`: the records the failures-only export passes
      over, which are exactly the non-failures. */
  predicate SkippedByFailureExport(rec: Record)
    ensures SkippedByFailureExport(rec) <==> !IsFailure(rec)
  {
    Get(rec, "status", JNull) != JStr("failure")
  }

  /** The records an export writes. */
  function Kept(rows: seq<Record>, failuresOnly: bool): seq<Record> {
    if failuresOnly then FailureRows(rows) else rows
  }

  function Projected(rows: seq<Record>): (r: seq<seq<string>>)
    ensures |r| == |rows| && forall k :: 0 <= k < |rows| ==> r[k] == Project(rows[k])
  {
    seq(|rows|, k requires 0 <= k < |rows| => Project(rows[k]))
  }

  lemma KeepOne(rows: seq<Record>, row: Record, failuresOnly: bool)
    ensures !(failuresOnly && SkippedByFailureExport(row)) ==> Kept(rows + [row], failuresOnly) == Kept(rows, failuresOnly) + [row]
    ensures failuresOnly && SkippedByFailureExport(row) ==> Kept(rows + [row], failuresOnly) == Kept(rows, failuresOnly)
  {
    FailureRowsSnoc(rows, row);
  }

  lemma ProjectedSnoc(rows: seq<Record>, row: Record)
    ensures Projected(rows + [row]) == Projected(rows) + [Project(row)]
  {
    SnocPrefix(rows, row);
  }

  /** `write_csv`: the header, then one row per record (per failure when
      `failuresOnly`), in log order. */
  method WriteCsv(rows: seq<Record>, failuresOnly: bool) returns (table: seq<seq<string>>)
    ensures |table| >= 1 && table[0] == Fields
    ensures var kept := if failuresOnly then FailureRows(rows) else rows;
            && |table| == |kept| + 1
            && forall k :: 0 <= k < |kept| ==> table[k + 1] == Project(kept[k])
  {
    table := [Fields];
    var i := 0;
    while i < |rows|
      invariant 0 <= i <= |rows|
      invariant table == [Fields] + Projected(Kept(rows[..i], failuresOnly))
    {
      var row := rows[i];
      assert rows[..i + 1] == rows[..i] + [row];
      KeepOne(rows[..i], row, failuresOnly);
      if !(failuresOnly && SkippedByFailureExport(row)) {
        ProjectedSnoc(Kept(rows[..i], failuresOnly), row);
        table := table + [Project(row)];
      }
      i := i + 1;
    }
    assert rows[..i] == rows;
  }
}

=== FILE: retry.dfy ===
/** The retry executor shared by `cancel_with_retries`, `get_with_retries` and
    `revoke_prorated_with_retries`. The remote call is an oracle: `responses[k]`
    is what the API does on attempt `k + 1`. The sleep between attempts is
    returned as the list of pre-jitter delays. */
module Retry {
  import opened Base
  import opened Classifier

  /** HTTP statuses that are retried: rate limiting and server unavailability. */
  const RetryStatus: set<int> := {429, 500, 503}

  /** What one remote call does: return a payload, raise an `HttpError` (whose
      status may be missing), or raise any other exception. */
  datatype Response<P> = Ok(payload: P) | HttpErr(status: Option<int>, msg: string) | Exn(msg: string)

  /** The `status` field of a result. */
  datatype Status = Success | Failure | DryRun

  /** `CancelResult` / `GetResult`: what one row's operation ended with. */
  datatype CallResult<P> = CallResult(
    status: Status,
    attempts: int,
    httpStatus: Option<int>,
    message: Option<string>,
    errorType: Option<ErrorType>,
    payload: Option<P>)

  /** A result together with the backoff delays slept before each retry. */
  datatype Execution<P> = Execution(result: CallResult<P>, delays: seq<real>)

  /** The synthesized result of a dry run: no call, zero attempts. */
  function DryRunResult<P>(): CallResult<P> {
    CallResult(DryRun, 0, None, None, None, None)
  }

  /** A response that is an `HttpError` with a retryable status. */
  predicate Retryable<P>(resp: Response<P>) {
    resp.HttpErr? && resp.status.Some? && resp.status.value in RetryStatus
  }

  function Pow2(n: nat): (r: nat)
    ensures r >= 1
  {
    if n == 0 then 1 else 2 * Pow2(n - 1)
  }

  /** The pre-jitter sleep after failed attempt `attempt`: `base * 2^(attempt-1)`. */
  function Backoff(base: real, attempt: nat): real
    requires attempt >= 1
  {
    base * Pow2(attempt - 1) as real
  }

  /** The terminal result an attempt ends with when it is not retried. */
  function Terminal<P>(resp: Response<P>, attempt: int, successCode: int): CallResult<P> {
    match resp
    case Ok(p) => CallResult(Success, attempt, Some(successCode), None, None, Some(p))
    case HttpErr(status, msg) => CallResult(Failure, attempt, status, Some(msg), Some(Classify(msg)), None)
    case Exn(msg) => CallResult(Failure, attempt, None, Some(msg), Some(Exception), None)
  }

  /** The loop body from attempt `attempt` on (`for attempt in range(1, retries + 2)`). */
  function ExecuteFrom<P>(responses: seq<Response<P>>, retries: int, base: real, successCode: int, attempt: nat)
    : (e: Execution<P>)
    requires 1 <= attempt <= retries + 2
    requires |responses| >= retries + 1
    ensures e.result.attempts <= retries + 1
    ensures attempt <= retries + 1 ==> attempt <= e.result.attempts
    ensures attempt <= retries + 1 ==> e.result.errorType != Some(Unknown)
    ensures attempt <= retries + 1 ==> |e.delays| == e.result.attempts - attempt
    ensures attempt > retries + 1 ==> e.delays == []
    ensures forall k :: attempt - 1 <= k < e.result.attempts - 1 ==> Retryable(responses[k])
    ensures forall k :: 0 <= k < |e.delays| ==> e.delays[k] == Backoff(base, attempt + k)
    ensures attempt <= retries + 1 ==>
              var last := responses[e.result.attempts - 1];
              && (e.result.attempts - 1 == retries || !Retryable(last))
              && e.result == Terminal(last, e.result.attempts, successCode)
    decreases retries + 2 - attempt
  {
    if attempt > retries + 1 then
      Execution(CallResult(Failure, retries + 1, None, None, Some(Unknown), None), [])
    else
      var resp := responses[attempt - 1];
      if resp.HttpErr? && resp.status.Some? && resp.status.value in RetryStatus && attempt <= retries then
        var rest := ExecuteFrom(responses, retries, base, successCode, attempt + 1);
        Execution(rest.result, [Backoff(base, attempt)] + rest.delays)
      else
        Execution(Terminal(resp, attempt, successCode), [])
  }

  /** One `*_with_retries` call. The result is fixed by the first attempt that is
      not retried: an attempt is retried exactly when its response is a retryable
      `HttpError` and it is not the last of the `retries + 1` allowed. */
  function Execute<P>(responses: seq<Response<P>>, retries: int, base: real, successCode: int): (e: Execution<P>)
    requires |responses| >= retries + 1
    ensures retries >= 0 ==> 1 <= e.result.attempts <= retries + 1
    ensures retries >= 0 ==>
              var n := e.result.attempts;
              && (forall k :: 0 <= k < n - 1 ==> Retryable(responses[k]))
              && (n - 1 == retries || !Retryable(responses[n - 1]))
              && e.result == Terminal(responses[n - 1], n, successCode)
    ensures retries >= 0 ==> e.result.errorType != Some(Unknown)
    ensures retries < 0 ==>
              e.result == CallResult(Failure, retries + 1, None, None, Some(Unknown), None) && e.delays == []
    ensures |e.delays| == e.result.attempts - 1 || retries < 0
    ensures forall k :: 0 <= k < |e.delays| ==> e.delays[k] == Backoff(base, k + 1)
  {
    if retries < 0 then
      Execution(CallResult(Failure, retries + 1, None, None, Some(Unknown), None), [])
    else
      ExecuteFrom(responses, retries, base, successCode, 1)
  }

  /** `cancel_with_retries` (scripts version): success is reported as HTTP 204. */
  function CancelWithRetries<P>(responses: seq<Response<P>>, retries: int, base: real): (e: Execution<P>)
    requires |responses| >= retries + 1
    ensures e.result.attempts == Execute(responses, retries, base, 204).result.attempts
    ensures e.result.payload == None
    ensures e.result.status == Success ==> e.result.httpStatus == Some(204) && e.result.errorType == None
    ensures e.result.status == Success <==>
              retries >= 0 && responses[e.result.attempts - 1].Ok?
    ensures e.result.status != Success ==> e.result == Execute(responses, retries, base, 204).result
    ensures e.delays == Execute(responses, retries, base, 204).delays
  {
    var e := Execute(responses, retries, base, 204);
    Execution(e.result.(payload := None), e.delays)
  }

  /** `revoke_prorated_with_retries`: same loop as cancel, success reported as 204. */
  function RevokeProratedWithRetries<P>(responses: seq<Response<P>>, retries: int, base: real): (e: Execution<P>)
    requires |responses| >= retries + 1
    ensures e.result.attempts == Execute(responses, retries, base, 204).result.attempts
    ensures e.result.payload == None
    ensures e.result.status == Success ==> e.result.httpStatus == Some(204) && e.result.errorType == None
    ensures e.result.status == Success <==>
              retries >= 0 && responses[e.result.attempts - 1].Ok?
    ensures e.result.status != Success ==> e.result == Execute(responses, retries, base, 204).result
    ensures e.delays == Execute(responses, retries, base, 204).delays
  {
    var e := Execute(responses, retries, base, 204);
    Execution(e.result.(payload := None), e.delays)
  }

  /** `get_with_retries`: success is reported as HTTP 200 and carries the payload. */
  function GetWithRetries<P>(responses: seq<Response<P>>, retries: int, base: real): (e: Execution<P>)
    requires |responses| >= retries + 1
    ensures e.result.attempts == Execute(responses, retries, base, 200).result.attempts
    ensures e.result.status == Success ==>
              && retries >= 0
              && e.result.httpStatus == Some(200)
              && responses[e.result.attempts - 1].Ok?
              && e.result.payload == Some(responses[e.result.attempts - 1].payload)
    ensures e.result.status != Success ==> e.result.payload == None
    ensures e.result.status != Success ==> e.result == Execute(responses, retries, base, 200).result
    ensures e.delays == Execute(responses, retries, base, 200).delays
  {
    Execute(responses, retries, base, 200)
  }

  /** A non-`HttpError` exception ends the call at once with no HTTP status and
      error type `exception`, whatever retries remain. */
  lemma ExceptionStopsAtOnce<P>(responses: seq<Response<P>>, retries: int, base: real, successCode: int, k: nat)
    requires |responses| >= retries + 1
    requires k <= retries && responses[k].Exn?
    requires forall i :: 0 <= i < k ==> Retryable(responses[i])
    ensures var r := Execute(responses, retries, base, successCode).result;
            && r.attempts == k + 1
            && r.status == Failure
            && r.httpStatus == None
            && r.errorType == Some(Exception)
            && r.message == Some(responses[k].msg)
  {
  }

  /** An API that always answers with a retryable status is called exactly
      `retries + 1` times, and the call ends as a failure carrying that status. */
  lemma AlwaysTransientExhausts<P>(responses: seq<Response<P>>, retries: nat, base: real, successCode: int)
    requires |responses| >= retries + 1
    requires forall k :: 0 <= k <= retries ==> Retryable(responses[k])
    ensures var e := Execute(responses, retries, base, successCode);
            && e.result.attempts == retries + 1
            && e.result.status == Failure
            && e.result.httpStatus.Some? && e.result.httpStatus.value in RetryStatus
            && |e.delays| == retries
  {
  }

  lemma {:induction false} Pow2Monotone(a: nat, b: nat)
    requires a <= b
    ensures Pow2(a) <= Pow2(b)
    decreases b
  {
    if a < b {
      Pow2Monotone(a, b - 1);
    }
  }

  /** A sequence of doubling delays over a non-negative base is sorted. */
  lemma BackoffSorted(d: seq<real>, base: real)
    requires base >= 0.0
    requires forall k :: 0 <= k < |d| ==> d[k] == Backoff(base, k + 1)
    ensures forall i, j :: 0 <= i <= j < |d| ==> d[i] <= d[j]
  {
    forall i, j | 0 <= i <= j < |d| ensures d[i] <= d[j] {
      Pow2Monotone(i, j);
      var a, b := Pow2(i) as real, Pow2(j) as real;
      assert base * (b - a) >= 0.0;
    }
  }

  /** With a non-negative base the pre-jitter backoff never shrinks from one
      retry to the next. */
  lemma DelaysNondecreasing<P>(responses: seq<Response<P>>, retries: int, base: real, successCode: int)
    requires |responses| >= retries + 1
    requires base >= 0.0
    ensures var d := Execute(responses, retries, base, successCode).delays;
            forall i, j :: 0 <= i <= j < |d| ==> d[i] <= d[j]
  {
    var e := Execute(responses, retries, base, successCode);
    BackoffSorted(e.delays, base);
  }
}

=== FILE: run_invariant.dfy ===
/** The loop invariant of the row loop: what every state the loop passes
    through satisfies, in terms of its audit log. */
module RunInvariant {
  import opened Base
  import opened Text
  import opened Retry
  import opened Validation
  import opened Columns
  import opened Driver
  import Checkpoint

  /** No token cell of the input holds a line break. */
  predicate NoLineBreaks(rows: seq<Row>, tokenField: string) {
    forall i :: 0 <= i < |rows| && tokenField in rows[i] ==> Checkpoint.OneLine(rows[i][tokenField])
  }

  /** A logged row passed the skip rules against the initial skip set `loaded`:
      it has a clean token and a package that agrees with the run package; it
      carries validation fields exactly in validate mode; it is a dry-run record
      with no attempts exactly in a dry run. */
  predicate Admitted(cfg: RunConfig, loaded: set<string>, noBreaks: bool, rec: AuditRecord) {
    && rec.token != "" && Clean(rec.token) && rec.token !in loaded
    && (noBreaks ==> Checkpoint.OneLine(rec.token))
    && rec.package != ""
    && (Truthy(cfg.packageName) ==> rec.package == cfg.packageName.value)
    && (rec.validation.Some? <==> cfg.mode == Validate)
    && (cfg.dryRun <==> rec.status == DryRun)
    && (cfg.dryRun ==> rec.attempts == 0)
  }

  /** With a success checkpoint, no token succeeds twice in one run. */
  predicate SucceedsOnce(audit: seq<AuditRecord>) {
    forall i, j :: 0 <= i < j < |audit| && audit[i].status == Success ==> audit[j].token != audit[i].token
  }

  /** The state the loop is in once it has logged `audit` and skipped `skipped`
      rows, starting from the skip set `loaded`: the counters, the checkpoint
      appends, the skip set, the exports and the remote operations are all
      projections of the audit log. */
  function Replay(cfg: RunConfig, loaded: set<string>, audit: seq<AuditRecord>, skipped: nat): (r: RunState)
    ensures r.audit == audit && r.totals.skipped == skipped && r.seen == skipped + |audit|
  {
    var successLog := if cfg.successCheckpoint && !cfg.dryRun then SuccessTokens(audit) else [];
    RunState(
      TotalsOf(cfg.mode, audit, skipped),
      loaded + Checkpoint.Elements(successLog),
      successLog,
      if cfg.failedCheckpoint && !cfg.dryRun then FailedTokens(audit) else [],
      audit,
      EligibleOf(audit),
      IneligibleOf(audit),
      if cfg.dryRun then [] else RequestsOf(audit),
      skipped + |audit|)
  }

  predicate AllAdmitted(cfg: RunConfig, loaded: set<string>, noBreaks: bool, audit: seq<AuditRecord>) {
    forall k :: 0 <= k < |audit| ==> Admitted(cfg, loaded, noBreaks, audit[k])
  }

  /** The loop invariant: the state is the replay of its own audit log, every
      logged row passed the skip rules, and with a success checkpoint no token
      succeeds twice. */
  predicate Coherent(cfg: RunConfig, loaded: set<string>, noBreaks: bool, st: RunState) {
    && st == Replay(cfg, loaded, st.audit, st.totals.skipped)
    && AllAdmitted(cfg, loaded, noBreaks, st.audit)
    && (cfg.successCheckpoint && !cfg.dryRun ==> SucceedsOnce(st.audit))
  }
}

=== FILE: run_properties.dfy ===
/** What the row loop guarantees: the counters agree with the audit log, the
    skip rules are applied before any remote call, the checkpoint files and the
    exports are exactly the projections of the log the options ask for, a dry
    run has no side effect, and `--max-rows` bounds the processed rows. */
module RunProperties {
  import opened Base
  import opened Text
  import opened Retry
  import opened Columns
  import opened Validation
  import opened Driver
  import Checkpoint

  import opened RunInvariant

  lemma InitCoherent(cfg: RunConfig, loaded: set<string>, noBreaks: bool)
    ensures Coherent(cfg, loaded, noBreaks, Init(loaded))
  {
    InitReplay(cfg, loaded);
  }

  /** Before the first row, the state is the replay of the empty log. */
  lemma InitReplay(cfg: RunConfig, loaded: set<string>)
    ensures Init(loaded) == Replay(cfg, loaded, Init(loaded).audit, Init(loaded).totals.skipped)
  {
    assert Checkpoint.Elements([]) == {};
  }

  /** The skipped counter does not affect the others. */
  lemma {:induction false} TotalsOfSkipped(mode: Mode, audit: seq<AuditRecord>, skipped: nat)
    ensures TotalsOf(mode, audit, skipped + 1) == TotalsOf(mode, audit, skipped).(skipped := skipped + 1)
    decreases |audit|
  {
    if audit != [] {
      TotalsOfSkipped(mode, audit[..|audit| - 1], skipped);
    }
  }

  /** Skipping a row only bumps the skipped counter of the replay. */
  lemma SkipReplay(cfg: RunConfig, loaded: set<string>, audit: seq<AuditRecord>, skipped: nat)
    ensures Skip(Replay(cfg, loaded, audit, skipped)) == Replay(cfg, loaded, audit, skipped + 1)
  {
    TotalsOfSkipped(cfg.mode, audit, skipped);
  }

  lemma SkipKeeps(cfg: RunConfig, loaded: set<string>, noBreaks: bool, st: RunState)
    requires Coherent(cfg, loaded, noBreaks, st)
    ensures Coherent(cfg, loaded, noBreaks, Skip(st))
  {
    SkipReplay(cfg, loaded, st.audit, st.totals.skipped);
  }

  lemma DoneSnoc(loaded: set<string>, s: seq<string>, t: string)
    ensures loaded + Checkpoint.Elements(s + [t]) == loaded + Checkpoint.Elements(s) + {t}
  {
  }

  /** Each projection of the log, extended by one record. */
  lemma ProjectionsSnoc(mode: Mode, audit: seq<AuditRecord>, skipped: nat, rec: AuditRecord)
    ensures var longer := audit + [rec];
            && TotalsOf(mode, longer, skipped) == Count(TotalsOf(mode, audit, skipped), BucketOf(mode, rec))
            && SuccessTokens(longer) == SuccessTokens(audit) + (if rec.status == Success then [rec.token] else [])
            && FailedTokens(longer) == FailedTokens(audit) + (if rec.status != Success then [rec.token] else [])
            && RequestsOf(longer) == RequestsOf(audit) + [Request(rec.package, rec.token, rec.attempts)]
  {
    var longer := audit + [rec];
    assert longer[..|longer| - 1] == audit;
  }

  lemma ExportsSnoc(audit: seq<AuditRecord>, rec: AuditRecord)
    ensures var longer := audit + [rec];
            && EligibleOf(longer) == EligibleOf(audit)
                 + (if rec.validation.Some? && rec.validation.value.eligible then [ExportOf(rec, rec.validation.value)] else [])
            && IneligibleOf(longer) == IneligibleOf(audit)
                 + (if rec.validation.Some? && !rec.validation.value.eligible then
                      [IneligibleRow(ExportOf(rec, rec.validation.value), rec.status, rec.httpStatus, rec.errorType, rec.message)]
                    else [])
  {
    var longer := audit + [rec];
    assert longer[..|longer| - 1] == audit;
  }

  lemma RecordReplayTotals(cfg: RunConfig, loaded: set<string>, audit: seq<AuditRecord>, skipped: nat, rec: AuditRecord)
    ensures Record(cfg, rec, Replay(cfg, loaded, audit, skipped)).totals == Replay(cfg, loaded, audit + [rec], skipped).totals
  {
    ProjectionsSnoc(cfg.mode, audit, skipped, rec);
  }

  lemma RecordReplayDone(cfg: RunConfig, loaded: set<string>, audit: seq<AuditRecord>, skipped: nat, rec: AuditRecord)
    ensures Record(cfg, rec, Replay(cfg, loaded, audit, skipped)).done == Replay(cfg, loaded, audit + [rec], skipped).done
  {
    ProjectionsSnoc(cfg.mode, audit, skipped, rec);
    DoneSnoc(loaded, SuccessTokens(audit), rec.token);
  }

  lemma RecordReplaySuccessLog(cfg: RunConfig, loaded: set<string>, audit: seq<AuditRecord>, skipped: nat, rec: AuditRecord)
    ensures Record(cfg, rec, Replay(cfg, loaded, audit, skipped)).successLog == Replay(cfg, loaded, audit + [rec], skipped).successLog
  {
    ProjectionsSnoc(cfg.mode, audit, skipped, rec);
  }

  lemma RecordReplayFailedLog(cfg: RunConfig, loaded: set<string>, audit: seq<AuditRecord>, skipped: nat, rec: AuditRecord)
    ensures Record(cfg, rec, Replay(cfg, loaded, audit, skipped)).failedLog == Replay(cfg, loaded, audit + [rec], skipped).failedLog
  {
    ProjectionsSnoc(cfg.mode, audit, skipped, rec);
  }

  lemma RecordReplayEligible(cfg: RunConfig, loaded: set<string>, audit: seq<AuditRecord>, skipped: nat, rec: AuditRecord)
    ensures Record(cfg, rec, Replay(cfg, loaded, audit, skipped)).eligible == Replay(cfg, loaded, audit + [rec], skipped).eligible
  {
    ExportsSnoc(audit, rec);
  }

  lemma RecordReplayIneligible(cfg: RunConfig, loaded: set<string>, audit: seq<AuditRecord>, skipped: nat, rec: AuditRecord)
    ensures Record(cfg, rec, Replay(cfg, loaded, audit, skipped)).ineligible == Replay(cfg, loaded, audit + [rec], skipped).ineligible
  {
    ExportsSnoc(audit, rec);
  }

  lemma RecordReplayRequests(cfg: RunConfig, loaded: set<string>, audit: seq<AuditRecord>, skipped: nat, rec: AuditRecord)
    ensures Record(cfg, rec, Replay(cfg, loaded, audit, skipped)).requests == Replay(cfg, loaded, audit + [rec], skipped).requests
  {
    ProjectionsSnoc(cfg.mode, audit, skipped, rec);
  }

  /** Logging a record is replaying the longer log. */
  lemma RecordReplay(cfg: RunConfig, loaded: set<string>, audit: seq<AuditRecord>, skipped: nat, rec: AuditRecord)
    ensures Record(cfg, rec, Replay(cfg, loaded, audit, skipped)) == Replay(cfg, loaded, audit + [rec], skipped)
  {
    RecordReplayTotals(cfg, loaded, audit, skipped, rec);
    RecordReplayDone(cfg, loaded, audit, skipped, rec);
    RecordReplaySuccessLog(cfg, loaded, audit, skipped, rec);
    RecordReplayFailedLog(cfg, loaded, audit, skipped, rec);
    RecordReplayEligible(cfg, loaded, audit, skipped, rec);
    RecordReplayIneligible(cfg, loaded, audit, skipped, rec);
    RecordReplayRequests(cfg, loaded, audit, skipped, rec);
  }

  lemma RecordKeepsOnce(cfg: RunConfig, loaded: set<string>, noBreaks: bool, rec: AuditRecord, st: RunState)
    requires Coherent(cfg, loaded, noBreaks, st) && rec.token !in st.done
    requires cfg.successCheckpoint && !cfg.dryRun
    ensures SucceedsOnce(st.audit + [rec])
  {
    var audit := st.audit + [rec];
    forall i, j | 0 <= i < j < |audit| && audit[i].status == Success
      ensures audit[j].token != audit[i].token
    {
      assert audit[i] == st.audit[i];
      if j == |audit| - 1 {
        assert audit[i].token in SuccessTokens(st.audit);
      } else {
        assert audit[j] == st.audit[j];
      }
    }
  }

  lemma RecordKeeps(cfg: RunConfig, loaded: set<string>, noBreaks: bool, rec: AuditRecord, st: RunState)
    requires Coherent(cfg, loaded, noBreaks, st)
    requires Admitted(cfg, loaded, noBreaks, rec) && rec.token !in st.done
    ensures Coherent(cfg, loaded, noBreaks, Record(cfg, rec, st))
  {
    RecordReplay(cfg, loaded, st.audit, st.totals.skipped, rec);
    if cfg.successCheckpoint && !cfg.dryRun {
      RecordKeepsOnce(cfg, loaded, noBreaks, rec, st);
    }
    AdmittedSnoc(cfg, loaded, noBreaks, st.audit, rec);
  }

  lemma AdmittedSnoc(cfg: RunConfig, loaded: set<string>, noBreaks: bool, audit: seq<AuditRecord>, rec: AuditRecord)
    requires AllAdmitted(cfg, loaded, noBreaks, audit) && Admitted(cfg, loaded, noBreaks, rec)
    ensures AllAdmitted(cfg, loaded, noBreaks, audit + [rec])
  {
    var a := audit + [rec];
    assert forall k :: 0 <= k < |audit| ==> a[k] == audit[k];
    assert a[|audit|] == rec;
  }

  /** A step either logs the row's record or skips it. */
  lemma StepCases(cfg: RunConfig, lay: Layout, row: Row, idx: int, responses: seq<Response<Payload>>, st: RunState)
    requires |responses| >= cfg.retries + 1
    ensures var token := TokenOf(row, lay.tokenField);
            var fate := Triage(token, st.done, PickPackage(row, lay.packageField, cfg.packageName), cfg.packageName);
            && (fate.Dispatch? ==>
                  Step(cfg, lay, row, idx, responses, st)
                    == Record(cfg, RecordOf(cfg, token, fate.package, row, lay, idx, Call(cfg, responses)), st))
            && (!fate.Dispatch? ==> Step(cfg, lay, row, idx, responses, st) == Skip(st))
  {
  }

  /** The record of a dispatched row passes the skip rules. */
  lemma DispatchAdmitted(cfg: RunConfig, lay: Layout, row: Row, idx: int, responses: seq<Response<Payload>>,
                         loaded: set<string>, noBreaks: bool, st: RunState)
    requires |responses| >= cfg.retries + 1
    requires noBreaks ==> lay.tokenField in row ==> Checkpoint.OneLine(row[lay.tokenField])
    requires loaded <= st.done
    requires Triage(TokenOf(row, lay.tokenField), st.done, PickPackage(row, lay.packageField, cfg.packageName), cfg.packageName).Dispatch?
    ensures var token := TokenOf(row, lay.tokenField);
            var fate := Triage(token, st.done, PickPackage(row, lay.packageField, cfg.packageName), cfg.packageName);
            var rec := RecordOf(cfg, token, fate.package, row, lay, idx, Call(cfg, responses));
            Admitted(cfg, loaded, noBreaks, rec) && rec.token !in st.done
  {
    if noBreaks && lay.tokenField in row {
      StripKeepsAbsent(row[lay.tokenField], '\n');
      StripKeepsAbsent(row[lay.tokenField], '\r');
    }
  }

  lemma StepKeeps(cfg: RunConfig, lay: Layout, row: Row, idx: int, responses: seq<Response<Payload>>,
                  loaded: set<string>, noBreaks: bool, st: RunState)
    requires |responses| >= cfg.retries + 1
    requires noBreaks ==> lay.tokenField in row ==> Checkpoint.OneLine(row[lay.tokenField])
    requires Coherent(cfg, loaded, noBreaks, st)
    ensures Coherent(cfg, loaded, noBreaks, Step(cfg, lay, row, idx, responses, st))
  {
    var token := TokenOf(row, lay.tokenField);
    var fate := Triage(token, st.done, PickPackage(row, lay.packageField, cfg.packageName), cfg.packageName);
    StepCases(cfg, lay, row, idx, responses, st);
    if fate.Dispatch? {
      DispatchAdmitted(cfg, lay, row, idx, responses, loaded, noBreaks, st);
      RecordKeeps(cfg, loaded, noBreaks, RecordOf(cfg, token, fate.package, row, lay, idx, Call(cfg, responses)), st);
    } else {
      SkipKeeps(cfg, loaded, noBreaks, st);
    }
  }

  /** A property of the state that every step of the loop preserves holds at
      the end of the loop. */
  lemma {:induction false} RunFromPreserves(cfg: RunConfig, lay: Layout, rows: seq<Row>, oracle: seq<seq<Response<Payload>>>,
                                            i: nat, st: RunState, inv: RunState -> bool)
    requires i <= |rows| && OracleFits(cfg, rows, oracle)
    requires forall k, s :: 0 <= k < |rows| && inv(s) ==> inv(Step(cfg, lay, rows[k], k + 1, oracle[k], s))
    requires inv(st)
    ensures inv(RunFrom(cfg, lay, rows, oracle, i, st))
    decreases |rows| - i
  {
    if i < |rows| && !(cfg.maxRows != 0 && st.totals.processed >= cfg.maxRows) {
      RunFromPreserves(cfg, lay, rows, oracle, i + 1, Step(cfg, lay, rows[i], i + 1, oracle[i], st), inv);
    }
  }

  /** Every step of the loop keeps the invariant. */
  lemma StepsKeep(cfg: RunConfig, lay: Layout, rows: seq<Row>, oracle: seq<seq<Response<Payload>>>,
                  loaded: set<string>, noBreaks: bool)
    requires OracleFits(cfg, rows, oracle)
    requires noBreaks ==> NoLineBreaks(rows, lay.tokenField)
    ensures forall k, s :: 0 <= k < |rows| && Coherent(cfg, loaded, noBreaks, s) ==>
              Coherent(cfg, loaded, noBreaks, Step(cfg, lay, rows[k], k + 1, oracle[k], s))
  {
    forall k, s | 0 <= k < |rows| && Coherent(cfg, loaded, noBreaks, s)
      ensures Coherent(cfg, loaded, noBreaks, Step(cfg, lay, rows[k], k + 1, oracle[k], s))
    {
      StepKeepsAt(cfg, lay, rows, oracle, k, loaded, noBreaks, s);
    }
  }

  lemma StepKeepsAt(cfg: RunConfig, lay: Layout, rows: seq<Row>, oracle: seq<seq<Response<Payload>>>,
                    k: nat, loaded: set<string>, noBreaks: bool, st: RunState)
    requires k < |rows| && OracleFits(cfg, rows, oracle)
    requires noBreaks ==> NoLineBreaks(rows, lay.tokenField)
    requires Coherent(cfg, loaded, noBreaks, st)
    ensures Coherent(cfg, loaded, noBreaks, Step(cfg, lay, rows[k], k + 1, oracle[k], st))
  {
    StepKeeps(cfg, lay, rows[k], k + 1, oracle[k], loaded, noBreaks, st);
  }

  /** The invariant holds at the end of the loop. `noBreaks` may be set when no
      token cell holds a line break. */
  lemma RunCoherent(cfg: RunConfig, lay: Layout, rows: seq<Row>, oracle: seq<seq<Response<Payload>>>,
                    loaded: set<string>, noBreaks: bool)
    requires OracleFits(cfg, rows, oracle)
    requires noBreaks ==> NoLineBreaks(rows, lay.tokenField)
    ensures Coherent(cfg, loaded, noBreaks, Run(cfg, lay, rows, oracle, loaded))
  {
    StepsKeep(cfg, lay, rows, oracle, loaded, noBreaks);
    InitCoherent(cfg, loaded, noBreaks);
    RunFromPreserves(cfg, lay, rows, oracle, 0, Init(loaded), (s: RunState) => Coherent(cfg, loaded, noBreaks, s));
  }

  /** Every row looked at is either skipped or processed; every processed row
      has exactly one audit record and lands in exactly one outcome counter;
      the counters are those the log implies; validate mode never counts a row
      as already cancelled. */
  lemma RunAccounts(cfg: RunConfig, lay: Layout, rows: seq<Row>, oracle: seq<seq<Response<Payload>>>, loaded: set<string>)
    requires OracleFits(cfg, rows, oracle)
    ensures var r := Run(cfg, lay, rows, oracle, loaded);
            && r.totals.processed + r.totals.skipped == r.seen <= |rows|
            && |r.audit| == r.totals.processed
            && Balanced(r.totals)
            && r.totals == TotalsOf(cfg.mode, r.audit, r.totals.skipped)
            && (cfg.mode == Validate ==> r.totals.alreadyCancelled == 0)
  {
    var r := Run(cfg, lay, rows, oracle, loaded);
    RunCoherent(cfg, lay, rows, oracle, loaded, false);
    TotalsOfBalanced(cfg.mode, r.audit, r.totals.skipped);
  }

  /** `--max-rows`: a positive bound caps `processed`, a negative one stops the
      loop before the first row, and without one every row is looked at. When
      the loop stops before the end, the bound has been reached. */
  lemma {:induction false} RunFromMaxRows(cfg: RunConfig, lay: Layout, rows: seq<Row>, oracle: seq<seq<Response<Payload>>>,
                                          i: nat, st: RunState)
    requires i <= |rows| && OracleFits(cfg, rows, oracle)
    requires st.seen == i
    ensures var r := RunFrom(cfg, lay, rows, oracle, i, st);
            && (cfg.maxRows > 0 && st.totals.processed <= cfg.maxRows ==> r.totals.processed <= cfg.maxRows)
            && (cfg.maxRows < 0 ==> r == st)
            && (cfg.maxRows == 0 ==> r.seen == |rows|)
            && (r.seen < |rows| ==> cfg.maxRows != 0 && r.totals.processed >= cfg.maxRows)
  {
    if cfg.maxRows > 0 && st.totals.processed <= cfg.maxRows {
      RunFromBound(cfg, lay, rows, oracle, i, st);
    }
    RunFromStops(cfg, lay, rows, oracle, i, st);
  }

  /** A positive `--max-rows` is never overrun. */
  lemma {:induction false} RunFromBound(cfg: RunConfig, lay: Layout, rows: seq<Row>, oracle: seq<seq<Response<Payload>>>,
                                        i: nat, st: RunState)
    requires i <= |rows| && OracleFits(cfg, rows, oracle)
    requires cfg.maxRows > 0 && st.totals.processed <= cfg.maxRows
    ensures RunFrom(cfg, lay, rows, oracle, i, st).totals.processed <= cfg.maxRows
    decreases |rows| - i
  {
    if i < |rows| && st.totals.processed < cfg.maxRows {
      RunFromBound(cfg, lay, rows, oracle, i + 1, Step(cfg, lay, rows[i], i + 1, oracle[i], st));
    }
  }

  /** The loop looks at every row unless `--max-rows` stopped it. */
  lemma {:induction false} RunFromStops(cfg: RunConfig, lay: Layout, rows: seq<Row>, oracle: seq<seq<Response<Payload>>>,
                                        i: nat, st: RunState)
    requires i <= |rows| && OracleFits(cfg, rows, oracle)
    requires st.seen == i
    ensures var r := RunFrom(cfg, lay, rows, oracle, i, st);
            r.seen < |rows| ==> cfg.maxRows != 0 && r.totals.processed >= cfg.maxRows
    decreases |rows| - i
  {
    if i < |rows| && !(cfg.maxRows != 0 && st.totals.processed >= cfg.maxRows) {
      var next := Step(cfg, lay, rows[i], i + 1, oracle[i], st);
      assert RunFrom(cfg, lay, rows, oracle, i, st).seen == RunFrom(cfg, lay, rows, oracle, i + 1, next).seen
          && RunFrom(cfg, lay, rows, oracle, i, st).totals == RunFrom(cfg, lay, rows, oracle, i + 1, next).totals;
      RunFromStops(cfg, lay, rows, oracle, i + 1, next);
    }
  }

  lemma RunRespectsMaxRows(cfg: RunConfig, lay: Layout, rows: seq<Row>, oracle: seq<seq<Response<Payload>>>, loaded: set<string>)
    requires OracleFits(cfg, rows, oracle)
    ensures var r := Run(cfg, lay, rows, oracle, loaded);
            && (cfg.maxRows > 0 ==> r.totals.processed <= cfg.maxRows)
            && (cfg.maxRows < 0 ==> r == Init(loaded))
            && (cfg.maxRows == 0 ==> r.seen == |rows|)
  {
    RunFromMaxRows(cfg, lay, rows, oracle, 0, Init(loaded));
  }

  /** A dry run calls nothing, appends to neither checkpoint, leaves the skip
      set alone, and logs every processed row as a zero-attempt dry run. */
  lemma DryRunHasNoSideEffects(cfg: RunConfig, lay: Layout, rows: seq<Row>, oracle: seq<seq<Response<Payload>>>, loaded: set<string>)
    requires OracleFits(cfg, rows, oracle) && cfg.dryRun
    ensures var r := Run(cfg, lay, rows, oracle, loaded);
            && r.requests == [] && r.successLog == [] && r.failedLog == []
            && r.done == loaded
            && r.totals.dryRun == r.totals.processed
            && forall k :: 0 <= k < |r.audit| ==> r.audit[k].status == DryRun && r.audit[k].attempts == 0
  {
    var r := Run(cfg, lay, rows, oracle, loaded);
    RunCoherent(cfg, lay, rows, oracle, loaded, false);
    assert Checkpoint.Elements([]) == {};
    AllDryRun(cfg.mode, r.audit, r.totals.skipped);
  }

  lemma {:induction false} AllDryRun(mode: Mode, audit: seq<AuditRecord>, skipped: nat)
    requires forall k :: 0 <= k < |audit| ==> audit[k].status == DryRun
    ensures TotalsOf(mode, audit, skipped).dryRun == |audit|
    decreases |audit|
  {
    if audit != [] {
      AllDryRun(mode, audit[..|audit| - 1], skipped);
    }
  }

  /** A token loaded from the success checkpoint is never sent to the API, nor
      logged; with a success checkpoint configured, a token is never sent again
      after it succeeded. */
  lemma CheckpointedNeverDispatched(cfg: RunConfig, lay: Layout, rows: seq<Row>, oracle: seq<seq<Response<Payload>>>,
                                    checkpointSuccess: Option<string>, checkpoint: Option<string>, files: map<string, string>)
    requires OracleFits(cfg, rows, oracle)
    ensures var path := Checkpoint.SuccessCheckpointPath(checkpointSuccess, checkpoint);
            var loaded := Checkpoint.LoadCheckpoint(path, files);
            var r := Run(cfg, lay, rows, oracle, loaded);
            && (forall k :: 0 <= k < |r.requests| ==> r.requests[k].token !in loaded)
            && (forall k :: 0 <= k < |r.audit| ==> r.audit[k].token !in loaded)
            && (Truthy(path) && path.value in files ==>
                  forall k, j :: 0 <= k < |r.audit| && 0 <= j < |Checkpoint.Lines(files[path.value])| ==>
                    r.audit[k].token != Strip(Checkpoint.Lines(files[path.value])[j]))
            && (cfg.successCheckpoint && !cfg.dryRun ==> SucceedsOnce(r.audit))
  {
    var path := Checkpoint.SuccessCheckpointPath(checkpointSuccess, checkpoint);
    var loaded := Checkpoint.LoadCheckpoint(path, files);
    RunCoherent(cfg, lay, rows, oracle, loaded, false);
  }

  /** Outside a dry run, the success checkpoint receives exactly the tokens of
      the successful rows and the failure checkpoint exactly those of the other
      processed rows, each in log order, when configured; a success joins the
      skip set only when a success checkpoint is configured. */
  lemma CheckpointRouting(cfg: RunConfig, lay: Layout, rows: seq<Row>, oracle: seq<seq<Response<Payload>>>, loaded: set<string>)
    requires OracleFits(cfg, rows, oracle) && !cfg.dryRun
    ensures var r := Run(cfg, lay, rows, oracle, loaded);
            && r.successLog == (if cfg.successCheckpoint then SuccessTokens(r.audit) else [])
            && r.failedLog == (if cfg.failedCheckpoint then FailedTokens(r.audit) else [])
            && (cfg.successCheckpoint ==> |r.successLog| == r.totals.success)
            && (!cfg.successCheckpoint ==> r.done == loaded)
  {
    RunCoherent(cfg, lay, rows, oracle, loaded, false);
    assert Checkpoint.Elements([]) == {};
  }

  /** Validate mode exports every processed row exactly once: eligible rows to
      the eligible export, all others (failed and dry-run fetches included) to
      the ineligible one. The other modes export nothing. */
  lemma ValidateExports(cfg: RunConfig, lay: Layout, rows: seq<Row>, oracle: seq<seq<Response<Payload>>>, loaded: set<string>)
    requires OracleFits(cfg, rows, oracle)
    ensures var r := Run(cfg, lay, rows, oracle, loaded);
            && r.eligible == EligibleOf(r.audit)
            && r.ineligible == IneligibleOf(r.audit)
            && (cfg.mode == Validate ==> |r.eligible| + |r.ineligible| == r.totals.processed)
            && (cfg.mode == Validate ==>
                  forall k :: 0 <= k < |r.audit| ==>
                    && r.audit[k].validation.Some?
                    && (r.audit[k].validation.value.eligible ==>
                          ExportOf(r.audit[k], r.audit[k].validation.value) in r.eligible)
                    && (!r.audit[k].validation.value.eligible ==>
                          IneligibleEntry(r.audit[k], r.audit[k].validation.value) in r.ineligible))
            && (forall e :: e in r.eligible ==>
                  exists k :: 0 <= k < |r.audit| && r.audit[k].validation.Some? && r.audit[k].validation.value.eligible
                              && e == ExportOf(r.audit[k], r.audit[k].validation.value))
            && (forall e :: e in r.ineligible ==>
                  exists k :: 0 <= k < |r.audit| && r.audit[k].validation.Some? && !r.audit[k].validation.value.eligible
                              && e == IneligibleEntry(r.audit[k], r.audit[k].validation.value))
            && (cfg.mode != Validate ==> r.eligible == [] && r.ineligible == [])
  {
    var r := Run(cfg, lay, rows, oracle, loaded);
    RunCoherent(cfg, lay, rows, oracle, loaded, false);
    ExportsPartition(cfg.mode, r.audit);
  }

  /** The two exports split a validate-mode log: each has exactly one row per
      record of its kind. */
  lemma {:induction false} ExportsPartition(mode: Mode, audit: seq<AuditRecord>)
    requires forall k :: 0 <= k < |audit| ==> (audit[k].validation.Some? <==> mode == Validate)
    ensures |EligibleOf(audit)| == |EligibleIndices(audit)|
    ensures |IneligibleOf(audit)| == |IneligibleIndices(audit)|
    ensures mode == Validate ==> |EligibleOf(audit)| + |IneligibleOf(audit)| == |audit|
    ensures mode != Validate ==> EligibleOf(audit) == [] && IneligibleOf(audit) == []
    decreases |audit|
  {
    ExportCounts(audit);
    if audit != [] {
      ExportsPartition(mode, audit[..|audit| - 1]);
    }
  }

  /** Each export has one row per record of its kind. */
  lemma {:induction false} ExportCounts(audit: seq<AuditRecord>)
    ensures |EligibleOf(audit)| == |EligibleIndices(audit)|
    ensures |IneligibleOf(audit)| == |IneligibleIndices(audit)|
    decreases |audit|
  {
    if audit != [] {
      var prev := audit[..|audit| - 1];
      var last := audit[|audit| - 1];
      ExportCounts(prev);
      IndicesSnoc(audit);
      assert |EligibleOf(audit)| == |EligibleOf(prev)| + (if EligibleRecord(last) then 1 else 0);
      assert |IneligibleOf(audit)| == |IneligibleOf(prev)| + (if IneligibleRecord(last) then 1 else 0);
    }
  }

  /** A record in the eligible export. */
  predicate EligibleRecord(rec: AuditRecord) {
    rec.validation.Some? && rec.validation.value.eligible
  }

  /** A record in the ineligible export. */
  predicate IneligibleRecord(rec: AuditRecord) {
    rec.validation.Some? && !rec.validation.value.eligible
  }

  /** The positions of the eligible records of a log. */
  function EligibleIndices(audit: seq<AuditRecord>): set<int> {
    set k | 0 <= k < |audit| && EligibleRecord(audit[k])
  }

  /** The positions of the validated records of a log that are not eligible. */
  function IneligibleIndices(audit: seq<AuditRecord>): set<int> {
    set k | 0 <= k < |audit| && IneligibleRecord(audit[k])
  }

  /** Extending a log by one record adds its position to the set of its kind. */
  lemma IndicesSnoc(audit: seq<AuditRecord>)
    requires audit != []
    ensures var prev := audit[..|audit| - 1];
            var last := audit[|audit| - 1];
            && |EligibleIndices(audit)| == |EligibleIndices(prev)| + (if EligibleRecord(last) then 1 else 0)
            && |IneligibleIndices(audit)| == |IneligibleIndices(prev)| + (if IneligibleRecord(last) then 1 else 0)
  {
    EligibleSnoc(audit);
    IneligibleSnoc(audit);
  }

  lemma EligibleSnoc(audit: seq<AuditRecord>)
    requires audit != []
    ensures var prev := audit[..|audit| - 1];
            |EligibleIndices(audit)| == |EligibleIndices(prev)| + (if EligibleRecord(audit[|audit| - 1]) then 1 else 0)
  {
    var prev := audit[..|audit| - 1];
    var n := |audit| - 1;
    var more := if EligibleRecord(audit[n]) then {n} else {};
    assert EligibleIndices(audit) == EligibleIndices(prev) + more by {
      forall k ensures k in EligibleIndices(audit) <==> k in EligibleIndices(prev) + more {
        if 0 <= k < n {
          assert prev[k] == audit[k];
        }
      }
    }
    if EligibleRecord(audit[n]) {
      CardAddFresh(EligibleIndices(prev), n);
    }
  }

  lemma IneligibleSnoc(audit: seq<AuditRecord>)
    requires audit != []
    ensures var prev := audit[..|audit| - 1];
            |IneligibleIndices(audit)| == |IneligibleIndices(prev)| + (if IneligibleRecord(audit[|audit| - 1]) then 1 else 0)
  {
    var prev := audit[..|audit| - 1];
    var n := |audit| - 1;
    var more := if IneligibleRecord(audit[n]) then {n} else {};
    assert IneligibleIndices(audit) == IneligibleIndices(prev) + more by {
      forall k ensures k in IneligibleIndices(audit) <==> k in IneligibleIndices(prev) + more {
        if 0 <= k < n {
          assert prev[k] == audit[k];
        }
      }
    }
    if IneligibleRecord(audit[n]) {
      CardAddFresh(IneligibleIndices(prev), n);
    }
  }

  lemma CardAddFresh(a: set<int>, x: int)
    requires x !in a
    ensures |a + {x}| == |a| + 1
  {
  }

  /** Resuming: the skip set is loaded from `--checkpoint-success`, else
      `--checkpoint`. When that file ends in a complete line (it is new, empty
      or written only by the tool), the file after the run, with each success
      appended as `append_checkpoint` writes it, loads back as the final skip
      set, so a resumed run skips every token that succeeded. With no path
      configured nothing is skipped. */
  lemma ResumeReadsBackSkipSet(cfg: RunConfig, lay: Layout, rows: seq<Row>, oracle: seq<seq<Response<Payload>>>,
                               checkpointSuccess: Option<string>, checkpoint: Option<string>, files: map<string, string>)
    requires OracleFits(cfg, rows, oracle) && NoLineBreaks(rows, lay.tokenField)
    requires var path := Checkpoint.SuccessCheckpointPath(checkpointSuccess, checkpoint);
             && cfg.successCheckpoint == Truthy(path)
             && (Truthy(path) ==> Checkpoint.EndsLine(Checkpoint.Stored(path.value, files)))
    ensures var path := Checkpoint.SuccessCheckpointPath(checkpointSuccess, checkpoint);
            var r := Run(cfg, lay, rows, oracle, Checkpoint.LoadCheckpoint(path, files));
            && (Truthy(path) ==>
                  var after := Checkpoint.AppendAllAsWritten(Checkpoint.Stored(path.value, files), r.successLog);
                  Checkpoint.LoadCheckpoint(path, files[path.value := after]) == r.done)
            && (!Truthy(path) ==> r.done == {})
  {
    var path := Checkpoint.SuccessCheckpointPath(checkpointSuccess, checkpoint);
    var loaded := Checkpoint.LoadCheckpoint(path, files);
    var r := Run(cfg, lay, rows, oracle, loaded);
    RunCoherent(cfg, lay, rows, oracle, loaded, true);
    if Truthy(path) {
      var stored := Checkpoint.Stored(path.value, files);
      var after := Checkpoint.AppendAllAsWritten(stored, r.successLog);
      Checkpoint.LoadStored(path.value, files);
      SuccessLogWritable(cfg, loaded, r);
      Checkpoint.AppendAllAsWrittenAddsTokens(stored, r.successLog);
      Checkpoint.LoadStored(path.value, files[path.value := after]);
      assert Checkpoint.Stored(path.value, files[path.value := after]) == after;
    } else {
      assert Checkpoint.Elements([]) == {};
    }
  }

  /** With the corrected append (`Checkpoint.AppendAll`, which first ends an
      unterminated last line), the read-back holds whatever the file held. */
  lemma ResumeReadsBackSkipSetCorrected(cfg: RunConfig, lay: Layout, rows: seq<Row>, oracle: seq<seq<Response<Payload>>>,
                                        checkpointSuccess: Option<string>, checkpoint: Option<string>, files: map<string, string>)
    requires OracleFits(cfg, rows, oracle) && NoLineBreaks(rows, lay.tokenField)
    requires cfg.successCheckpoint == Truthy(Checkpoint.SuccessCheckpointPath(checkpointSuccess, checkpoint))
    ensures var path := Checkpoint.SuccessCheckpointPath(checkpointSuccess, checkpoint);
            var r := Run(cfg, lay, rows, oracle, Checkpoint.LoadCheckpoint(path, files));
            Truthy(path) ==>
              var after := Checkpoint.AppendAll(Checkpoint.Stored(path.value, files), r.successLog);
              Checkpoint.LoadCheckpoint(path, files[path.value := after]) == r.done
  {
    var path := Checkpoint.SuccessCheckpointPath(checkpointSuccess, checkpoint);
    var loaded := Checkpoint.LoadCheckpoint(path, files);
    var r := Run(cfg, lay, rows, oracle, loaded);
    RunCoherent(cfg, lay, rows, oracle, loaded, true);
    if Truthy(path) {
      var stored := Checkpoint.Stored(path.value, files);
      var after := Checkpoint.AppendAll(stored, r.successLog);
      Checkpoint.LoadStored(path.value, files);
      SuccessLogWritable(cfg, loaded, r);
      Checkpoint.AppendAllAddsTokens(stored, r.successLog);
      Checkpoint.LoadStored(path.value, files[path.value := after]);
      assert Checkpoint.Stored(path.value, files[path.value := after]) == after;
    }
  }

  /** Every token in the success log of a coherent state can be written as a line. */
  lemma SuccessLogWritable(cfg: RunConfig, loaded: set<string>, r: RunState)
    requires Coherent(cfg, loaded, true, r)
    ensures forall i :: 0 <= i < |r.successLog| ==> Checkpoint.Writable(r.successLog[i])
  {
    if cfg.successCheckpoint && !cfg.dryRun {
      forall i | 0 <= i < |r.successLog| ensures Checkpoint.Writable(r.successLog[i]) {
        assert r.successLog[i] in SuccessTokens(r.audit);
      }
    }
  }
}

=== FILE: sampling.dfy ===
/** The row source: single-pass reservoir sampling (`sample_rows`) and the
    choice between the sampled and the sequential stream. The random draws are
    an oracle: `draws[t]` is the value `random.randint(1, i)` returned for the
    1-based row `i = k + 1 + t`, the first row that is not kept outright. */
module Sampling {

  /** Every draw the sampler consumes is present and within `randint(1, i)`. */
  predicate ValidDraws(n: nat, k: int, draws: seq<int>) {
    k > 0 ==>
      && |draws| >= n - k
      && forall t :: 0 <= t < n - k ==> 1 <= draws[t] <= k + 1 + t
  }

  /** The 0-based row `w` is written into slot `s`: the first `k` rows fill the
      slots in order, a later row replaces slot `j - 1` when its draw `j` is at
      most `k`. */
  predicate Writes(k: int, draws: seq<int>, w: int, s: int) {
    || (0 <= w < k && w == s)
    || (0 <= k <= w && w - k < |draws| && draws[w - k] == s + 1)
  }

  /** Row `w` is the last of the first `n` rows to write slot `s`. */
  predicate LastWriter(k: int, draws: seq<int>, n: int, w: int, s: int) {
    && 0 <= w < n
    && Writes(k, draws, w, s)
    && forall v :: w < v < n ==> !Writes(k, draws, v, s)
  }

  /** The index of the last of the first `n` rows to write slot `s`, or -1. */
  function LastWrite(k: int, draws: seq<int>, n: nat, s: int): (w: int)
    ensures w == -1 ==> forall v :: 0 <= v < n ==> !Writes(k, draws, v, s)
    ensures w != -1 ==> LastWriter(k, draws, n, w, s)
  {
    if n == 0 then -1
    else if Writes(k, draws, n - 1, s) then n - 1
    else LastWrite(k, draws, n - 1, s)
  }

  /** The reservoir after the first `n` rows have been read. */
  function Reservoir<T>(rows: seq<T>, k: int, draws: seq<int>, n: nat): (r: seq<T>)
    requires k > 0 && n <= |rows| && ValidDraws(|rows|, k, draws)
    ensures |r| == if n <= k then n else k
    ensures n <= k ==> r == rows[..n]
    ensures forall s :: 0 <= s < |r| ==>
              0 <= LastWrite(k, draws, n, s) < n && r[s] == rows[LastWrite(k, draws, n, s)]
  {
    if n == 0 then []
    else
      var prev := Reservoir(rows, k, draws, n - 1);
      var w := n - 1;
      if n <= k then
        var r := prev + [rows[w]];
        assert r == rows[..n];
        forall s | 0 <= s < |r| ensures LastWrite(k, draws, n, s) == s {
          if LastWrite(k, draws, n, s) != s {
            assert Writes(k, draws, s, s);
          }
        }
        r
      else
        var j := draws[w - k];
        if j <= k then prev[j - 1 := rows[w]] else prev
  }

  /** `sample_rows`: a size `sample_size <= 0` yields nothing; otherwise each row
      is read once and the reservoir is returned. Every output slot holds the
      last row that wrote it, so every output element is an input row. */
  method SampleRows<T>(rows: seq<T>, sampleSize: int, draws: seq<int>) returns (reservoir: seq<T>)
    requires ValidDraws(|rows|, sampleSize, draws)
    ensures sampleSize <= 0 ==> reservoir == []
    ensures sampleSize > 0 ==> reservoir == Reservoir(rows, sampleSize, draws, |rows|)
    ensures sampleSize > 0 ==> |reservoir| == if |rows| <= sampleSize then |rows| else sampleSize
    ensures |rows| <= sampleSize ==> reservoir == rows
    ensures sampleSize > 0 ==>
              forall s :: 0 <= s < |reservoir| ==> reservoir[s] == rows[LastWrite(sampleSize, draws, |rows|, s)]
    ensures forall s :: 0 <= s < |reservoir| ==> reservoir[s] in rows
  {
    if sampleSize <= 0 {
      return [];
    }
    reservoir := [];
    var i := 1;
    while i <= |rows|
      invariant 1 <= i <= |rows| + 1
      invariant reservoir == Reservoir(rows, sampleSize, draws, i - 1)
    {
      var row := rows[i - 1];
      if i <= sampleSize {
        reservoir := reservoir + [row];
      } else {
        var j := draws[i - sampleSize - 1];
        if j <= sampleSize {
          reservoir := reservoir[j - 1 := row];
        }
      }
      i := i + 1;
    }
    assert rows[..|rows|] == rows;
    forall s | 0 <= s < |reservoir| ensures reservoir[s] in rows {
      var full := Reservoir(rows, sampleSize, draws, |rows|);
      assert full[s] == reservoir[s];
    }
  }

  /** Python's `s[:m]`: a negative bound counts from the end. */
  function SliceTo<T>(s: seq<T>, m: int): (r: seq<T>)
    ensures m >= 0 ==> |r| == if m <= |s| then m else |s|
    ensures m < 0 ==> |r| == if |s| + m >= 0 then |s| + m else 0
    ensures r <= s
  {
    if m >= 0 then s[..if m <= |s| then m else |s|]
    else s[..if |s| + m >= 0 then |s| + m else 0]
  }

  /** The rows the run loop iterates: the sample, cut to `max_rows` when both are
      set, or the whole input when no (non-zero) sample size is given. `0` stands
      for an unset option, as both are falsy in Python. */
  function SelectRows<T>(rows: seq<T>, sampleSize: int, maxRows: int, draws: seq<int>): (r: seq<T>)
    requires ValidDraws(|rows|, sampleSize, draws)
    ensures sampleSize == 0 ==> r == rows
    ensures sampleSize < 0 ==> r == []
    ensures sampleSize > 0 ==> r <= Reservoir(rows, sampleSize, draws, |rows|)
    ensures sampleSize > 0 ==>
              var n := if |rows| <= sampleSize then |rows| else sampleSize;
              |r| == if maxRows == 0 then n
                     else if maxRows > 0 then (if maxRows <= n then maxRows else n)
                     else (if n + maxRows >= 0 then n + maxRows else 0)
    ensures sampleSize > 0 && maxRows > 0 ==> |r| <= maxRows && |r| <= sampleSize
    ensures forall s :: 0 <= s < |r| ==> r[s] in rows
  {
    if sampleSize == 0 then rows
    else if sampleSize < 0 then []
    else
      var sample := Reservoir(rows, sampleSize, draws, |rows|);
      var r := if maxRows != 0 then SliceTo(sample, maxRows) else sample;
      forall s | 0 <= s < |r| ensures r[s] in rows {
        assert r[s] == sample[s];
      }
      r
  }
}

=== FILE: scenario.dfy ===
/** A worked run: three valid rows in cancel mode with one retry allowed, where
    the API accepts row 1, answers row 2 with a 503 and then accepts it, and
    answers row 3 with a permanent 404. */
module Scenario {
  import opened Base
  import opened Text
  import opened Classifier
  import opened Retry
  import opened Columns
  import opened Validation
  import opened Driver

  /** Text without upper-case ASCII letters is its own lower-cased form. */
  lemma LowerOfLowerCase(s: string)
    requires forall k :: 0 <= k < |s| ==> !('A' <= s[k] <= 'Z')
    ensures Lower(s) == s
  {
  }

  /** Text that lacks the first character of `t` does not contain `t`. */
  lemma {:induction false} MissingFirstChar(s: string, t: string)
    requires |t| > 0 && t[0] !in s
    ensures !Contains(s, t)
  {
    if |t| <= |s| {
      assert s[..|t|][0] == s[0];
    }
    if |s| > 0 {
      MissingFirstChar(s[1..], t);
    }
  }

  /** A message that mentions "not found" but not "already" is a not-found error. */
  lemma NotFoundWins(message: string)
    requires Contains(Lower(message), "not found") && !Contains(Lower(message), "already")
    ensures Classify(message) == NotFound
  {
    ContainsIff(Lower(message), "not found");
    ContainsIff(Lower(message), "already");
  }

  lemma NotFoundLowered()
    ensures Lower("not found") == "not found"
  {
    LowerOfLowerCase("not found");
  }

  lemma NotFoundMentions()
    ensures Contains("not found", "not found") && !Contains("not found", "already")
  {
    var msg := "not found";
    assert 'a' !in msg;
    MissingFirstChar(msg, "already");
    assert msg[..|"not found"|] == "not found";
  }

  /** The 404 message of the scenario is classified as not found. */
  lemma NotFoundMessage()
    ensures Classify("not found") == NotFound
  {
    NotFoundLowered();
    NotFoundMentions();
    NotFoundWins("not found");
  }

  /** The options of the run: cancel mode, not a dry run, no `--max-rows`, no
      run-level package, one retry, no checkpoint files. */
  function ScenarioConfig(backoff: real): RunConfig {
    RunConfig(Cancel, false, 0, None, 1, backoff, false, false, false)
  }

  /** What the API does for each row, attempt by attempt. */
  function ScenarioOracle(p: Payload): seq<seq<Response<Payload>>> {
    [ [Response.Ok(p), Response.Ok(p)],
      [HttpErr(Some(503), "unavailable"), Response.Ok(p)],
      [HttpErr(Some(404), "not found"), HttpErr(Some(404), "not found")] ]
  }

  /** The row is sent to the API: it has a token that was not loaded and a package. */
  predicate Dispatched(lay: Layout, row: Row, loaded: set<string>) {
    Triage(TokenOf(row, lay.tokenField), loaded, PickPackage(row, lay.packageField, None), None).Dispatch?
  }

  /** Row 1: accepted at the first attempt. */
  lemma FirstRowCall(backoff: real, p: Payload)
    ensures var r := Call(ScenarioConfig(backoff), ScenarioOracle(p)[0]);
            r.status == Success && r.attempts == 1 && r.httpStatus == Some(204)
  {
    var e := Execute(ScenarioOracle(p)[0], 1, backoff, 204);
    assert e.result.attempts == 1;
  }

  /** Row 2: a 503 is retried once, then accepted. */
  lemma SecondRowCall(backoff: real, p: Payload)
    ensures var r := Call(ScenarioConfig(backoff), ScenarioOracle(p)[1]);
            r.status == Success && r.attempts == 2
  {
    var rs := ScenarioOracle(p)[1];
    assert Retryable(rs[0]);
    var e := Execute(rs, 1, backoff, 204);
    assert e.result.attempts == 2;
  }

  /** Row 3: a 404 is not retried and is classified as not found. */
  lemma ThirdRowCall(backoff: real, p: Payload)
    ensures var r := Call(ScenarioConfig(backoff), ScenarioOracle(p)[2]);
            && r.status == Failure && r.attempts == 1
            && r.httpStatus == Some(404) && r.errorType == Some(NotFound)
  {
    var rs := ScenarioOracle(p)[2];
    assert !Retryable(rs[0]);
    NotFoundMessage();
    var e := Execute(rs, 1, backoff, 204);
    assert e.result.attempts == 1;
  }

  /** The run visits the three rows in order; `--max-rows` is off. */
  lemma ScenarioUnfolds(lay: Layout, rows: seq<Row>, loaded: set<string>, backoff: real, p: Payload)
    requires |rows| == 3
    ensures var st0 := Init(loaded);
            var st1 := RowStep(lay, rows, backoff, p, 0, st0);
            var st2 := RowStep(lay, rows, backoff, p, 1, st1);
            Run(ScenarioConfig(backoff), lay, rows, ScenarioOracle(p), loaded)
              == RowStep(lay, rows, backoff, p, 2, st2)
  {
    var cfg := ScenarioConfig(backoff);
    var oracle := ScenarioOracle(p);
    assert OracleFits(cfg, rows, oracle);
    var st0 := Init(loaded);
    var st1 := RowStep(lay, rows, backoff, p, 0, st0);
    var st2 := RowStep(lay, rows, backoff, p, 1, st1);
    var st3 := RowStep(lay, rows, backoff, p, 2, st2);
    assert RunFrom(cfg, lay, rows, oracle, 0, st0) == RunFrom(cfg, lay, rows, oracle, 1, st1);
    assert RunFrom(cfg, lay, rows, oracle, 1, st1) == RunFrom(cfg, lay, rows, oracle, 2, st2);
    assert RunFrom(cfg, lay, rows, oracle, 2, st2) == RunFrom(cfg, lay, rows, oracle, 3, st3);
  }

  /** The counter each row increments and the attempts it takes. */
  function Expected(i: nat): (Bucket, int) {
    if i == 0 then (BSuccess, 1) else if i == 1 then (BSuccess, 2) else (BPermanent, 1)
  }

  /** Row `i` is logged with its expected attempts and counted in its expected bucket. */
  lemma RowCounts(lay: Layout, rows: seq<Row>, loaded: set<string>, backoff: real, p: Payload, i: nat, st: RunState)
    requires |rows| == 3 && i < 3
    requires Dispatched(lay, rows[i], loaded) && st.done == loaded
    ensures var r := RowStep(lay, rows, backoff, p, i, st);
            && r.totals == Count(st.totals, Expected(i).0)
            && |r.audit| == |st.audit| + 1 && r.audit[..|st.audit|] == st.audit
            && r.audit[|st.audit|].attempts == Expected(i).1
            && r.done == loaded
  {
    RowStepFacts(lay, rows, loaded, backoff, p, i, st);
    if i == 0 {
      FirstRowCall(backoff, p);
    } else if i == 1 {
      SecondRowCall(backoff, p);
    } else {
      ThirdRowCall(backoff, p);
    }
  }

  /** Two successes and one permanent failure, counted from the initial totals. */
  lemma CountsAddUp(loaded: set<string>)
    ensures Count(Count(Count(Init(loaded).totals, BSuccess), BSuccess), BPermanent) == Totals(3, 2, 0, 0, 1, 0, 0)
  {
    var t0 := Init(loaded).totals;
    assert t0 == Totals(0, 0, 0, 0, 0, 0, 0);
    var t1 := Count(t0, BSuccess);
    var t2 := Count(t1, BSuccess);
    var t3 := Count(t2, BPermanent);
    assert t2.processed == 2 && t2.success == 2 && t2.failedPermanent == 0;
    assert t3.alreadyCancelled == 0 && t3.failedTransient == 0 && t3.dryRun == 0 && t3.skipped == 0;
  }

  /** The end-to-end run: three rows processed, two successes, one permanent
      failure, and two attempts for the second row. */
  lemma ScenarioTotals(lay: Layout, rows: seq<Row>, loaded: set<string>, backoff: real, p: Payload)
    requires |rows| == 3
    requires forall i :: 0 <= i < 3 ==> Dispatched(lay, rows[i], loaded)
    ensures var r := Run(ScenarioConfig(backoff), lay, rows, ScenarioOracle(p), loaded);
            && r.totals == Totals(3, 2, 0, 0, 1, 0, 0)
            && |r.audit| == 3 && r.audit[1].attempts == 2
  {
    var st0 := Init(loaded);
    var st1 := RowStep(lay, rows, backoff, p, 0, st0);
    var st2 := RowStep(lay, rows, backoff, p, 1, st1);
    var st3 := RowStep(lay, rows, backoff, p, 2, st2);
    RowCounts(lay, rows, loaded, backoff, p, 0, st0);
    RowCounts(lay, rows, loaded, backoff, p, 1, st1);
    RowCounts(lay, rows, loaded, backoff, p, 2, st2);
    assert st3.audit[1] == st3.audit[..|st2.audit|][1] == st2.audit[1];
    CountsAddUp(loaded);
    ScenarioUnfolds(lay, rows, loaded, backoff, p);
  }

  /** One row of the scenario: it is dispatched and logged, and the skip set
      stays the loaded one. */
  lemma RowStepFacts(lay: Layout, rows: seq<Row>, loaded: set<string>, backoff: real, p: Payload, i: nat, st: RunState)
    requires |rows| == 3 && i < 3
    requires Dispatched(lay, rows[i], loaded) && st.done == loaded
    ensures var cfg := ScenarioConfig(backoff);
            var oracle := ScenarioOracle(p);
            var token := TokenOf(rows[i], lay.tokenField);
            var package := PickPackage(rows[i], lay.packageField, None);
            var r := RowStep(lay, rows, backoff, p, i, st);
            && r == Record(cfg, RecordOf(cfg, token, package.value, rows[i], lay, i + 1, Call(cfg, oracle[i])), st)
            && r.done == loaded
  {
  }

  /** The state after row `i` of the scenario. */
  function RowStep(lay: Layout, rows: seq<Row>, backoff: real, p: Payload, i: nat, st: RunState): RunState
    requires i < |rows| == 3
  {
    Step(ScenarioConfig(backoff), lay, rows[i], i + 1, ScenarioOracle(p)[i], st)
  }
}

=== FILE: text.dfy ===
/** The three Python string operations the tool relies on: `str.strip()`,
    `str.lower()` and the substring test `needle in haystack`. */
module Text {

  /** Python's `str.isspace()` for a single code point: the characters `strip()`
      removes when called without arguments. */
  predicate IsSpace(c: char) {
    || c == ' '
    || ('\t' <= c <= '\r')
    || ('\U{1C}' <= c <= '\U{1F}')
    || c == '\U{85}' || c == '\U{A0}' || c == '\U{1680}'
    || ('\U{2000}' <= c <= '\U{200A}')
    || c == '\U{2028}' || c == '\U{2029}' || c == '\U{202F}'
    || c == '\U{205F}' || c == '\U{3000}'
  }

  /** Every character of `s` is white space (true of the empty string). */
  predicate AllSpace(s: string) {
    forall k :: 0 <= k < |s| ==> IsSpace(s[k])
  }

  /** Every character of `s` at an index in `[lo, hi)` is white space. */
  predicate SpaceBetween(s: string, lo: int, hi: int) {
    forall m :: lo <= m < hi && 0 <= m < |s| ==> IsSpace(s[m])
  }

  /** `r` sits in `s` at offset `i` with only white space around it. */
  predicate StrippedAt(s: string, r: string, i: int) {
    && 0 <= i && i + |r| <= |s|
    && s[i..i + |r|] == r
    && SpaceBetween(s, 0, i)
    && SpaceBetween(s, i + |r|, |s|)
  }

  /** Neither end of `r` is white space. */
  predicate Clean(r: string) {
    r == [] || (!IsSpace(r[0]) && !IsSpace(r[|r| - 1]))
  }

  /** The first index at or after `k` that is not white space, or `|s|`. */
  function SkipSpace(s: string, k: nat): (r: nat)
    requires k <= |s|
    ensures k <= r <= |s|
    ensures SpaceBetween(s, k, r)
    ensures r < |s| ==> !IsSpace(s[r])
    decreases |s| - k
  {
    if k == |s| || !IsSpace(s[k]) then k else SkipSpace(s, k + 1)
  }

  /** Going back from `k` towards `lo`: the end of the last character in
      `[lo, k)` that is not white space, or `lo`. */
  function SkipSpaceBack(s: string, lo: nat, k: nat): (r: nat)
    requires lo <= k <= |s|
    ensures lo <= r <= k
    ensures SpaceBetween(s, r, k)
    ensures r > lo ==> !IsSpace(s[r - 1])
    decreases k
  {
    if k == lo || !IsSpace(s[k - 1]) then k else SkipSpaceBack(s, lo, k - 1)
  }

  /** Where `Strip(s)` starts in `s`: after the leading white space. */
  function StripOffset(s: string): nat {
    SkipSpace(s, 0)
  }

  /** Python's `s.strip()`: `s` with leading and trailing white space removed. */
  function Strip(s: string): (r: string)
    ensures StrippedAt(s, r, StripOffset(s))
    ensures Clean(r)
  {
    var i := StripOffset(s);
    s[i..SkipSpaceBack(s, i, |s|)]
  }

  /** Stripping only removes characters: a character absent from `s` is absent
      from `Strip(s)`. */
  lemma StripKeepsAbsent(s: string, c: char)
    requires c !in s
    ensures c !in Strip(s)
  {
  }

  /** Two clean non-empty strings that both sit in `s` with white space around
      them are the same string at the same offset. */
  lemma SameSpan(s: string, r: string, i: int, r': string, i': int)
    requires StrippedAt(s, r, i) && Clean(r) && r != []
    requires StrippedAt(s, r', i') && Clean(r') && r' != []
    ensures r == r'
  {
    assert s[i] == r[0] && s[i'] == r'[0];
    var e, e' := i + |r|, i' + |r'|;
    assert s[e - 1] == r[|r| - 1] && s[e' - 1] == r'[|r'| - 1];
    assert i == i' && e == e';
  }

  /** `Strip` is the only clean string that sits in `s` with white space around it. */
  lemma StripUnique(s: string, r: string, i: int)
    requires StrippedAt(s, r, i) && Clean(r)
    ensures Strip(s) == r
  {
    StripEmptyIff(s);
    if r != [] {
      assert s[i] == r[0];
      SameSpan(s, r, i, Strip(s), StripOffset(s));
    }
  }

  /** `strip()` is idempotent: a stripped token strips to itself. */
  lemma StripIdempotent(s: string)
    ensures Strip(Strip(s)) == Strip(s)
  {
    var r := Strip(s);
    StripUnique(r, r, 0);
  }

  /** Appending white space (a line's `\n`, say) does not change the strip. */
  lemma StripAppendSpace(s: string, c: char)
    requires IsSpace(c)
    ensures Strip(s + [c]) == Strip(s)
  {
    var r, i := Strip(s), StripOffset(s);
    var t := s + [c];
    assert forall m :: 0 <= m < |s| ==> t[m] == s[m];
    assert t[|s|] == c;
    assert t[i..i + |r|] == s[i..i + |r|];
    StripUnique(t, r, i);
  }

  /** `s.strip()` is empty exactly when `s` is blank (empty or all white space). */
  lemma StripEmptyIff(s: string)
    ensures Strip(s) == "" <==> AllSpace(s)
  {
    var r, i := Strip(s), StripOffset(s);
    assert |r| == 0 ==> SpaceBetween(s, 0, |s|);
  }

  /** ASCII case folding of one character. */
  function LowerChar(c: char): char {
    if 'A' <= c <= 'Z' then (c as int + 32) as char else c
  }

  /** `str.lower()` on the ASCII letters; every other character is kept. */
  function Lower(s: string): (r: string)
    ensures |r| == |s|
    ensures forall k :: 0 <= k < |s| ==> r[k] == LowerChar(s[k])
  {
    if |s| == 0 then [] else [LowerChar(s[0])] + Lower(s[1..])
  }

  /** Lowering is idempotent, so a lower-cased message classifies like the original. */
  lemma LowerIdempotent(s: string)
    ensures Lower(Lower(s)) == Lower(s)
  {
  }

  /** `t` occurs in `s` starting at offset `i`. */
  predicate OccursAt(s: string, t: string, i: int) {
    0 <= i && i + |t| <= |s| && s[i..i + |t|] == t
  }

  /** Python's `t in s`, stated as an occurrence of `t` at some index of `s`. */
  ghost predicate Mentions(s: string, t: string) {
    exists i :: OccursAt(s, t, i)
  }

  /** Python's `t in s` for strings, defined by scanning `s` left to right. */
  predicate Contains(s: string, t: string) {
    (|t| <= |s| && s[..|t|] == t) || (|s| > 0 && Contains(s[1..], t))
  }

  /** Dropping the first character of `s` moves every occurrence one place left. */
  lemma OccursShift(s: string, t: string, i: nat)
    requires |s| > 0
    ensures OccursAt(s[1..], t, i) <==> OccursAt(s, t, i + 1)
  {
    if i + 1 + |t| <= |s| {
      assert s[1..][i..i + |t|] == s[i + 1..i + 1 + |t|];
    }
  }

  /** The scan agrees with the positional reading of `t in s`. */
  lemma {:induction false} ContainsIff(s: string, t: string)
    ensures Contains(s, t) <==> exists i :: OccursAt(s, t, i)
  {
    if |t| <= |s| && s[..|t|] == t {
      assert OccursAt(s, t, 0);
    } else if |s| > 0 {
      ContainsIff(s[1..], t);
      if Contains(s[1..], t) {
        var i :| OccursAt(s[1..], t, i);
        OccursShift(s, t, i);
      } else {
        forall i | OccursAt(s, t, i) ensures false {
          if i > 0 {
            OccursShift(s, t, i - 1);
          }
        }
      }
    } else {
      forall i | OccursAt(s, t, i) ensures false {
      }
    }
  }

  /** The scan and the occurrence predicate agree. */
  lemma ContainsMentions(s: string, t: string)
    ensures Contains(s, t) == Mentions(s, t)
  {
    ContainsIff(s, t);
  }
}

=== FILE: validation.dfy ===
/** The fields validate mode reads from a `subscriptionsv2.get` payload, and the
    revoke-eligibility rule. The payload is modelled as the parts of the JSON
    object the tool reads; a missing key is `None`, a missing or empty
    `lineItems` list is `[]`. */
module Validation {
  import opened Base

  /** The subscription states for which a prorated revoke is worth attempting. */
  const EligibleStates: set<string> := {
    "SUBSCRIPTION_STATE_ACTIVE",
    "SUBSCRIPTION_STATE_IN_GRACE_PERIOD",
    "SUBSCRIPTION_STATE_ON_HOLD",
    "SUBSCRIPTION_STATE_PAUSED"
  }

  /** One entry of `lineItems`: its `expiryTime`, its
      `autoRenewingPlan.autoRenewEnabled` and its `latestSuccessfulOrderId`. */
  datatype LineItem = LineItem(
    expiryTime: Option<string>,
    autoRenewEnabled: Option<bool>,
    latestSuccessfulOrderId: Option<string>)

  /** The parts of a subscription resource the tool reads. */
  datatype Payload = Payload(
    subscriptionState: Option<string>,
    latestOrderId: Option<string>,
    lineItems: seq<LineItem>)

  /** What validate mode reports about one subscription. */
  datatype ValidationFields = ValidationFields(
    subscriptionState: Option<string>,
    expiryTime: Option<string>,
    autoRenewEnabled: Option<bool>,
    latestOrderId: Option<string>,
    eligible: bool)

  /** A subscription is eligible exactly when its state is one of the listed ones. */
  predicate EligibleState(state: Option<string>) {
    state.Some? && state.value in EligibleStates
  }

  /** The validation fields of a fetch result; a failed or dry-run fetch carries
      no payload and reads as an empty object. The first line item supplies the
      expiry time and the auto-renew flag, and its latest successful order id
      takes precedence over the top-level one whenever it is non-empty. */
  function Extract(payload: Option<Payload>): (v: ValidationFields)
    ensures v.eligible <==> EligibleState(v.subscriptionState)
    ensures payload.None? ==> v == ValidationFields(None, None, None, None, false)
    ensures payload.Some? ==> v.subscriptionState == payload.value.subscriptionState
    ensures payload.Some? && payload.value.lineItems == [] ==>
              && v.expiryTime.None? && v.autoRenewEnabled.None?
              && v.latestOrderId == payload.value.latestOrderId
    ensures payload.Some? && payload.value.lineItems != [] ==>
              var first := payload.value.lineItems[0];
              && v.expiryTime == first.expiryTime
              && v.autoRenewEnabled == first.autoRenewEnabled
              && v.latestOrderId == (if Truthy(first.latestSuccessfulOrderId) then first.latestSuccessfulOrderId
                                     else payload.value.latestOrderId)
  {
    var p := if payload.Some? then payload.value else Payload(None, None, []);
    var state := p.subscriptionState;
    var expiry := if p.lineItems != [] then p.lineItems[0].expiryTime else None;
    var autoRenew := if p.lineItems != [] then p.lineItems[0].autoRenewEnabled else None;
    var latest :=
      if p.lineItems != [] && Truthy(p.lineItems[0].latestSuccessfulOrderId) then p.lineItems[0].latestSuccessfulOrderId
      else p.latestOrderId;
    ValidationFields(state, expiry, autoRenew, latest, state in {Some("SUBSCRIPTION_STATE_ACTIVE"),
      Some("SUBSCRIPTION_STATE_IN_GRACE_PERIOD"), Some("SUBSCRIPTION_STATE_ON_HOLD"), Some("SUBSCRIPTION_STATE_PAUSED")})
  }

  /** A fetch that returned nothing is never eligible, so it is exported as
      ineligible together with genuinely ineligible subscriptions. */
  lemma NoPayloadNeverEligible()
    ensures !Extract(None).eligible
  {
  }

  /** Eligibility depends on the subscription state alone. */
  lemma EligibilityIgnoresLineItems(a: Payload, b: Payload)
    requires a.subscriptionState == b.subscriptionState
    ensures Extract(Some(a)).eligible == Extract(Some(b)).eligible
  {
  }
}
